=== FILE: README.md ===
# Warehouse robotics fleet simulator — Dafny model

This project models the core of a warehouse fleet simulator. The warehouse
holds shelves laid out in a grid, with aisles between them and padding around
them. Pick-and-drop tasks are handed to a mixed fleet of drones and ground
robots (AMRs).

The centre of the model is the task allocator. In the `regional` scheme it
works in four steps:

1. It clusters the tasks into one region per AMR.
2. It untangles crossing AMR-to-region routes by swapping AMRs.
3. It deals the drones out to the regions, then rebalances them by drones per
   task.
4. It sweeps each region's tasks out to its drones, farthest task first. Each
   task is split at the region centre into a drone leg and an AMR leg.

The homogeneous schemes hand the tasks round-robin to one kind of robot, or to
the whole fleet. Around the allocator the model covers:

- the robot and fleet queries;
- Manhattan path planning;
- the warehouse geometry: shelves, zones and the occupancy grid;
- the parameter-sweep expansion of the evaluator.

The modules follow the Python modules:

| Dafny file | module | models |
|---|---|---|
| common.dfy | `Common` | results and errors, flattening, stable sort by key, first-minimum, filters, chunking |
| utils.dfy | `Utils` | `Point`, `Zone`, `Task`, `TaskList`, `populate_randomly` |
| path_planning.dfy | `PathPlanning` | `calc_manhattan_path` |
| warehouse_map.dfy | `WarehouseMap` | `initialize_info`, `generate_zones`, `make_occupancy_matrix`, `cell_blocked` |
| robot_fleet.dfy | `RobotFleet` | `Robot`, `Fleet` and their queries, `populate_by_composition` |
| swap_refine.dfy | `SwapRefine` | the "swap any crossing pair and restart" loop the allocator uses three times |
| regions.dfy | `Regions` | `Region`, `create_Regions`, `assign_AMRs2Regions` |
| drone_balance.dfy | `DroneBalance` | `assign_Drones2Regions` |
| sweeps.dfy | `Sweeps` | `split_task_by_point`, `assign_Tasks2Agents`, `assign_Tasks2Fleet_homogeneous` |
| task_allocation.dfy | `TaskAllocation` | `TaskAllocator`, `check_for_input_error`, `populate_fleet` |
| evaluation.dfy | `Evaluation` | `SimParam`, `log`, `recursive_split_wh_info`, `generate_fleet_comp` |

**Conventions.**

- *Values, not objects.* The Python objects are mutable. The model treats them
  as values.
  - Each operation returns the updated regions, fleet or robot.
  - The allocator returns its assignments as a log of `(robot id, task)` pairs,
    in the order `add_task` would be called. `ApplyLog` then hands each robot
    its share.
- *Errors.* Exceptions become `Err` values. The error kinds are:
  - `KeyError`: a missing fleet group;
  - `ValueError`: clustering with an impossible cluster count, or `min` of an
    empty list;
  - `ZeroDivision`;
  - `IndexError`;
  - `AttributeError`;
  - `NameError`: a name that no module in scope defines or imports.

  Two more error values stand for loops that do not end:
  - `Hangs`: a `while` loop that provably never ends. An example is a region
    that has tasks but no drones.
  - `OutOfFuel`: a fuel bound ran out while swapping crossing paths.
- *Inputs for code outside the model.* Where the Python calls code the model
  does not contain, the result comes in as a parameter:
  - the k-means labels and centroids;
  - the segment-intersection test `intersect`, as `crosses`;
  - the random picks of `populate_randomly`.

## Model

One-line definitions that only transcribe a Python expression have no row of
their own: `Utils.IsInside`, `Utils.Corners`, `Utils.XRange`, `Utils.YRange`,
`Utils.ZRange` and `RobotFleet.RobotLess`. The lemmas that state their
properties have rows: `InsideIffBetweenCorners`,
`NonEmptyIffRangesNonNegative`, `RobotLessIsStrictOrder`, `RobotLessAddPaths`
and `LongestIsGreatest`.

| member | source | states |
|---|---|---|
| `Utils.InsideIffBetweenCorners` | utils.py:19-30 | a point is inside a zone exactly when each coordinate lies between the two corners' coordinates, both ends included |
| `Utils.NonEmptyIffRangesNonNegative` | utils.py:25-37 | a zone contains some point exactly when none of its three ranges is negative, and then both corners are inside it |
| `Utils.NewTask` | utils.py:39-47 | a fresh task keeps its id, pick and drop, is unassigned, and is neither started nor done |
| `Utils.PopulateRandomly` | utils.py:68-73 | it fails exactly when it must draw from an empty point list; otherwise it appends n tasks after the existing ones, with ids prefix+index, picks and drops from the given lists, and pairwise distinct new ids |
| `PathPlanning.CalcManhattanPath` | path_planning.py:14-45 | the path runs from the start cell to the end cell and has one cell more than the Manhattan distance |
| `PathPlanning.ManhattanPathSteps` | path_planning.py:20-43 | consecutive cells differ by one unit along exactly one axis, with x moves first, then y, then z |
| `PathPlanning.ManhattanPathDistances` | path_planning.py:20-45 | the p-th cell is p steps from the start and the rest of the path's length from the end, so the path is a shortest one |
| `PathPlanning.ManhattanPathMonotone` | path_planning.py:20-43 | on every axis a later cell is no farther from the end cell than an earlier one, so no coordinate backtracks |
| `PathPlanning.ManhattanPathToSelf` | path_planning.py:14-45 | a path from a cell to itself is that single cell |
| `WarehouseMap.InitializeInfo` | warehouse_map.py:23-47 | shelf sizes are bin counts times bin sizes, so each shelf holds a whole number of bins; all other settings are copied unchanged |
| `WarehouseMap.ShelfColumnsAt` | warehouse_map.py:58-68 | shelf (i, j) of the generated list is the zone at column offset i·(shelf+aisle) and row offset j·(shelf+aisle), shifted by the paddings |
| `WarehouseMap.ShelvesAt` | warehouse_map.py:55-68 | the list has count_x·count_y shelves, in column-major order |
| `WarehouseMap.WhZone` | warehouse_map.py:71-75 | the floor zone starts at the origin and spans the shelving block plus both paddings on each axis |
| `WarehouseMap.ShelfZone` | warehouse_map.py:78-82 | the shelf zone starts at the leading paddings and spans exactly the shelving block (corrected y bound) |
| `WarehouseMap.GenerateZones` | warehouse_map.py:49-86 | corrected y bound: count_x·count_y shelves, a shelf zone that spans the shelving block from the leading paddings, and a floor zone from the origin that adds all paddings; in a proper layout every shelf lies in the shelf zone and the shelf zone in the floor |
| `WarehouseMap.ShelfWithinZones` | warehouse_map.py:51-82 | for a proper layout every shelf lies inside the shelf zone, which lies inside the floor zone |
| `WarehouseMap.ShelvesWithinFloor` | warehouse_map.py:51-82 | every generated shelf lies inside both the shelf zone and the floor zone |
| `WarehouseMap.ShelfZoneAsWrittenMissesShelves` | warehouse_map.py:78-82 | in a proper layout the shelf zone as written holds every shelf exactly when the shelving block is no deeper in y than it is wide in x |
| `WarehouseMap.WideLayoutMissesShelf` | warehouse_map.py:78-82 | a proper layout with xlim = 200 and ylim = 230, where shelf (0, 1) reaches y = 230 and the zone as written stops at y = 200 |
| `WarehouseMap.OccupancyMatrix` | warehouse_map.py:213-227 | the matrix spans the floor zone, each extent times the resolution, and a cell is True exactly when a blocked zone's clamped slice covers it; a negative extent is a ValueError, which a proper layout never has |
| `WarehouseMap.MakeOccupancy` | warehouse_map.py:213-227 | the matrix built from the blocked zones has the requested shape, nx by ny by nz, whatever the zones |
| `WarehouseMap.OccupancyIff` | warehouse_map.py:213-227 | a cell is marked occupied exactly when some blocked zone's clamped slice covers it |
| `WarehouseMap.OccupancyHalfOpen` | warehouse_map.py:221-226 | inside the grid a zone marks the cells from its lower corner up to, but not including, its upper corner |
| `WarehouseMap.WrapIndex` | warehouse_map.py:268-277 | a negative index counts from the end; an index outside [-n, n) is an IndexError |
| `WarehouseMap.CellBlocked` | warehouse_map.py:268-277 | the lookup succeeds exactly when every coordinate lies in [-n, n) for its axis length n, and a negative coordinate counts from the end of its axis (it reads the coordinate modulo n); a cell inside the grid reads its own entry |
| `WarehouseMap.CellBlockedIffCovered` | warehouse_map.py:268-277 | the lookup fails outside [-n, n) on some axis; otherwise the cell is blocked exactly when a blocked zone covers the cell its coordinates wrap to, which inside the grid is the cell itself |
| `RobotFleet.NewRobot` | robot_fleet.py:12-17 | a new robot has no tasks and a one-cell path, and its position at every time is its start |
| `RobotFleet.PathLen` | robot_fleet.py:26-27 | a path length is never zero: every robot's path holds at least its starting point |
| `RobotFleet.PathLenIsSegmentTotal` | robot_fleet.py:26-27 | the path length is the total length of its segments |
| `RobotFleet.LookupPos` | robot_fleet.py:29-36 | the position at any time step is one of the points on the robot's path |
| `RobotFleet.LookupPosInSegment` | robot_fleet.py:29-36 | the position at a segment's start time plus offset o is cell o of that segment |
| `RobotFleet.LookupPosParks` | robot_fleet.py:29-36 | after its last time step a robot stays at the final cell |
| `RobotFleet.LookupPosAndRemaining` | robot_fleet.py:38-46 | gives the same position as the lookup and the remaining steps, which are negative exactly when the time is past the path |
| `RobotFleet.AddTaskAsWritten` | robot_fleet.py:48-50 | the task is stamped with the robot's id, but reaching the task list's missing method raises an AttributeError |
| `RobotFleet.AddTask` | robot_fleet.py:48-50 | corrected: the task is stamped with the robot's id and appended to the robot's task list; nothing else about the robot changes |
| `RobotFleet.AddTasksAppends` | robot_fleet.py:48-50 | repeated adds keep the old tasks and append each new one, in order, stamped with the robot's id |
| `RobotFleet.AddPaths` | robot_fleet.py:52-53 | segments go after the existing path; the length grows by their total and earlier positions are unchanged |
| `RobotFleet.RobotLessIsStrictOrder` | robot_fleet.py:22-24 | robots compare by path length, a strict weak order: two robots are unordered exactly when their paths are equally long |
| `RobotFleet.RobotLessAddPaths` | robot_fleet.py:22-24 | adding path segments never makes a robot less than before, and makes the old robot less exactly when the segments hold a cell |
| `RobotFleet.LongestIsGreatest` | robot_fleet.py:125-128 | a robot with the selection's longest path has no selected robot above it |
| `RobotFleet.RobotsAsList` | robot_fleet.py:116-123 | `All` is every group's robots in group order; a kind is that group's robots, and a missing kind is a KeyError |
| `RobotFleet.GroupOffsets` | robot_fleet.py:116-123 | each group's robots appear as one contiguous block of the full list |
| `RobotFleet.OnlyListInAllList` | robot_fleet.py:116-123 | the robots of one kind are among the robots of the whole fleet |
| `RobotFleet.LongestPathLen` | robot_fleet.py:125-128 | the maximum path length over the selection; undefined exactly when the selection is missing or empty |
| `RobotFleet.ClosestRobots` | robot_fleet.py:131-146 | the robots of the selection whose distance to the point at time t is minimal, all of them, in fleet order |
| `RobotFleet.ClosestRobotsAtEndPath` | robot_fleet.py:148-166 | the robots nearest the point at the time the selection's longest path ends, chosen from the whole fleet |
| `RobotFleet.MakeBots` | robot_fleet.py:104-107 | n robots named letter+index, placed on consecutive start points |
| `RobotFleet.SetGroup` | robot_fleet.py:101-114 | the kind's group becomes the new robots; other kinds are unchanged |
| `RobotFleet.Compose` | robot_fleet.py:95-114 | succeeds exactly when the start points suffice for the requested robots; the fleet has one group per kind |
| `RobotFleet.PopulateByComposition` | robot_fleet.py:92-114 | a composition can be built exactly when there are enough start points; the result has one group per kind |
| `RobotFleet.DroneAmrComposition` | robot_fleet.py:92-114 | a drones-then-AMRs composition yields drones D0.. on the first start points and AMRs A0.. on the next |
| `SwapRefine.Refine` | task_allocation.py:143-162 | swapping crossing pairs only permutes the assignment; when it finishes, no pair in the last row crosses |
| `SwapRefine.RefineWithoutCrossings` | task_allocation.py:143-162 | with no crossing pairs nothing is swapped |
| `Regions.Trunc` | task_allocation.py:115 | truncation toward zero, as Python's `int` does on floats |
| `Regions.LabelledIsSubsequence` | task_allocation.py:118 | a region's tasks keep the task list's order |
| `Regions.LabelledMembers` | task_allocation.py:118 | a task belongs to region i exactly when some occurrence of it carries label i |
| `Regions.CreateRegions` | task_allocation.py:97-132 | one region per AMR, or a ValueError when the cluster count is impossible; region i has id R+i, the truncated centroid at height 5, AMR i, no drones, and the tasks labelled i |
| `Regions.CreateRegionsPartitions` | task_allocation.py:97-132 | the regions' task lists together are a permutation of all tasks, and region ids are distinct |
| `Regions.AssignAmrs` | task_allocation.py:134-167 | only the AMRs move, as a permutation across regions; when the loop finishes, the last region's route crosses no other |
| `Regions.AssignAmrsWithoutCrossings` | task_allocation.py:143-162 | with no crossing routes every region keeps its AMR |
| `DroneBalance.Nearest` | task_allocation.py:181 | the index of the nearest idle drone, the first one among equals |
| `DroneBalance.DealFrom` | task_allocation.py:178-185 | corrected `Fleet.add`: the region whose turn it is receives its nearest remaining idle drone, first on a tie, at the end of its list; every idle drone ends in exactly one region and each region from the current one gets a drone while any is left |
| `DroneBalance.Deal` | task_allocation.py:175-185 | corrected `Fleet.add`: every idle drone ends up in some region with no drone lost or gained, no region shrinks, the first region first receives its nearest idle drone, and with enough drones every region gets one; no regions and some drones hangs |
| `DroneBalance.DealAsWritten` | task_allocation.py:175-185 | as written: any idle drone to deal makes `r.fleet.add` raise AttributeError (or hangs with no regions); only a deal with no idle drones finishes, unchanged |
| `DroneBalance.DealAsWrittenFails` | task_allocation.py:175-185 | with a region and an idle drone the deal as written fails where the corrected one succeeds; with no idle drone both return the regions |
| `DroneBalance.Spread` | task_allocation.py:197 | the drones-per-task variance is non-negative; it is a ZeroDivision when there are no regions or a region has no tasks |
| `DroneBalance.UndersizedIndices` | task_allocation.py:206 | exactly the regions below the average drones per task |
| `DroneBalance.DonorNotUndersized` | task_allocation.py:201-206 | a region with more than half a spare drone is above the average |
| `DroneBalance.Receiver` | task_allocation.py:206-209 | the nearest undersized region, or none exactly when no region is undersized |
| `DroneBalance.MoveDrone` | task_allocation.py:212-216 | the donor loses a drone and the receiver gains it at the end; the drones of the fleet are conserved |
| `DroneBalance.Donate` | task_allocation.py:201-216 | a donation fails with ValueError exactly when no region is undersized; otherwise only the donor shrinks |
| `DroneBalance.PassFrom` | task_allocation.py:199-216 | one pass over the regions conserves the drones and never empties a region that had drones |
| `DroneBalance.BalanceFrom` | task_allocation.py:191-216 | the loop stops when the spread stops falling; the drones are conserved and no region with drones is emptied |
| `DroneBalance.Balance` | task_allocation.py:188-216 | rebalancing conserves the drones and keeps every region that had drones non-empty; a ZeroDivision needs zero tasks, no regions, or a region without tasks |
| `DroneBalance.AssignDrones` | task_allocation.py:169-216 | corrected `add_task` and `Fleet.add`: the regions end with exactly their own drones plus the idle ones; with at least as many drones as regions no region is left without a drone |
| `Sweeps.SplitTask` | task_allocation.py:90-95 | both legs keep the task's id; the drone leg goes from pick to the handoff point and the AMR leg from there to the drop |
| `Sweeps.Batch` | task_allocation.py:244-249 | a sweep takes the first min(agents, pending) tasks |
| `Sweeps.SweepsConserve` | task_allocation.py:242-249 | the sweeps together are a permutation of the pending tasks |
| `Sweeps.RegionSweeps` | task_allocation.py:242-279 | each sweep is a permutation of the next batch of pending tasks |
| `Sweeps.SortedDrones` | task_allocation.py:231 | a permutation of the region's drones, nearest the centre first; drones at the same distance keep their order |
| `Sweeps.SortedTasks` | task_allocation.py:235 | a permutation of the region's tasks, farthest pick point first; tasks at the same distance keep their order, as `sorted(reverse=True)` does |
| `Sweeps.SweepLog` | task_allocation.py:285-293 | for each task of a sweep, its drone leg goes to the drone at that slot, then its AMR leg to the region's AMR |
| `Sweeps.AssignRegion` | task_allocation.py:229-295 | a region's plan splits its tasks into sweeps of at most one task per drone, in farthest-first batches; it hangs exactly when there are tasks but no drones |
| `Sweeps.SweepsFarthestFirst` | task_allocation.py:235-249 | a task in an earlier sweep is at least as far from the centre as a task in a later sweep |
| `Sweeps.AssignTasksToAgents` | task_allocation.py:218-297 | every region gets a plan; a hang points at a region with tasks and no drones |
| `Sweeps.PlansConserve` | task_allocation.py:229-295 | the tasks swept over all regions are a permutation of all the regions' tasks |
| `Sweeps.RejoinSweepLog` | task_allocation.py:285-293 | joining each drone leg with the following AMR leg gives back the sweep's tasks |
| `Sweeps.RejoinRegionLog` | task_allocation.py:242-295 | a region's log has two legs per task, and rejoining them gives back its swept tasks in order |
| `Sweeps.RejoinPlansLog` | task_allocation.py:229-295 | the whole log has two legs per swept task, and rejoining gives back every swept task |
| `Sweeps.GiveTasksGives` | task_allocation.py:363 | agent i of the sweep receives task i at the end of its task list, recording its id; agents beyond the sweep are untouched |
| `Sweeps.HomogeneousSweep` | task_allocation.py:320-357 | a sweep takes min(agents, pending) tasks; it fails with IndexError only when some agent lacks the drop point of its previous task |
| `Sweeps.FirstSweepUsesOwnPositions` | task_allocation.py:333-349 | on the first sweep the crossing test draws each agent's path from its own position: agents at x = 0 and x = 1 with picks at x = 5 and x = 3 trade tasks, which a test from the first agent's position alone would not do |
| `Sweeps.OwnPositionsTrade` | task_allocation.py:333-357 | with each agent's own position as its anchor, the tasks picked at x = 5 and x = 3 by agents at x = 0 and x = 1 are swapped once, after which no paths cross |
| `Sweeps.HomogeneousSweepTasks` | task_allocation.py:324-357 | a sweep holds the next pending tasks, only rearranged |
| `Sweeps.HomogeneousSweeps` | task_allocation.py:320-366 | on success the loop makes one `add_task` call per pending task; it can fail only while tasks are pending |
| `Sweeps.HomogeneousSweepsErrors` | task_allocation.py:300-366 | the loop fails only with tasks pending, as a hang exactly when there are no agents, as an IndexError only when an agent lacks its previous drop point, or out of fuel |
| `Sweeps.HomogeneousSweepsRoundRobin` | task_allocation.py:320-366 | on success the tasks are handed out as a permutation of the pending ones, the k-th to agent k mod n |
| `Sweeps.HomogeneousDropOffs` | task_allocation.py:343-344 | after a full sweep every agent has the previous drop point the next sweep reads |
| `Sweeps.HomogeneousLogFacts` | task_allocation.py:320-363 | one sweep followed by the rest keeps the round-robin order and the task multiset |
| `TaskAllocation.NewAllocator` | task_allocation.py:27-39 | the allocator needs both an AMR and a Drone group, otherwise a KeyError; ground and drone agents are those groups |
| `TaskAllocation.CheckForInputError` | task_allocation.py:76-88 | never reports an error; warns about more ground agents than tasks, and about more drones than tasks, each exactly when it holds |
| `TaskAllocation.TasksForCounts` | task_allocation.py:285-293 | a robot's share holds each task as often as the log pairs it with that robot |
| `TaskAllocation.Receive` | task_allocation.py:290-293 | a robot keeps its tasks and appends its share, stamped with its id |
| `TaskAllocation.ApplyLog` | task_allocation.py:46-74 | the fleet keeps its groups and robots; each robot keeps its old tasks and gains, at the end of its list and in call order, exactly the tasks the log hands to its id, each recording that id |
| `TaskAllocation.ApplyEmptyLog` | task_allocation.py:65-74 | with nothing assigned the fleet is returned unchanged |
| `TaskAllocation.ApplyLogAsWritten` | robot_fleet.py:48-50 | as written every `add_task` call raises AttributeError, so only an empty log returns the fleet, unchanged |
| `TaskAllocation.ApplyLogAsWrittenFails` | task_allocation.py:290-293 | with a task to hand out the fleet as written fails where the corrected fleet gives the log's first robot a task more; an empty log leaves both unchanged |
| `TaskAllocation.Regional` | task_allocation.py:46-55 | corrected `add_task` and `Fleet.add`: a ValueError when the ground agents cannot cluster the tasks; on success two legs per task, which rejoin into exactly the tasks given |
| `TaskAllocation.RegionalDelivers` | task_allocation.py:97-297 | the regional steps together deliver every task exactly once, as a drone leg plus an AMR leg |
| `TaskAllocation.Homogeneous` | task_allocation.py:56-63 | corrected `add_task`: a KeyError exactly when the kind is missing, a hang exactly when it has no robots but there are tasks; otherwise each task goes round-robin once |
| `TaskAllocation.Assignments` | task_allocation.py:46-74 | dispatches on the allocation key; an unknown key assigns nothing |
| `TaskAllocation.PopulateFleet` | task_allocation.py:46-74 | corrected `add_task`: an unknown key returns the fleet unchanged; otherwise it fails when the scheme fails, and the fleet keeps its groups |
| `Evaluation.Arange` | evaluation.py:14 | the values run from lo by step and stay strictly before hi, as numpy's arange does |
| `Evaluation.NewSimParam` | evaluation.py:6-18 | a given value makes a static parameter; otherwise a sweep over numpy's arange, counting by one when the step is left out and from zero up to min when max is left out; a missing min or a zero step raises |
| `Evaluation.NewSimParamDefaults` | evaluation.py:14 | leaving out the step is stepping by one, leaving out max is sweeping from zero to min, and leaving out min fails |
| `Evaluation.GetAsList` | evaluation.py:20-23 | a sweep lists its values; a truthy static value is a one-element list; a falsy one gives nothing |
| `Evaluation.DynamicListsSweep` | evaluation.py:13-23 | a swept parameter lists integers from min below max |
| `Evaluation.Log` | evaluation.py:71-75 | appends to the named series, creating it when new, and leaves every other series unchanged |
| `Evaluation.LogAllKeepsHistory` | evaluation.py:71-75 | logging several values appends them in order after the old history |
| `Evaluation.ExpandConfig` | evaluation.py:99-104 | each expanded configuration has fewer swept parameters and is an instance of the one expanded: every parameter is kept or, if swept, fixed to a value of its sweep; none are produced exactly when it is already settled |
| `Evaluation.ExpandInstances` | evaluation.py:99-104 | every configuration of an expanded level is an instance of a configuration of the level before |
| `Evaluation.InstanceTransitive` | evaluation.py:102-103 | a parameter fixed by the expansion is static and never expanded again, so an instance of an instance is an instance |
| `Evaluation.ExpandFacts` | evaluation.py:97-110 | expanding produces nothing exactly when all are settled, and otherwise lowers the largest swept count |
| `Evaluation.RecursiveSplit` | evaluation.py:97-110 | corrected, with `copy` imported: every resulting configuration is settled and is an instance of an input configuration; a settled list is returned unchanged, and a non-empty list gives a non-empty one |
| `Evaluation.RecursiveSplitFixesSweeps` | evaluation.py:97-110 | each resulting configuration comes from an input one with every swept parameter that has values fixed to one of them, and every other parameter, n_drone and n_amr included, as given |
| `Evaluation.RecursiveSplitAsWritten` | evaluation.py:97-110 | as written: a NameError exactly when some configuration has a parameter to expand; otherwise the list comes back unchanged |
| `Evaluation.SplitOneValue` | evaluation.py:99-104 | one swept parameter with the single value 0: the program as written raises NameError, and the corrected split fixes the parameter at 0 |
| `Evaluation.FleetRows` | evaluation.py:114-120 | the composition (x drones, y AMRs) appears exactly when x and y are listed and x ≥ y |
| `Evaluation.GenerateFleetComp` | evaluation.py:112-122 | the compositions are the pairs from the drone and AMR lists with at least as many drones as AMRs |
| `Evaluation.FleetCompOfSweeps` | evaluation.py:112-122 | for swept counts, (x, y) is a composition exactly when both are sweep values and x ≥ y |

## Left out

- `Evaluation.GenerateFleetComp`: states which compositions appear. Their drone-major order is not stated.
- KMeans clustering (task_allocation.py:107-111) is a library call. Its labels and centroids are inputs, required to be a valid clustering into one cluster per ground agent.
- Helpers that the modelled files use but never define or import: `manhattan_dist` (task_allocation.py:141, 182, 330), `intersect`, `Cell`, `CellZone` and `PointZone` (warehouse_map.py:160, 199, 209; path_planning.py:25). utils.py, the module their `from utils import *` lines name, defines none of them, so the utils.py read here is evidently not the whole module the program imports. The model gives each its evident meaning: Manhattan distance on integer points, the `crosses` parameter of the swap loops, and integer cells and zones. The as-written members in Findings describe the failure that follows once these helpers exist; taken literally, the first call to `manhattan_dist` would raise NameError before any of those failures.
- `Point.dist_manhattan`: called at robot_fleet.py:140 and 160, but the `Point` class in utils.py defines no such method. The model takes these calls to mean the Manhattan distance between the two points, so it does not model the AttributeError that the code as written would raise.
- Coordinates are integers. The drones-per-task ratios and their spread are reals, not floats, so rounding is not modelled.
- The swap loops (task_allocation.py:143-162, 255-279, 333-357) may not terminate for an arbitrary `intersect`. They run on a fuel bound, and running out is the `OutOfFuel` error.
- `Fleet.add` and `Fleet.remove` are not defined by robot_fleet.py, so as written the deal and the donations raise AttributeError (see Findings). The corrected model appends to, and removes from, a region's drone list. The balancing loop is modelled only in its corrected form; `DroneBalance.DealAsWritten` stands for the as-written failure of the deal, which runs before the balancing loop.
- Object identity and aliasing are not modelled. This covers the mutable default arguments, `unclaimed_tasks` aliasing the allocator's task list, and `d_idle` aliasing `drone_agents`. Robots are told apart by id.
- Printing and the `dist_prior`/`dist_post` logging distances are left out: they are output only.
- The drop-point lists of task_lists.py are left out. They are input data, not behaviour.
- visualization.py, animation_testing.py, main.py, task_list_to_file.py and test_case.py are left out. They are plotting, file output and scripts.
- `Robot.update` and `temp_plan_all_paths` are not part of this model.
- Point/cell conversion, `generate_points`, the `__repr__` methods and `show_occ_matrix` are left out.
- `RobotFleet.LookupPos`: time steps are natural numbers. Python's negative list indices for negative time steps are not modelled.
- `TaskAllocation.Regional`: the success case says every task is delivered. The error set is not narrowed further, so a ValueError from rebalancing is allowed.
- `SwapRefine.Refine`: the "no crossing remains" guarantee is stated for the last row only. Earlier rows can be disturbed by later swaps, as in the source.
- `Sweeps.HomogeneousSweeps`: on the second and later sweeps the model keeps the quirk on line 344, where both paths start at agent i's previous drop point. The first sweep compares each agent's own position (lines 338-339). The Findings table does not list the quirk as a bug, because the intent is unclear.
- `Evaluation.FleetRow`: Python compares two lists without error, so `int()` raises only once the comparison holds. The model reports every non-number count as the TypeError, comparison or not.
- `WarehouseMap.OccupancyMatrix`: the resolution is a whole number of cells per unit length, so `int()` truncating a fractional product is not modelled. Blocked areas come in as cell zones, since the point-to-cell conversion is left out.
- `TaskAllocation.Regional`, `TaskAllocation.Homogeneous`, `TaskAllocation.PopulateFleet`, `DroneBalance.Deal` and `DroneBalance.AssignDrones` model the corrected `add_task` and `Fleet.add`/`remove`. As written, and once the undefined helpers above exist, any run that hands out a task or deals a drone raises AttributeError; the as-written members in Findings state this.

## Findings

| source | as written | input that shows it | evidently intended | confidence | as-written member | corrected member |
|---|---|---|---|---|---|---|
| warehouse_map.py:78-82 | the shelf zone's y upper bound is `xlim + bdr_top` | any proper layout deeper in y than wide in x, e.g. four 20-wide shelf columns with 40-wide aisles and two 100-deep rows with a 30-deep aisle: xlim = 200, ylim = 230, and shelf (0, 1) reaches y = 230 | `ylim + bdr_top` | not executed | `WarehouseMap.ShelfZoneAsWritten` (`WarehouseMap.ShelfZoneAsWrittenMissesShelves`, `WarehouseMap.WideLayoutMissesShelf`) | `WarehouseMap.ShelfZone` (`WarehouseMap.ShelvesWithinFloor`) |
| robot_fleet.py:48-50 | `add_task` stamps the task, then only looks up `self.task_list.add_task`, an attribute `TaskList` (utils.py:55-57) does not define, and never appends; this rests on utils.py as read here, which also lacks helpers the program imports from it (see Left out) | any robot and any task | append the task to the robot's task list | not executed | `RobotFleet.AddTaskAsWritten` | `RobotFleet.AddTask` (`RobotFleet.AddTasksAppends`) |
| task_allocation.py:185 | the deal calls `r.fleet.add`, and lines 215-216 call `r.fleet.remove` and `r2.fleet.add`; the `Fleet` class (robot_fleet.py:73-165) defines neither, so, once `manhattan_dist` (line 182) exists, the first dealt drone raises AttributeError | one region and one idle drone | add the drone to the region's drone list, and remove it from the donor's | not executed | `DroneBalance.DealAsWritten` (`DroneBalance.DealAsWrittenFails`) | `DroneBalance.Deal` (`DroneBalance.DealFrom`) |
| task_allocation.py:290-293 | every `add_task` call of the schemes (also line 363) raises, as above, so `populate_fleet` never returns a fleet with a task handed out; like that row, this rests on utils.py as read here | any allocation that hands out a task | each robot's task list gains its tasks | not executed | `TaskAllocation.ApplyLogAsWritten` (`TaskAllocation.ApplyLogAsWrittenFails`) | `TaskAllocation.ApplyLog` (`TaskAllocation.TasksForCounts`) |
| evaluation.py:104 | `copy.copy(config)` uses the module `copy`, which neither evaluation.py nor the modules it imports bring in, so the first expanded configuration raises NameError; this rests on utils.py as read here, whose star import could otherwise supply `copy` | one parameter swept over the single value 0 | `import copy` | not executed | `Evaluation.RecursiveSplitAsWritten` (`Evaluation.SplitOneValue`) | `Evaluation.RecursiveSplit` |

=== FILE: common.dfy ===
/** Sequence and number helpers shared by the fleet-simulator model: the
    Python built-ins the source leans on (`chain`, `str`, `sorted`, `min`,
    list pops and swaps), written once with the facts the model needs. */
module Common {

  datatype Option<+T> = None | Some(value: T)

  /** The Python exceptions, and the one non-terminating loop, that the
      model reports instead of a result. */
  datatype Error =
    | KeyError        // a dictionary lookup of a missing key
    | IndexError      // a list index out of range
    | ValueError      // `min` of an empty sequence, or a clustering the model cannot form
    | ZeroDivision    // a division by a zero count
    | AttributeError  // an attribute the object does not have
    | NameError       // a name no module in scope defines or imports
    | Hangs           // a loop that can make no progress and so never stops
    | OutOfFuel       // a loop still running when the model's step bound ran out

  datatype Result<+T> = Ok(value: T) | Err(error: Error)

  function Abs(x: int): nat
  {
    if x < 0 then -x else x
  }

  // ---------------------------------------------------------------------
  // Flattening (Python's `list(chain(*xss))`)
  // ---------------------------------------------------------------------

  function Flatten<T>(xss: seq<seq<T>>): seq<T>
  {
    if |xss| == 0 then [] else xss[0] + Flatten(xss[1..])
  }

  /** Total number of elements over all inner sequences. */
  function SumLengths<T>(xss: seq<seq<T>>): nat
  {
    if |xss| == 0 then 0 else |xss[|xss| - 1]| + SumLengths(xss[..|xss| - 1])
  }

  lemma {:induction false} FlattenAppend<T>(a: seq<seq<T>>, b: seq<seq<T>>)
    ensures Flatten(a + b) == Flatten(a) + Flatten(b)
  {
    if |a| == 0 {
      assert a + b == b;
    } else {
      assert (a + b)[1..] == a[1..] + b;
      FlattenAppend(a[1..], b);
    }
  }

  lemma {:induction false} FlattenLength<T>(xss: seq<seq<T>>)
    ensures |Flatten(xss)| == SumLengths(xss)
    decreases |xss|
  {
    if |xss| > 0 {
      var n := |xss| - 1;
      assert xss == xss[..n] + [xss[n]];
      FlattenAppend(xss[..n], [xss[n]]);
      assert Flatten([xss[n]]) == xss[n] + Flatten([xss[n]][1..]);
      assert [xss[n]][1..] == [];
      FlattenLength(xss[..n]);
    }
  }

  /** Element `o` of inner sequence `j` sits at offset SumLengths(xss[..j]) + o
      of the flattened sequence. */
  lemma {:induction false} FlattenIndex<T>(xss: seq<seq<T>>, j: nat, o: nat)
    requires j < |xss| && o < |xss[j]|
    ensures SumLengths(xss[..j]) + o < |Flatten(xss)|
    ensures Flatten(xss)[SumLengths(xss[..j]) + o] == xss[j][o]
  {
    assert xss == xss[..j] + ([xss[j]] + xss[j + 1..]);
    FlattenAppend(xss[..j], [xss[j]] + xss[j + 1..]);
    FlattenLength(xss[..j]);
    assert Flatten([xss[j]] + xss[j + 1..]) == xss[j] + Flatten(xss[j + 1..]);
  }

  /** Inner sequence `j` is the slice of the flattened sequence that starts
      after all earlier inner sequences. */
  lemma {:induction false} FlattenSlice<T>(xss: seq<seq<T>>, j: nat)
    requires j < |xss|
    ensures SumLengths(xss[..j]) + |xss[j]| <= |Flatten(xss)|
    ensures Flatten(xss)[SumLengths(xss[..j])..SumLengths(xss[..j]) + |xss[j]|] == xss[j]
  {
    assert xss == xss[..j] + ([xss[j]] + xss[j + 1..]);
    FlattenAppend(xss[..j], [xss[j]] + xss[j + 1..]);
    FlattenLength(xss[..j]);
    assert Flatten([xss[j]] + xss[j + 1..]) == xss[j] + Flatten(xss[j + 1..]);
  }

  /** Flattening a prefix one longer adds the next inner sequence. */
  lemma {:induction false} FlattenSnoc<T>(xss: seq<seq<T>>, n: nat)
    requires 0 < n <= |xss|
    ensures Flatten(xss[..n]) == Flatten(xss[..n - 1]) + xss[n - 1]
  {
    assert xss[..n] == xss[..n - 1] + [xss[n - 1]];
    FlattenAppend(xss[..n - 1], [xss[n - 1]]);
    assert Flatten([xss[n - 1]]) == xss[n - 1] + Flatten([xss[n - 1]][1..]);
  }

  lemma {:induction false} FlattenMultiset<T>(xss: seq<seq<T>>, j: nat)
    requires j < |xss|
    ensures multiset(xss[j]) <= multiset(Flatten(xss))
  {
    if j > 0 {
      FlattenMultiset(xss[1..], j - 1);
    }
  }

  /** Replacing inner sequence `j` by `ys` trades its elements for those
      of `ys` in the flattened multiset. */
  lemma {:induction false} FlattenUpdate<T>(xss: seq<seq<T>>, j: nat, ys: seq<T>)
    requires j < |xss|
    ensures multiset(Flatten(xss[j := ys])) + multiset(xss[j]) == multiset(Flatten(xss)) + multiset(ys)
  {
    var pre, post := xss[..j], xss[j + 1..];
    assert xss == pre + ([xss[j]] + post);
    assert xss[j := ys] == pre + ([ys] + post);
    FlattenAppend(pre, [xss[j]] + post);
    FlattenAppend(pre, [ys] + post);
    assert Flatten([xss[j]] + post) == xss[j] + Flatten(post);
    assert Flatten([ys] + post) == ys + Flatten(post);
  }

  lemma {:induction false} MultisetCancel<T>(a: multiset<T>, b: multiset<T>, c: multiset<T>)
    requires a + b == c + b
    ensures a == c
  {
    forall x
      ensures a[x] == c[x]
    {
      assert (a + b)[x] == (c + b)[x];
    }
  }

  /** Every element of the flattened sequence comes from some inner
      sequence. */
  lemma {:induction false} FlattenMember<T>(xss: seq<seq<T>>, x: T)
    requires x in Flatten(xss)
    ensures exists j :: 0 <= j < |xss| && x in xss[j]
  {
    if x !in xss[0] {
      FlattenMember(xss[1..], x);
      var j :| 0 <= j < |xss[1..]| && x in xss[1..][j];
      assert xss[j + 1] == xss[1..][j];
    }
  }

  // ---------------------------------------------------------------------
  // Decimal rendering (Python's `str` on a non-negative int)
  // ---------------------------------------------------------------------

  function Digit(d: nat): char
    requires d < 10
  {
    "0123456789"[d]
  }

  function NatToString(n: nat): (s: string)
    ensures 1 <= |s|
    ensures n < 10 <==> |s| == 1
  {
    if n < 10 then [Digit(n)] else NatToString(n / 10) + [Digit(n % 10)]
  }

  /** Distinct numbers render as distinct strings. */
  lemma {:induction false} NatToStringInjective(a: nat, b: nat)
    requires NatToString(a) == NatToString(b)
    ensures a == b
  {
    if a >= 10 && b >= 10 {
      var sa, sb := NatToString(a), NatToString(b);
      assert sa[|sa| - 1] == Digit(a % 10) && sb[|sb| - 1] == Digit(b % 10);
      assert a % 10 == b % 10;
      assert sa[..|sa| - 1] == NatToString(a / 10);
      assert sb[..|sb| - 1] == NatToString(b / 10);
      NatToStringInjective(a / 10, b / 10);
    }
  }

  /** A common prefix followed by distinct numbers gives distinct strings. */
  lemma {:induction false} PrefixedNumbersDistinct(prefix: string, a: nat, b: nat)
    requires a != b
    ensures prefix + NatToString(a) != prefix + NatToString(b)
  {
    if prefix + NatToString(a) == prefix + NatToString(b) {
      assert NatToString(a) == (prefix + NatToString(a))[|prefix|..];
      assert NatToString(b) == (prefix + NatToString(b))[|prefix|..];
      NatToStringInjective(a, b);
    }
  }

  // ---------------------------------------------------------------------
  // Stable sorting by an integer key (Python's `sorted(xs, key=k)`)
  // ---------------------------------------------------------------------

  ghost predicate SortedBy<T>(s: seq<T>, key: T -> int)
  {
    forall i, j :: 0 <= i < j < |s| ==> key(s[i]) <= key(s[j])
  }

  /** Inserts `x` in front of every element whose key is not smaller, which
      keeps equal keys in their original order. */
  function InsertBy<T>(x: T, s: seq<T>, key: T -> int): (r: seq<T>)
    requires SortedBy(s, key)
    ensures SortedBy(r, key)
    ensures multiset(r) == multiset(s) + multiset{x}
    ensures |r| == |s| + 1
    ensures forall v :: WithKey(r, key, v) == (if key(x) == v then [x] else []) + WithKey(s, key, v)
  {
    if |s| == 0 || key(x) <= key(s[0]) then
      forall v ensures WithKey([x] + s, key, v) == (if key(x) == v then [x] else []) + WithKey(s, key, v) {
        WithKeyCons(x, s, key, v);
      }
      [x] + s
    else
      var rest := InsertBy(x, s[1..], key);
      assert s == [s[0]] + s[1..];
      InsertedAbove(x, s, key, rest);
      InsertedStable(x, s, key, rest);
      [s[0]] + rest
  }

  /** The elements of `s` whose key is `v`, in order. */
  function WithKey<T>(s: seq<T>, key: T -> int, v: int): seq<T>
  {
    if |s| == 0 then [] else (if key(s[0]) == v then [s[0]] else []) + WithKey(s[1..], key, v)
  }

  lemma {:induction false} WithKeyCons<T>(x: T, s: seq<T>, key: T -> int, v: int)
    ensures WithKey([x] + s, key, v) == (if key(x) == v then [x] else []) + WithKey(s, key, v)
  {
    assert ([x] + s)[1..] == s;
  }

  /** Inserting `x` behind the head, whose key is smaller, keeps every
      key class in order: the head and `x` never share a key. */
  lemma {:induction false} InsertedStable<T>(x: T, s: seq<T>, key: T -> int, rest: seq<T>)
    requires |s| > 0 && key(s[0]) < key(x)
    requires forall v :: WithKey(rest, key, v) == (if key(x) == v then [x] else []) + WithKey(s[1..], key, v)
    ensures forall v :: WithKey([s[0]] + rest, key, v) == (if key(x) == v then [x] else []) + WithKey(s, key, v)
  {
    assert [s[0]] + s[1..] == s;
    forall v
      ensures WithKey([s[0]] + rest, key, v) == (if key(x) == v then [x] else []) + WithKey(s, key, v)
    {
      InsertedStableAt(x, s[0], s[1..], rest, key, v);
    }
  }

  lemma {:induction false} InsertedStableAt<T>(x: T, h: T, tail: seq<T>, rest: seq<T>, key: T -> int, v: int)
    requires key(h) < key(x)
    requires WithKey(rest, key, v) == (if key(x) == v then [x] else []) + WithKey(tail, key, v)
    ensures WithKey([h] + rest, key, v) == (if key(x) == v then [x] else []) + WithKey([h] + tail, key, v)
  {
    WithKeyCons(h, rest, key, v);
    WithKeyCons(h, tail, key, v);
    if key(h) == v {
      assert key(x) != v;
    }
  }

  /** Inserting `x`, whose key is above the head's, into the tail keeps
      every key at least the head's. */
  lemma {:induction false} InsertedAbove<T>(x: T, s: seq<T>, key: T -> int, rest: seq<T>)
    requires |s| > 0 && SortedBy(s, key) && key(s[0]) < key(x)
    requires multiset(rest) == multiset(s[1..]) + multiset{x}
    ensures forall i :: 0 <= i < |rest| ==> key(s[0]) <= key(rest[i])
  {
    forall i | 0 <= i < |rest|
      ensures key(s[0]) <= key(rest[i])
    {
      assert rest[i] in multiset(rest);
      if rest[i] != x {
        assert rest[i] in multiset(s[1..]);
        var k :| 0 <= k < |s[1..]| && s[1..][k] == rest[i];
        assert s[k + 1] == rest[i];
      }
    }
  }

  /** Stable insertion sort: ascending keys, equal keys in input order. */
  function SortBy<T>(s: seq<T>, key: T -> int): (r: seq<T>)
    ensures SortedBy(r, key)
    ensures multiset(r) == multiset(s)
    ensures |r| == |s|
    ensures forall v :: WithKey(r, key, v) == WithKey(s, key, v)
  {
    if |s| == 0 then []
    else
      assert s == [s[0]] + s[1..];
      var r := InsertBy(s[0], SortBy(s[1..], key), key);
      forall v ensures WithKey(r, key, v) == WithKey(s, key, v) {
        WithKeyCons(s[0], s[1..], key, v);
      }
      r
  }

  // ---------------------------------------------------------------------
  // Minima (Python's `min` with a key, which returns the first minimum)
  // ---------------------------------------------------------------------

  function ArgMin<T>(s: seq<T>, key: T -> int): (i: nat)
    requires |s| > 0
    ensures i < |s|
    ensures forall j :: 0 <= j < |s| ==> key(s[i]) <= key(s[j])
    ensures forall j :: 0 <= j < i ==> key(s[i]) < key(s[j])
  {
    if |s| == 1 then 0
    else
      var k := ArgMin(s[1..], key) + 1;
      assert forall j :: 1 <= j < |s| ==> s[j] == s[1..][j - 1];
      if key(s[0]) <= key(s[k]) then 0 else k
  }

  function MinKey<T>(s: seq<T>, key: T -> int): (m: int)
    requires |s| > 0
    ensures forall j :: 0 <= j < |s| ==> m <= key(s[j])
    ensures exists j :: 0 <= j < |s| && m == key(s[j])
  {
    key(s[ArgMin(s, key)])
  }

  /** Keeps the elements satisfying `p`, in order. */
  function Filter<T(!new)>(s: seq<T>, p: T -> bool): (r: seq<T>)
    ensures |r| <= |s|
    ensures forall x :: x in r <==> x in s && p(x)
    ensures forall x :: p(x) ==> multiset(r)[x] == multiset(s)[x]
    ensures forall x :: !p(x) ==> multiset(r)[x] == 0
  {
    if |s| == 0 then []
    else
      assert s == [s[0]] + s[1..];
      (if p(s[0]) then [s[0]] else []) + Filter(s[1..], p)
  }

  /** `a` is `b` with some elements dropped, order kept. */
  predicate IsSubsequence<T(==)>(a: seq<T>, b: seq<T>)
  {
    if |a| == 0 then true
    else if |b| == 0 then false
    else if a[0] == b[0] then IsSubsequence(a[1..], b[1..])
    else IsSubsequence(a, b[1..])
  }

  /** Dropping the first element of a subsequence keeps it a subsequence. */
  lemma {:induction false} SubsequenceTail<T>(a: seq<T>, b: seq<T>)
    requires |a| > 0 && IsSubsequence(a, b)
    ensures IsSubsequence(a[1..], b)
    decreases |b|, 1
  {
    if a[0] == b[0] {
      SubsequenceExtend(a[1..], b[1..], b[0]);
      assert [b[0]] + b[1..] == b;
    } else {
      SubsequenceTail(a, b[1..]);
      SubsequenceExtend(a[1..], b[1..], b[0]);
      assert [b[0]] + b[1..] == b;
    }
  }

  /** A subsequence of `b` is a subsequence of `b` with anything in front. */
  lemma {:induction false} SubsequenceExtend<T>(a: seq<T>, b: seq<T>, x: T)
    requires IsSubsequence(a, b)
    ensures IsSubsequence(a, [x] + b)
    decreases |b| + 1, 0
  {
    assert ([x] + b)[1..] == b;
    if |a| > 0 && a[0] == x {
      SubsequenceTail(a, b);
    }
  }

  lemma {:induction false} FilterIsSubsequence<T(!new)>(s: seq<T>, p: T -> bool)
    ensures IsSubsequence(Filter(s, p), s)
  {
    if |s| > 0 {
      FilterIsSubsequence(s[1..], p);
      var f := Filter(s, p);
      if p(s[0]) {
        assert f[0] == s[0] && f[1..] == Filter(s[1..], p);
      } else {
        assert f == Filter(s[1..], p);
        assert |f| > 0 ==> p(f[0]) && f[0] != s[0];
      }
    }
  }

  /** All elements whose key equals the smallest key, in input order: the
      list comprehension the fleet queries build after `min(dists)`. */
  function MinimaBy<T(!new)>(s: seq<T>, key: T -> int): (r: seq<T>)
    requires |s| > 0
    ensures |r| > 0
    ensures IsSubsequence(r, s)
    ensures forall x :: x in r <==> x in s && forall y :: y in s ==> key(x) <= key(y)
    ensures forall x :: x in s && (forall y :: y in s ==> key(x) <= key(y)) ==>
              multiset(r)[x] == multiset(s)[x]
  {
    var m := MinKey(s, key);
    var r := Filter(s, x => key(x) == m);
    FilterIsSubsequence(s, x => key(x) == m);
    MinimaFacts(s, key, m, r);
    r
  }

  /** The elements of `s` whose key is the least key `m` are its minima. */
  lemma {:induction false} MinimaFacts<T>(s: seq<T>, key: T -> int, m: int, r: seq<T>)
    requires forall j :: 0 <= j < |s| ==> m <= key(s[j])
    requires exists j :: 0 <= j < |s| && m == key(s[j])
    requires forall x :: x in r <==> x in s && key(x) == m
    requires forall x :: key(x) == m ==> multiset(r)[x] == multiset(s)[x]
    ensures |r| > 0
    ensures forall x :: x in r <==> x in s && forall y :: y in s ==> key(x) <= key(y)
    ensures forall x :: x in s && (forall y :: y in s ==> key(x) <= key(y)) ==>
              multiset(r)[x] == multiset(s)[x]
  {
    var j :| 0 <= j < |s| && m == key(s[j]);
    assert s[j] in r;
    forall x | x in s && (forall y :: y in s ==> key(x) <= key(y))
      ensures key(x) == m
    {
      assert key(x) <= key(s[j]);
    }
  }

  // ---------------------------------------------------------------------
  // In-place list edits as pure functions
  // ---------------------------------------------------------------------

  /** `s[i], s[k] = s[k], s[i]` */
  function Swap<T>(s: seq<T>, i: nat, k: nat): (r: seq<T>)
    requires i < |s| && k < |s|
    ensures |r| == |s|
    ensures r[i] == s[k] && r[k] == s[i]
    ensures forall j :: 0 <= j < |s| && j != i && j != k ==> r[j] == s[j]
    ensures multiset(r) == multiset(s)
  {
    var r := s[i := s[k]][k := s[i]];
    assert multiset(s[i := s[k]]) == multiset(s) - multiset{s[i]} + multiset{s[k]};
    r
  }

  /** `s.pop(i)` without the returned element */
  function RemoveAt<T>(s: seq<T>, i: nat): (r: seq<T>)
    requires i < |s|
    ensures |r| == |s| - 1
    ensures multiset(r) + multiset{s[i]} == multiset(s)
    ensures forall j :: 0 <= j < i ==> r[j] == s[j]
    ensures forall j :: i <= j < |r| ==> r[j] == s[j + 1]
  {
    assert s == s[..i] + [s[i]] + s[i + 1..];
    s[..i] + s[i + 1..]
  }

  // ---------------------------------------------------------------------
  // Batching (the `for i in range(n): if xs: xs.pop(0)` sweeps)
  // ---------------------------------------------------------------------

  function Min(a: int, b: int): int { if a <= b then a else b }

  /** Inner sequence `d1` ends no later than inner sequence `d2` starts. */
  lemma {:induction false} SumLengthsPrefixGrows<T>(xss: seq<seq<T>>, d1: nat, d2: nat)
    requires d1 < d2 <= |xss|
    ensures SumLengths(xss[..d1]) + |xss[d1]| <= SumLengths(xss[..d2])
    decreases d2
  {
    assert xss[..d2][..d2 - 1] == xss[..d2 - 1];
    if d2 > d1 + 1 {
      SumLengthsPrefixGrows(xss, d1, d2 - 1);
    } else {
      assert xss[..d2][d2 - 1] == xss[d1];
    }
  }

  /** Consecutive batches of `m` elements; the last may be shorter. */
  function Chunks<T>(s: seq<T>, m: nat): (r: seq<seq<T>>)
    requires m > 0
    ensures Flatten(r) == s
    ensures forall j :: 0 <= j < |r| ==> 0 < |r[j]| <= m
    ensures forall j :: 0 <= j < |r| - 1 ==> |r[j]| == m
    decreases |s|
  {
    if |s| == 0 then []
    else
      var n := Min(m, |s|);
      assert s == s[..n] + s[n..];
      [s[..n]] + Chunks(s[n..], m)
  }

  /** An element of an earlier chunk comes before an element of a later
      chunk in the chunked sequence. */
  lemma {:induction false} ChunksInOrder<T>(s: seq<T>, m: nat, d1: nat, d2: nat, o1: nat, o2: nat) returns (p1: nat, p2: nat)
    requires m > 0
    requires d1 < d2 < |Chunks(s, m)| && o1 < |Chunks(s, m)[d1]| && o2 < |Chunks(s, m)[d2]|
    ensures p1 < p2 < |s| && s[p1] == Chunks(s, m)[d1][o1] && s[p2] == Chunks(s, m)[d2][o2]
  {
    p1, p2 := FlattenInOrder(Chunks(s, m), d1, d2, o1, o2);
  }

  /** The positions in the flattened sequence of an element of an earlier
      and of a later inner sequence. */
  lemma {:induction false} FlattenInOrder<T>(xss: seq<seq<T>>, d1: nat, d2: nat, o1: nat, o2: nat) returns (p1: nat, p2: nat)
    requires d1 < d2 < |xss| && o1 < |xss[d1]| && o2 < |xss[d2]|
    ensures p1 < p2 < |Flatten(xss)| && Flatten(xss)[p1] == xss[d1][o1] && Flatten(xss)[p2] == xss[d2][o2]
  {
    FlattenIndex(xss, d1, o1);
    FlattenIndex(xss, d2, o2);
    SumLengthsPrefixGrows(xss, d1, d2);
    p1, p2 := SumLengths(xss[..d1]) + o1, SumLengths(xss[..d2]) + o2;
  }

  /** Members of an earlier and a later chunk, found at their positions in
      the chunked sequence. */
  lemma {:induction false} ChunkMembersInOrder<T>(s: seq<T>, m: nat, d1: nat, d2: nat, a: T, b: T) returns (p1: nat, p2: nat)
    requires m > 0
    requires d1 < d2 < |Chunks(s, m)| && a in Chunks(s, m)[d1] && b in Chunks(s, m)[d2]
    ensures p1 < p2 < |s| && s[p1] == a && s[p2] == b
  {
    var cs := Chunks(s, m);
    var o1 :| 0 <= o1 < |cs[d1]| && cs[d1][o1] == a;
    var o2 :| 0 <= o2 < |cs[d2]| && cs[d2][o2] == b;
    p1, p2 := ChunksInOrder(s, m, d1, d2, o1, o2);
  }

  // ---------------------------------------------------------------------
  // Element-wise maps
  // ---------------------------------------------------------------------

  /** `f` applied to every element, in order. */
  function MapSeq<A, B>(f: A -> B, s: seq<A>): (r: seq<B>)
    ensures |r| == |s| && forall i :: 0 <= i < |s| ==> r[i] == f(s[i])
    decreases |s|
  {
    if |s| == 0 then [] else [f(s[0])] + MapSeq(f, s[1..])
  }

  lemma {:induction false} MapSeqAppend<A, B>(f: A -> B, a: seq<A>, b: seq<A>)
    ensures MapSeq(f, a + b) == MapSeq(f, a) + MapSeq(f, b)
  {
    assert |MapSeq(f, a + b)| == |MapSeq(f, a) + MapSeq(f, b)|;
    forall i | 0 <= i < |a + b|
      ensures MapSeq(f, a + b)[i] == (MapSeq(f, a) + MapSeq(f, b))[i]
    {
    }
  }

  /** Mapping two rearrangements of one another gives rearrangements of
      one another. */
  lemma {:induction false} MapSeqMultiset<A, B>(f: A -> B, a: seq<A>, b: seq<A>)
    requires multiset(a) == multiset(b)
    ensures multiset(MapSeq(f, a)) == multiset(MapSeq(f, b))
    decreases |a|
  {
    if |a| > 0 {
      assert a[0] in multiset(b);
      var j :| 0 <= j < |b| && b[j] == a[0];
      var rest := b[..j] + b[j + 1..];
      assert a == [a[0]] + a[1..];
      assert multiset(a) == multiset(a[1..]) + multiset{a[0]};
      MapSeqRemove(f, b, j);
      MultisetCancel(multiset(a[1..]), multiset{a[0]}, multiset(rest));
      MapSeqMultiset(f, a[1..], rest);
      MapSeqAppend(f, [a[0]], a[1..]);
    }
  }

  /** Taking element `j` out of a sequence takes its image out of the
      mapped sequence. */
  lemma {:induction false} MapSeqRemove<A, B>(f: A -> B, b: seq<A>, j: nat)
    requires j < |b|
    ensures multiset(b) == multiset(b[..j] + b[j + 1..]) + multiset{b[j]}
    ensures multiset(MapSeq(f, b)) == multiset(MapSeq(f, b[..j] + b[j + 1..])) + multiset{f(b[j])}
  {
    var pre, post := b[..j], b[j + 1..];
    assert b == pre + [b[j]] + post;
    MapSeqAppend(f, pre + [b[j]], post);
    MapSeqAppend(f, pre, [b[j]]);
    MapSeqAppend(f, pre, post);
    assert MapSeq(f, [b[j]]) == [f(b[j])];
    var mpre, mpost := MapSeq(f, pre), MapSeq(f, post);
    assert MapSeq(f, b) == mpre + [f(b[j])] + mpost;
    assert multiset(MapSeq(f, b)) == multiset(mpre) + multiset{f(b[j])} + multiset(mpost);
    assert multiset(MapSeq(f, pre + post)) == multiset(mpre) + multiset(mpost);
  }
}

=== FILE: drone_balance.dfy ===
/** Drone distribution of the task allocator (`assign_Drones2Regions`,
    task_allocation.py:169-216): every idle drone is dealt, region by
    region, to the region whose centre it is nearest to; then regions with
    more than their share of drones per task donate their drone nearest to
    the closest under-supplied region, pass after pass, for as long as the
    spread of drones per task keeps shrinking.

    Drone-per-task figures are Python floats; here they are exact reals. */
module DroneBalance {
  import opened Common
  import opened Utils
  import opened RobotFleet
  import opened Regions

  /** Region `j` with its drone list replaced (the regional fleet's
      `add`/`remove`). */
  function WithDrones(regions: seq<Region>, j: nat, ds: seq<Robot>): (res: seq<Region>)
    requires j < |regions|
    ensures |res| == |regions|
    ensures DroneLists(res) == DroneLists(regions)[j := ds]
    ensures SameButDrones(res, regions) && res[j].drones == ds
    ensures forall i :: 0 <= i < |regions| && i != j ==> res[i] == regions[i]
  {
    var res := regions[j := regions[j].(drones := ds)];
    assert DroneLists(res) == DroneLists(regions)[j := ds];
    res
  }

  /** All drones held by the regions, region by region. */
  function AllDrones(regions: seq<Region>): seq<Robot>
  {
    Flatten(DroneLists(regions))
  }

  /** The regions differ at most in their drone lists. */
  predicate SameButDrones(a: seq<Region>, b: seq<Region>)
  {
    && |a| == |b|
    && forall i :: 0 <= i < |a| ==>
         && a[i].id == b[i].id && a[i].center == b[i].center
         && a[i].tasks == b[i].tasks && a[i].amr == b[i].amr
  }

  lemma {:induction false} SameButDronesTransitive(a: seq<Region>, b: seq<Region>, c: seq<Region>)
    requires SameButDrones(a, b) && SameButDrones(b, c)
    ensures SameButDrones(a, c)
  {
  }

  // ---------------------------------------------------------------------
  // Dealing the idle drones
  // ---------------------------------------------------------------------

  /** The index of the idle drone nearest to `center`; the first such on a
      tie. */
  function Nearest(center: Point, idle: seq<Robot>): (k: nat)
    requires |idle| > 0
    ensures k < |idle|
    ensures forall j :: 0 <= j < |idle| ==> Manhattan(center, idle[k].pos) <= Manhattan(center, idle[j].pos)
    ensures forall j :: 0 <= j < k ==> Manhattan(center, idle[k].pos) < Manhattan(center, idle[j].pos)
  {
    ArgMin(idle, (d: Robot) => Manhattan(center, d.pos) as int)
  }

  /** The deal from region `r` on: region `r` takes its nearest idle
      drone, then the next region, wrapping round, until none is idle.
      Every idle drone ends in exactly one region, drone lists only grow
      at the end, and each region from `r` on gets a drone while any is
      left for it. */
  function DealFrom(regions: seq<Region>, idle: seq<Robot>, r: nat): (res: seq<Region>)
    requires r < |regions|
    ensures Dealt(regions, idle, r, res)
    decreases |idle|
  {
    if |idle| == 0 then regions
    else
      var k := Nearest(regions[r].center, idle);
      var next := WithDrones(regions, r, regions[r].drones + [idle[k]]);
      var res := DealFrom(next, RemoveAt(idle, k), NextRegion(regions, r));
      DealStep(regions, idle, r, k, res);
      res
  }

  /** The region after `r`, wrapping round to the first. */
  function NextRegion(regions: seq<Region>, r: nat): (n: nat)
    requires r < |regions|
    ensures n < |regions|
    ensures n == 0 || n == r + 1
  {
    if r + 1 == |regions| then 0 else r + 1
  }

  /** What `DealFrom(regions, idle, r)` promises of its result `res`. */
  predicate Dealt(regions: seq<Region>, idle: seq<Robot>, r: nat, res: seq<Region>)
  {
    && SameButDrones(res, regions)
    && multiset(AllDrones(res)) == multiset(AllDrones(regions)) + multiset(idle)
    && (forall j :: 0 <= j < |regions| ==>
          && |regions[j].drones| <= |res[j].drones|
          && res[j].drones[..|regions[j].drones|] == regions[j].drones)
    && (forall j :: r <= j < |regions| && j - r < |idle| ==> |res[j].drones| > |regions[j].drones|)
    && (|idle| > 0 && r < |regions| ==>
          && |res[r].drones| > |regions[r].drones|
          && res[r].drones[|regions[r].drones|] == idle[Nearest(regions[r].center, idle)])
  }

  /** Region `r` taking idle drone `k`, then the deal going on from the
      next region with the remaining drones, is a deal from `r`. */
  lemma {:induction false} DealStep(regions: seq<Region>, idle: seq<Robot>, r: nat, k: nat, res: seq<Region>)
    requires r < |regions| && k < |idle| && k == Nearest(regions[r].center, idle)
    requires var next := WithDrones(regions, r, regions[r].drones + [idle[k]]);
             Dealt(next, RemoveAt(idle, k), NextRegion(regions, r), res)
    ensures Dealt(regions, idle, r, res)
  {
    var grown := regions[r].drones + [idle[k]];
    var next := WithDrones(regions, r, grown);
    var rest := RemoveAt(idle, k);
    DealConserves(regions, next, r, grown, idle[k], rest, idle);
    DealGrows(regions, next, res, r);
    SameButDronesTransitive(res, next, regions);
    calc {
      res[r].drones[|regions[r].drones|];
      res[r].drones[..|next[r].drones|][|regions[r].drones|];
      grown[|regions[r].drones|];
    }
  }

  lemma {:induction false} DealConserves(regions: seq<Region>, next: seq<Region>, r: nat, grown: seq<Robot>, d: Robot,
                      rest: seq<Robot>, idle: seq<Robot>)
    requires r < |regions| && grown == regions[r].drones + [d]
    requires DroneLists(next) == DroneLists(regions)[r := grown]
    requires multiset(rest) + multiset{d} == multiset(idle)
    ensures multiset(AllDrones(next)) + multiset(rest) == multiset(AllDrones(regions)) + multiset(idle)
  {
    FlattenUpdate(DroneLists(regions), r, grown);
    assert DroneLists(regions)[r] == regions[r].drones;
    var a, m, b := multiset(AllDrones(next)), multiset(AllDrones(regions)), multiset(regions[r].drones);
    assert a + b == m + (b + multiset{d});
    MultisetCancel(a, b, m + multiset{d});
  }

  /** Growing region `r` and then growing every region keeps each old
      drone list as a prefix. */
  lemma {:induction false} DealGrows(regions: seq<Region>, next: seq<Region>, res: seq<Region>, r: nat)
    requires r < |regions| && |next| == |regions| == |res|
    requires forall j :: 0 <= j < |regions| && j != r ==> next[j] == regions[j]
    requires exists d :: next[r].drones == regions[r].drones + [d]
    requires forall j :: 0 <= j < |regions| ==>
               && |next[j].drones| <= |res[j].drones|
               && res[j].drones[..|next[j].drones|] == next[j].drones
    ensures forall j :: 0 <= j < |regions| ==>
              && |regions[j].drones| <= |res[j].drones|
              && res[j].drones[..|regions[j].drones|] == regions[j].drones
    ensures |res[r].drones| > |regions[r].drones|
  {
    forall j | 0 <= j < |regions|
      ensures |regions[j].drones| <= |res[j].drones|
      ensures res[j].drones[..|regions[j].drones|] == regions[j].drones
    {
      if j == r {
        assert next[j].drones[..|regions[j].drones|] == regions[j].drones;
        assert res[j].drones[..|regions[j].drones|] == res[j].drones[..|next[j].drones|][..|regions[j].drones|];
      }
    }
  }

  /** The `while d_idle: for r in regions` loop. With drones left but no
      region to take them the loop never ends. */
  function Deal(regions: seq<Region>, idle: seq<Robot>): (res: Result<seq<Region>>)
    ensures res.Err? <==> |regions| == 0 && |idle| > 0
    ensures res.Err? ==> res.error == Hangs
    ensures res.Ok? ==> SameButDrones(res.value, regions)
    ensures res.Ok? ==> multiset(AllDrones(res.value)) == multiset(AllDrones(regions)) + multiset(idle)
    ensures res.Ok? ==> forall j :: 0 <= j < |regions| ==> |regions[j].drones| <= |res.value[j].drones|
    ensures res.Ok? && |idle| >= |regions| ==>
              forall j :: 0 <= j < |regions| ==> |res.value[j].drones| > |regions[j].drones|
    ensures res.Ok? && |idle| > 0 ==>
              && |res.value[0].drones| > |regions[0].drones|
              && res.value[0].drones[|regions[0].drones|] == idle[Nearest(regions[0].center, idle)]
  {
    if |idle| == 0 then Ok(regions)
    else if |regions| == 0 then Err(Hangs)
    else
      var res := DealFrom(regions, idle, 0);
      DealtFromFirst(regions, idle, res);
      Ok(res)
  }

  /** The deal as written, with the distance helper `manhattan_dist`
      (task_allocation.py:182) taken to exist: `r.fleet.add` (line 185)
      calls a method the `Fleet` class does not define, so the first drone
      dealt raises AttributeError. Only a deal with no idle drones
      finishes. */
  function DealAsWritten(regions: seq<Region>, idle: seq<Robot>): (res: Result<seq<Region>>)
    ensures res.Ok? <==> |idle| == 0
    ensures res.Ok? ==> res.value == regions
    ensures res.Err? ==> res.error == (if |regions| == 0 then Hangs else AttributeError)
  {
    if |idle| == 0 then Ok(regions)
    else if |regions| == 0 then Err(Hangs)
    else Err(AttributeError)
  }

  /** Wherever a drone is to be dealt, the deal as written fails while the
      corrected deal places it; with nothing to deal the two agree. */
  lemma {:induction false} DealAsWrittenFails(regions: seq<Region>, idle: seq<Robot>)
    ensures |regions| > 0 && |idle| > 0 ==>
              DealAsWritten(regions, idle) == Err(AttributeError) && Deal(regions, idle).Ok?
    ensures |idle| == 0 ==> DealAsWritten(regions, idle) == Deal(regions, idle) == Ok(regions)
  {
  }

  /** A deal from the first region gives every region a drone while any
      is left for it. */
  lemma {:induction false} DealtFromFirst(regions: seq<Region>, idle: seq<Robot>, res: seq<Region>)
    requires |res| == |regions|
    requires forall j :: 0 <= j < |regions| && j < |idle| ==> |res[j].drones| > |regions[j].drones|
    ensures |idle| >= |regions| ==> forall j :: 0 <= j < |regions| ==> |res[j].drones| > |regions[j].drones|
  {
  }

  // ---------------------------------------------------------------------
  // Balancing by donation
  // ---------------------------------------------------------------------

  predicate AllHaveTasks(regions: seq<Region>)
  {
    forall i :: 0 <= i < |regions| ==> |regions[i].tasks| > 0
  }

  /** Drones per task of one region. */
  function Ratio(reg: Region): real
    requires |reg.tasks| > 0
  {
    |reg.drones| as real / |reg.tasks| as real
  }

  /** The drones a region holds beyond its share at `avg` drones per task. */
  function Extra(reg: Region, avg: real): real
  {
    |reg.drones| as real - avg * |reg.tasks| as real
  }

  /** A region donates when it holds more than half a drone beyond its
      share and more than one drone. */
  predicate Donor(reg: Region, avg: real)
  {
    Extra(reg, avg) > 0.5 && |reg.drones| > 1
  }

  function SumSquares(regions: seq<Region>, avg: real): real
    requires AllHaveTasks(regions)
  {
    if |regions| == 0 then 0.0
    else
      var d := Ratio(regions[0]) - avg;
      d * d + SumSquares(regions[1..], avg)
  }

  /** `DPT_std`: the mean squared deviation of drones per task from the
      average. Division by zero when a region has no tasks or there are no
      regions. */
  function Spread(regions: seq<Region>, avg: real): (r: Result<real>)
    ensures r.Err? <==> |regions| == 0 || !AllHaveTasks(regions)
    ensures r.Err? ==> r.error == ZeroDivision
    ensures r.Ok? ==> r.value >= 0.0
  {
    if |regions| == 0 || !AllHaveTasks(regions) then Err(ZeroDivision)
    else
      SumSquaresNonNegative(regions, avg);
      Ok(SumSquares(regions, avg) / |regions| as real)
  }

  lemma {:induction false} SumSquaresNonNegative(regions: seq<Region>, avg: real)
    requires AllHaveTasks(regions)
    ensures SumSquares(regions, avg) >= 0.0
  {
    if |regions| > 0 {
      SumSquaresNonNegative(regions[1..], avg);
      SquareNonNegative(Ratio(regions[0]) - avg);
    }
  }

  lemma {:induction false} SquareNonNegative(d: real)
    ensures d * d >= 0.0
  {
  }

  /** The regions below the average drones per task, by index. */
  predicate Undersized(regions: seq<Region>, avg: real, u: nat)
  {
    u < |regions| && |regions[u].tasks| > 0 && Ratio(regions[u]) < avg
  }

  function Indices(n: nat): (r: seq<nat>)
    ensures |r| == n && forall i :: 0 <= i < n ==> r[i] == i
  {
    seq(n, i requires 0 <= i < n => i)
  }

  function UndersizedIndices(regions: seq<Region>, avg: real): (us: seq<nat>)
    ensures forall u: nat :: u in us <==> Undersized(regions, avg, u)
  {
    assert forall u: nat :: u in Indices(|regions|) <==> u < |regions| by {
      forall u: nat | u < |regions| ensures u in Indices(|regions|) { assert Indices(|regions|)[u] == u; }
    }
    Filter(Indices(|regions|), (u: nat) => Undersized(regions, avg, u))
  }

  /** A donor holds more drones per task than the average, so it is never
      among the undersized regions. */
  lemma {:induction false} DonorNotUndersized(reg: Region, avg: real)
    requires |reg.tasks| > 0 && Extra(reg, avg) > 0.5
    ensures Ratio(reg) > avg
  {
    var d, t := |reg.drones| as real, |reg.tasks| as real;
    assert d > avg * t;
    assert Ratio(reg) * t == d;
  }

  /** The undersized region whose centre is nearest to `center`, the
      first such on a tie (`min(undersized_regions, key=...)`); None when
      no region is undersized. */
  function Receiver(regions: seq<Region>, avg: real, center: Point): (r2: Option<nat>)
    ensures r2.None? <==> forall u :: 0 <= u < |regions| ==> !Undersized(regions, avg, u)
    ensures r2.Some? ==> Undersized(regions, avg, r2.value)
    ensures r2.Some? ==> forall u: nat :: Undersized(regions, avg, u) ==>
              Manhattan(center, regions[r2.value].center) <= Manhattan(center, regions[u].center)
  {
    var us := UndersizedIndices(regions, avg);
    if |us| == 0 then
      assert forall u :: 0 <= u < |regions| ==> !Undersized(regions, avg, u) by {
        forall u | 0 <= u < |regions| ensures !Undersized(regions, avg, u) {
          assert u !in us;
        }
      }
      None
    else
      var key := (u: nat) => if u < |regions| then Manhattan(center, regions[u].center) as int else 0;
      var best := ArgMin(us, key);
      var r2 := us[best];
      assert Undersized(regions, avg, r2);
      forall u: nat | Undersized(regions, avg, u)
        ensures Manhattan(center, regions[r2].center) <= Manhattan(center, regions[u].center)
      {
        assert u in us;
        var idx :| 0 <= idx < |us| && us[idx] == u;
        assert key(us[best]) <= key(us[idx]);
      }
      Some(r2)
  }

  /** Region `j` hands its drone nearest to region `r2`'s centre (the
      first such on a tie) to region `r2`, which appends it. No drone is
      lost or copied. */
  function MoveDrone(regions: seq<Region>, j: nat, r2: nat): (out: seq<Region>)
    requires j < |regions| && r2 < |regions| && j != r2 && |regions[j].drones| > 0
    ensures SameButDrones(out, regions)
    ensures multiset(AllDrones(out)) == multiset(AllDrones(regions))
    ensures |out[j].drones| == |regions[j].drones| - 1
    ensures multiset(out[j].drones) <= multiset(regions[j].drones)
    ensures |out[r2].drones| == |regions[r2].drones| + 1
    ensures out[r2].drones[..|regions[r2].drones|] == regions[r2].drones
    ensures var moved := out[r2].drones[|regions[r2].drones|];
      && moved in regions[j].drones
      && forall d :: d in regions[j].drones ==>
           Manhattan(moved.pos, regions[r2].center) <= Manhattan(d.pos, regions[r2].center)
    ensures forall i :: 0 <= i < |regions| && i != j && i != r2 ==> out[i] == regions[i]
    ensures forall i :: 0 <= i < |regions| && i != j ==> |out[i].drones| >= |regions[i].drones|
  {
    var ds := regions[j].drones;
    var c := ArgMin(ds, (d: Robot) => Manhattan(d.pos, regions[r2].center) as int);
    var out := WithDrones(WithDrones(regions, j, RemoveAt(ds, c)), r2, regions[r2].drones + [ds[c]]);
    MoveDroneFacts(regions, j, r2, c, out);
    out
  }

  /** What handing drone `c` of region `j` to region `r2` does, given that
      it is a drone of `j` nearest to the centre of `r2`. */
  lemma {:induction false} MoveDroneFacts(regions: seq<Region>, j: nat, r2: nat, c: nat, out: seq<Region>)
    requires j < |regions| && r2 < |regions| && j != r2 && c < |regions[j].drones|
    requires forall i :: 0 <= i < |regions[j].drones| ==>
               Manhattan(regions[j].drones[c].pos, regions[r2].center) as int
                 <= Manhattan(regions[j].drones[i].pos, regions[r2].center) as int
    requires out == WithDrones(WithDrones(regions, j, RemoveAt(regions[j].drones, c)), r2,
                               regions[r2].drones + [regions[j].drones[c]])
    ensures SameButDrones(out, regions)
    ensures multiset(AllDrones(out)) == multiset(AllDrones(regions))
    ensures |out[j].drones| == |regions[j].drones| - 1
    ensures multiset(out[j].drones) <= multiset(regions[j].drones)
    ensures |out[r2].drones| == |regions[r2].drones| + 1
    ensures out[r2].drones[..|regions[r2].drones|] == regions[r2].drones
    ensures var moved := out[r2].drones[|regions[r2].drones|];
      && moved in regions[j].drones
      && forall d :: d in regions[j].drones ==>
           Manhattan(moved.pos, regions[r2].center) <= Manhattan(d.pos, regions[r2].center)
    ensures forall i :: 0 <= i < |regions| && i != j && i != r2 ==> out[i] == regions[i]
    ensures forall i :: 0 <= i < |regions| && i != j ==> |out[i].drones| >= |regions[i].drones|
  {
    var ds := regions[j].drones;
    var moved := ds[c];
    var shrunk := RemoveAt(ds, c);
    var grown := regions[r2].drones + [moved];
    var mid := WithDrones(regions, j, shrunk);
    MoveConserves(regions, mid, out, j, r2, moved, shrunk, grown);
    assert grown[..|regions[r2].drones|] == regions[r2].drones;
  }

  /** One donation by region `j` (task_allocation.py:204-216): the nearest
      undersized region receives the donor's drone nearest to it. `min` of
      no undersized regions raises ValueError. The receiver is never the
      donor, and the donor keeps all but one of its drones. */
  function Donate(regions: seq<Region>, avg: real, j: nat): (res: Result<seq<Region>>)
    requires j < |regions| && AllHaveTasks(regions) && Donor(regions[j], avg)
    ensures res.Err? <==> forall u :: 0 <= u < |regions| ==> !Undersized(regions, avg, u)
    ensures res.Err? ==> res.error == ValueError
    ensures res.Ok? ==> SameButDrones(res.value, regions)
    ensures res.Ok? ==> multiset(AllDrones(res.value)) == multiset(AllDrones(regions))
    ensures res.Ok? ==> |res.value[j].drones| == |regions[j].drones| - 1
    ensures res.Ok? ==> forall i :: 0 <= i < |regions| && i != j ==> |res.value[i].drones| >= |regions[i].drones|
  {
    match Receiver(regions, avg, regions[j].center)
    case None => Err(ValueError)
    case Some(r2) =>
      DonorNotUndersized(regions[j], avg);
      assert r2 != j;
      Ok(MoveDrone(regions, j, r2))
  }

  /** Taking `moved` out of region `j` and appending it to region `r2`
      keeps the regions' drones as they were. */
  lemma {:induction false} MoveConserves(regions: seq<Region>, mid: seq<Region>, out: seq<Region>, j: nat, r2: nat,
                      moved: Robot, shrunk: seq<Robot>, grown: seq<Robot>)
    requires j < |regions| && r2 < |regions| && j != r2 && |mid| == |regions|
    requires multiset(shrunk) + multiset{moved} == multiset(regions[j].drones)
    requires grown == regions[r2].drones + [moved]
    requires DroneLists(mid) == DroneLists(regions)[j := shrunk]
    requires DroneLists(out) == DroneLists(mid)[r2 := grown]
    ensures multiset(AllDrones(out)) == multiset(AllDrones(regions))
  {
    var m := multiset(AllDrones(regions));
    var a := multiset(AllDrones(mid));
    FlattenUpdate(DroneLists(regions), j, shrunk);
    assert DroneLists(regions)[j] == regions[j].drones;
    MultisetCancel(a + multiset{moved}, multiset(shrunk), m);
    FlattenUpdate(DroneLists(mid), r2, grown);
    assert DroneLists(mid)[r2] == regions[r2].drones;
    MultisetCancel(multiset(AllDrones(out)), multiset(regions[r2].drones), a + multiset{moved});
  }

  /** One `for r in self.regions` pass, from region `j` on. Donations move
      drones between regions without losing or copying any, and a region
      holding a drone never gives up its last one. */
  function PassFrom(regions: seq<Region>, avg: real, j: nat): (res: Result<seq<Region>>)
    requires j <= |regions| && AllHaveTasks(regions)
    ensures res.Err? ==> res.error == ValueError
    ensures res.Ok? ==> SameButDrones(res.value, regions)
    ensures res.Ok? ==> multiset(AllDrones(res.value)) == multiset(AllDrones(regions))
    ensures res.Ok? ==> forall i :: 0 <= i < |regions| && |regions[i].drones| > 0 ==> |res.value[i].drones| > 0
    ensures res.Ok? && (forall i :: j <= i < |regions| ==> !Donor(regions[i], avg)) ==> res.value == regions
    decreases |regions| - j
  {
    if j == |regions| then Ok(regions)
    else if Donor(regions[j], avg) then
      match Donate(regions, avg, j)
      case Err(e) => Err(e)
      case Ok(next) =>
        DonateKeeps(regions, avg, j, next);
        var res := PassFrom(next, avg, j + 1);
        PassStep(regions, avg, j, next, res);
        res
    else PassFrom(regions, avg, j + 1)
  }

  /** The outcome of a pass from region `j` on, as `PassFrom` promises it. */
  predicate PassedFrom(regions: seq<Region>, avg: real, j: nat, res: Result<seq<Region>>)
  {
    && (res.Err? ==> res.error == ValueError)
    && (res.Ok? ==> KeepsDrones(regions, res.value))
    && (res.Ok? && (forall i :: j <= i < |regions| ==> !Donor(regions[i], avg)) ==> res.value == regions)
  }

  /** A donor keeps at least one drone, so a donation keeps the drones. */
  lemma {:induction false} DonateKeeps(regions: seq<Region>, avg: real, j: nat, next: seq<Region>)
    requires j < |regions| && AllHaveTasks(regions) && Donor(regions[j], avg)
    requires Donate(regions, avg, j) == Ok(next)
    ensures KeepsDrones(regions, next)
  {
  }

  /** A donation by region `j` that keeps the drones, followed by the
      rest of the pass, is a pass from `j`. */
  lemma {:induction false} PassStep(regions: seq<Region>, avg: real, j: nat, next: seq<Region>, res: Result<seq<Region>>)
    requires j < |regions| && Donor(regions[j], avg)
    requires KeepsDrones(regions, next)
    requires PassedFrom(next, avg, j + 1, res)
    ensures PassedFrom(regions, avg, j, res)
  {
    if res.Ok? {
      KeepsDronesTransitive(regions, next, res.value);
    }
  }

  /** What a balancing step keeps: the regions apart from their drones,
      the drones overall, and a drone in every region that had one. */
  predicate KeepsDrones(before: seq<Region>, after: seq<Region>)
  {
    && SameButDrones(after, before)
    && multiset(AllDrones(after)) == multiset(AllDrones(before))
    && forall i :: 0 <= i < |before| && |before[i].drones| > 0 ==> |after[i].drones| > 0
  }

  lemma {:induction false} KeepsDronesTransitive(a: seq<Region>, b: seq<Region>, c: seq<Region>)
    requires KeepsDrones(a, b) && KeepsDrones(b, c)
    ensures KeepsDrones(a, c)
  {
    SameButDronesTransitive(c, b, a);
  }

  /** The balancing loop's outcome: the regions, the spread measured on the
      iteration before the last, and the spread measured on the last. */
  datatype Balanced = Balanced(regions: seq<Region>, lastSpread: real, spread: real)

  /** The `while last_std is None or DPT_std < last_std` loop. Each
      iteration measures the spread, then runs a donation pass; it goes on
      while the spread it measured is strictly below the one before
      (`prev`, None standing for the initial infinity). When it stops, the
      last measured spread did not improve; drones are conserved and no
      region that held a drone loses its last one. */
  function BalanceFrom(regions: seq<Region>, avg: real, prev: Option<real>, fuel: nat): (res: Result<Balanced>)
    ensures res.Ok? ==> res.value.spread >= res.value.lastSpread
    ensures res.Ok? && prev.Some? ==> res.value.lastSpread <= prev.value
    ensures res.Ok? ==> SameButDrones(res.value.regions, regions)
    ensures res.Ok? ==> multiset(AllDrones(res.value.regions)) == multiset(AllDrones(regions))
    ensures res.Ok? ==> forall i :: 0 <= i < |regions| && |regions[i].drones| > 0 ==>
              |res.value.regions[i].drones| > 0
    ensures res.Err? ==> res.error in {ValueError, ZeroDivision, OutOfFuel}
    ensures res.Err? && res.error == ZeroDivision ==> |regions| == 0 || !AllHaveTasks(regions)
    decreases fuel
  {
    match Spread(regions, avg)
    case Err(e) => Err(e)
    case Ok(s) =>
      match PassFrom(regions, avg, 0)
      case Err(e) => Err(e)
      case Ok(next) =>
        if prev.None? || s < prev.value then
          if fuel == 0 then Err(OutOfFuel)
          else
            var res := BalanceFrom(next, avg, Some(s), fuel - 1);
            if res.Ok? then KeepsDronesTransitive(regions, next, res.value.regions); res else res
        else Ok(Balanced(next, prev.value, s))
  }

  /** The balancing phase at the average of the fleet's drones over all
      tasks (`DPT_avg`; division by zero without tasks). */
  function Balance(regions: seq<Region>, fleetDrones: nat, nTasks: nat, fuel: nat): (res: Result<seq<Region>>)
    ensures res.Ok? ==> SameButDrones(res.value, regions)
    ensures res.Ok? ==> multiset(AllDrones(res.value)) == multiset(AllDrones(regions))
    ensures res.Ok? ==> forall i :: 0 <= i < |regions| && |regions[i].drones| > 0 ==> |res.value[i].drones| > 0
    ensures res.Err? ==> res.error in {ValueError, ZeroDivision, OutOfFuel}
    ensures res.Err? && res.error == ZeroDivision ==> nTasks == 0 || |regions| == 0 || !AllHaveTasks(regions)
  {
    if nTasks == 0 then Err(ZeroDivision)
    else
      match BalanceFrom(regions, fleetDrones as real / nTasks as real, None, fuel)
      case Err(e) => Err(e)
      case Ok(b) => Ok(b.regions)
  }

  /** `assign_Drones2Regions`: deal the idle drones, then balance. Every
      idle drone ends in exactly one region, and with at least as many idle
      drones as regions every region ends with a drone. */
  function AssignDrones(regions: seq<Region>, idle: seq<Robot>, fleetDrones: nat, nTasks: nat,
                        fuel: nat): (res: Result<seq<Region>>)
    ensures res.Ok? ==> SameButDrones(res.value, regions)
    ensures res.Ok? ==> multiset(AllDrones(res.value)) == multiset(AllDrones(regions)) + multiset(idle)
    ensures res.Ok? && |idle| >= |regions| ==> forall i :: 0 <= i < |regions| ==> |res.value[i].drones| > 0
    ensures res.Err? ==> res.error in {Hangs, ValueError, ZeroDivision, OutOfFuel}
    ensures res.Err? && res.error == Hangs ==> |regions| == 0 && |idle| > 0
    ensures res.Err? && res.error == ZeroDivision ==> nTasks == 0 || |regions| == 0 || !AllHaveTasks(regions)
  {
    match Deal(regions, idle)
    case Err(e) => Err(e)
    case Ok(dealt) =>
      var res := Balance(dealt, fleetDrones, nTasks, fuel);
      if res.Err? then res
      else
        SameButDronesTransitive(res.value, dealt, regions);
        assert AllHaveTasks(dealt) == AllHaveTasks(regions);
        res
  }
}

=== FILE: evaluation.dfy ===
/** The parameter-sweep helpers of the evaluator (evaluation.py): sweep
    parameters, the data log, the expansion of dynamic parameters into
    static configurations, and the drone/AMR fleet compositions. */
module Evaluation {
  import opened Common
  import RobotFleet

  /** A parameter value: a number, or one of the list values the evaluator
      sets up (border paddings, drop-point flags). */
  datatype Value = Num(n: int) | Ints(items: seq<int>) | Flags(bits: seq<bool>)

  /** Python truthiness: zero and empty lists are false. */
  predicate Truthy(v: Value)
  {
    match v
    case Num(n) => n != 0
    case Ints(items) => |items| > 0
    case Flags(bits) => |bits| > 0
  }

  /** `np.arange(lo, hi, step)` on integers: `lo`, `lo + step`, ... while
      strictly before `hi` in the direction of `step`. */
  function Arange(lo: int, hi: int, step: int): (r: seq<int>)
    requires step != 0
    ensures |r| > 0 <==> (step > 0 && lo < hi) || (step < 0 && lo > hi)
    ensures |r| > 0 ==> r[0] == lo
    ensures forall i :: 0 <= i < |r| - 1 ==> r[i + 1] == r[i] + step
    ensures forall x :: x in r ==> if step > 0 then lo <= x < hi else hi < x <= lo
    ensures |r| > 0 ==> if step > 0 then r[|r| - 1] + step >= hi else r[|r| - 1] + step <= hi
    decreases if step > 0 then hi - lo else lo - hi
  {
    if (step > 0 && lo < hi) || (step < 0 && lo > hi) then [lo] + Arange(lo + step, hi, step)
    else []
  }

  // ---------------------------------------------------------------------
  // SimParam
  // ---------------------------------------------------------------------

  /** A simulation parameter: static with a value, or dynamic with the
      start, stop and step `arange` ran with, and its sweep. */
  datatype SimParam =
    | Static(name: string, value: Value)
    | Dynamic(name: string, lo: int, hi: int, step: int, sweep: seq<int>)

  /** `SimParam(name, value, min, max, step)`: a given value makes the
      parameter static; otherwise it is dynamic over
      `np.arange(min, max, step)`. As in numpy, an omitted step counts by
      one, and an omitted `max` makes `min` the stop of a range from zero.
      An omitted `min` or a zero step makes `arange` raise (None). */
  function NewSimParam(name: string, value: Option<Value>,
                       lo: Option<int>, hi: Option<int>, step: Option<int>): (r: Option<SimParam>)
    ensures r.Some? <==> value.Some? || (lo.Some? && step != Some(0))
    ensures r.Some? ==> r.value.name == name
    ensures r.Some? ==> (r.value.Static? <==> value.Some?)
    ensures value.Some? ==> r == Some(Static(name, value.value))
    ensures r.Some? && r.value.Dynamic? ==>
              && r.value.step == (if step.Some? then step.value else 1)
              && (hi.Some? ==> r.value.lo == lo.value && r.value.hi == hi.value)
              && (hi.None? ==> r.value.lo == 0 && r.value.hi == lo.value)
              && r.value.sweep == Arange(r.value.lo, r.value.hi, r.value.step)
  {
    if value.Some? then Some(Static(name, value.value))
    else if lo.None? || step == Some(0) then None
    else
      var s := if step.Some? then step.value else 1;
      var (start, stop) := if hi.Some? then (lo.value, hi.value) else (0, lo.value);
      Some(Dynamic(name, start, stop, s, Arange(start, stop, s)))
  }

  /** numpy's defaults: leaving out the step is stepping by one, and
      leaving out `max` is sweeping from zero up to `min`. */
  lemma {:induction false} NewSimParamDefaults(name: string, lo: int, hi: int, step: int)
    requires step != 0
    ensures NewSimParam(name, None, Some(lo), Some(hi), None) == NewSimParam(name, None, Some(lo), Some(hi), Some(1))
    ensures NewSimParam(name, None, Some(lo), None, Some(step)) == NewSimParam(name, None, Some(0), Some(lo), Some(step))
    ensures NewSimParam(name, None, None, Some(hi), Some(step)).None?
  {
  }

  /** `get_as_list`: `[value]` for a truthy value, otherwise the sweep,
      which a static parameter does not have (None). */
  function GetAsList(p: SimParam): (r: Option<seq<Value>>)
    ensures r.None? <==> p.Static? && !Truthy(p.value)
    ensures p.Static? && Truthy(p.value) ==> r == Some([p.value])
    ensures p.Dynamic? ==> r.Some? && |r.value| == |p.sweep|
    ensures p.Dynamic? ==> forall i :: 0 <= i < |p.sweep| ==> r.value[i] == Num(p.sweep[i])
  {
    match p
    case Static(_, v) => if Truthy(v) then Some([v]) else None
    case Dynamic(_, _, _, _, sweep) => Some(seq(|sweep|, i requires 0 <= i < |sweep| => Num(sweep[i])))
  }

  /** A parameter made without a value lists exactly the numbers of its
      `arange`, in order, from `min` up to (not including) `max`. */
  lemma {:induction false} DynamicListsSweep(name: string, lo: int, hi: int, step: int)
    requires step > 0
    ensures var p := NewSimParam(name, None, Some(lo), Some(hi), Some(step));
      && p.Some? && p.value.Dynamic?
      && var l := GetAsList(p.value);
      && l.Some?
      && (|l.value| > 0 <==> lo < hi)
      && (forall i :: 0 <= i < |l.value| ==> l.value[i].Num? && lo <= l.value[i].n < hi)
      && (|l.value| > 0 ==> l.value[0] == Num(lo) && l.value[|l.value| - 1].n + step >= hi)
  {
    var p := NewSimParam(name, None, Some(lo), Some(hi), Some(step)).value;
    var l := GetAsList(p).value;
    forall i | 0 <= i < |l|
      ensures l[i].Num? && lo <= l[i].n < hi
    {
      assert l[i] == Num(p.sweep[i]);
      assert p.sweep[i] in p.sweep;
    }
  }

  // ---------------------------------------------------------------------
  // Evaluator.log
  // ---------------------------------------------------------------------

  /** `log`: append the data to the name's list, or start a new list. */
  function Log<D>(data: map<string, seq<D>>, name: string, x: D): (r: map<string, seq<D>>)
    ensures r.Keys == data.Keys + {name}
    ensures name in data ==> r[name] == data[name] + [x]
    ensures name !in data ==> r[name] == [x]
    ensures forall k :: k in data && k != name ==> r[k] == data[k]
  {
    if name in data then data[name := data[name] + [x]] else data[name := [x]]
  }

  /** Logging several data items under one name, in order. */
  function LogAll<D>(data: map<string, seq<D>>, name: string, xs: seq<D>): map<string, seq<D>>
    decreases |xs|
  {
    if |xs| == 0 then data else LogAll(Log(data, name, xs[0]), name, xs[1..])
  }

  /** The log keeps the whole history of a name, in order, and leaves the
      other names alone. */
  lemma {:induction false} LogAllKeepsHistory<D>(data: map<string, seq<D>>, name: string, xs: seq<D>)
    ensures name in LogAll(data, name, xs) || |xs| == 0
    ensures |xs| > 0 ==>
              LogAll(data, name, xs)[name] == (if name in data then data[name] else []) + xs
    ensures forall k :: k in data && k != name ==> k in LogAll(data, name, xs) && LogAll(data, name, xs)[k] == data[k]
    decreases |xs|
  {
    if |xs| > 0 {
      var next := Log(data, name, xs[0]);
      LogAllKeepsHistory(next, name, xs[1..]);
      if |xs| > 1 {
        assert (if name in data then data[name] else []) + [xs[0]] + xs[1..] ==
               (if name in data then data[name] else []) + xs;
      } else {
        assert xs == [xs[0]];
      }
    }
  }

  // ---------------------------------------------------------------------
  // recursive_split_wh_info
  // ---------------------------------------------------------------------

  /** A parameter configuration: the parameters in dictionary order, each
      stored under its own name. */
  type Config = seq<SimParam>

  /** The parameters `recursive_split_wh_info` expands: dynamic ones other
      than the fleet sizes. */
  predicate Expandable(p: SimParam)
  {
    p.Dynamic? && p.name != "n_drone" && p.name != "n_amr"
  }

  function ExpandableCount(c: Config): nat
  {
    if |c| == 0 then 0
    else ExpandableCount(c[..|c| - 1]) + (if Expandable(c[|c| - 1]) then 1 else 0)
  }

  lemma {:induction false} ExpandableCountUpdate(c: Config, k: nat, p: SimParam)
    requires k < |c|
    ensures ExpandableCount(c[k := p]) + (if Expandable(c[k]) then 1 else 0) ==
            ExpandableCount(c) + (if Expandable(p) then 1 else 0)
    decreases |c|
  {
    var n := |c| - 1;
    var d := c[k := p];
    if k == n {
      assert d[..n] == c[..n];
    } else {
      assert d[..n] == c[..n][k := p];
      ExpandableCountUpdate(c[..n], k, p);
    }
  }

  /** Fixing parameter `k` to one of its values. */
  function Fix(c: Config, k: nat, v: int): (d: Config)
    requires k < |c|
    ensures |d| == |c| && d[k] == Static(c[k].name, Num(v))
    ensures forall j :: 0 <= j < |c| && j != k ==> d[j] == c[j]
  {
    c[k := Static(c[k].name, Num(v))]
  }

  /** The inner `for val in param.get_as_list()` loop: the configuration
      is updated in place and a copy appended after each value; the
      parameter is left at the last value. */
  function ExpandParam(cur: Config, k: nat, vals: seq<int>): (res: (seq<Config>, Config))
    requires k < |cur|
    ensures |res.0| == |vals|
    ensures forall i :: 0 <= i < |vals| ==> res.0[i] == Fix(cur, k, vals[i])
    ensures res.1 == if |vals| == 0 then cur else Fix(cur, k, vals[|vals| - 1])
    decreases |vals|
  {
    if |vals| == 0 then ([], cur)
    else
      var next := Fix(cur, k, vals[0]);
      assert next[k].name == cur[k].name;
      var rest := ExpandParam(next, k, vals[1..]);
      assert forall v :: Fix(next, k, v) == Fix(cur, k, v);
      ([next] + rest.0, rest.1)
  }

  /** No parameter from position `k` on is left to expand: the expandable
      ones all have empty sweeps. */
  predicate Settled(c: Config, k: nat)
  {
    forall j :: k <= j < |c| && Expandable(c[j]) ==> |c[j].sweep| == 0
  }

  /** `d` is `c` with expandable parameter `j` fixed to a value of its sweep
      and every later parameter as in `c`. */
  predicate FixedAt(d: Config, c: Config, j: int)
  {
    && 0 <= j < |c| && |d| == |c|
    && Expandable(c[j])
    && d[j].Static? && d[j].name == c[j].name
    && d[j].value.Num? && d[j].value.n in c[j].sweep
    && d[j + 1..] == c[j + 1..]
  }

  /** The `for name, param in config.items()` loop from position `k` on:
      each expandable parameter is expanded over its sweep, seeing the
      parameters before it at the last value of theirs. */
  function ExpandConfig(cur: Config, k: nat): (r: seq<Config>)
    requires k <= |cur|
    ensures forall d: Config :: d in r ==> ExpandableCount(d) < ExpandableCount(cur)
    ensures forall d: Config :: d in r ==> exists j :: k <= j && FixedAt(d, cur, j)
    ensures |r| == 0 <==> Settled(cur, k)
    ensures forall d: Config :: d in r ==> Instance(d, cur)
    decreases |cur| - k
  {
    if k == |cur| then []
    else if Expandable(cur[k]) then
      var step := ExpandParam(cur, k, cur[k].sweep);
      var fin := step.1;
      var rest := ExpandConfig(fin, k + 1);
      FinKeepsLater(cur, k);
      ExpandedCounts(cur, k, rest);
      ExpandedOrigins(cur, k, rest);
      ExpandedInstances(cur, k, rest);
      step.0 + rest
    else
      ExpandConfig(cur, k + 1)
  }

  lemma {:induction false} FinKeepsLater(cur: Config, k: nat)
    requires k < |cur| && Expandable(cur[k])
    ensures var fin := ExpandParam(cur, k, cur[k].sweep).1;
      && |fin| == |cur| && fin[k + 1..] == cur[k + 1..]
      && ExpandableCount(fin) <= ExpandableCount(cur)
      && (Settled(fin, k + 1) <==> Settled(cur, k + 1))
      && (Settled(cur, k) <==> Settled(cur, k + 1) && |cur[k].sweep| == 0)
  {
    var vals := cur[k].sweep;
    if |vals| > 0 {
      var v := vals[|vals| - 1];
      ExpandableCountUpdate(cur, k, Static(cur[k].name, Num(v)));
    }
  }

  lemma {:induction false} ExpandedCounts(cur: Config, k: nat, rest: seq<Config>)
    requires k < |cur| && Expandable(cur[k])
    requires var fin := ExpandParam(cur, k, cur[k].sweep).1;
      forall d: Config :: d in rest ==> ExpandableCount(d) < ExpandableCount(fin)
    requires ExpandableCount(ExpandParam(cur, k, cur[k].sweep).1) <= ExpandableCount(cur)
    ensures forall d: Config :: d in ExpandParam(cur, k, cur[k].sweep).0 + rest ==>
              ExpandableCount(d) < ExpandableCount(cur)
  {
    var app := ExpandParam(cur, k, cur[k].sweep).0;
    forall d: Config | d in app
      ensures ExpandableCount(d) < ExpandableCount(cur)
    {
      var i :| 0 <= i < |app| && app[i] == d;
      ExpandableCountUpdate(cur, k, Static(cur[k].name, Num(cur[k].sweep[i])));
    }
  }

  lemma {:induction false} ExpandedOrigins(cur: Config, k: nat, rest: seq<Config>)
    requires k < |cur| && Expandable(cur[k])
    requires var fin := ExpandParam(cur, k, cur[k].sweep).1;
      && |fin| == |cur| && fin[k + 1..] == cur[k + 1..]
      && forall d: Config :: d in rest ==> exists j :: k + 1 <= j && FixedAt(d, fin, j)
    ensures forall d: Config :: d in ExpandParam(cur, k, cur[k].sweep).0 + rest ==>
              exists j :: k <= j && FixedAt(d, cur, j)
  {
    var app := ExpandParam(cur, k, cur[k].sweep).0;
    var fin := ExpandParam(cur, k, cur[k].sweep).1;
    forall d: Config | d in app
      ensures FixedAt(d, cur, k)
    {
      var i :| 0 <= i < |app| && app[i] == d;
      FixFixedAt(cur, k, cur[k].sweep[i]);
    }
    forall d: Config | d in rest
      ensures exists j :: k <= j && FixedAt(d, cur, j)
    {
      var j :| k + 1 <= j && FixedAt(d, fin, j);
      FixedAtLater(d, fin, cur, k, j);
    }
  }

  /** Fixing parameter `k` at one of its sweep values fixes it there. */
  lemma {:induction false} FixFixedAt(cur: Config, k: nat, v: int)
    requires k < |cur| && Expandable(cur[k]) && v in cur[k].sweep
    ensures FixedAt(Fix(cur, k, v), cur, k)
  {
    var d := Fix(cur, k, v);
    assert d[k + 1..] == cur[k + 1..];
  }

  /** Fixed after position `k` in a configuration that agrees with `cur`
      after `k` is fixed in `cur` at the same place. */
  lemma {:induction false} FixedAtLater(d: Config, fin: Config, cur: Config, k: nat, j: nat)
    requires FixedAt(d, fin, j)
    requires |fin| == |cur| && k + 1 <= j && fin[k + 1..] == cur[k + 1..]
    ensures FixedAt(d, cur, j)
  {
    assert fin[j] == fin[k + 1..][j - k - 1] == cur[j];
    assert fin[j + 1..] == cur[j + 1..] by {
      assert fin[j + 1..] == fin[k + 1..][j - k..];
      assert cur[j + 1..] == cur[k + 1..][j - k..];
    }
  }

  /** Parameter `p` of a configuration derived from one holding `q`: `q`
      itself, or, when `q` is expandable, `q` fixed to a value of its
      sweep. */
  predicate ParamInstance(p: SimParam, q: SimParam)
  {
    || p == q
    || (Expandable(q) && p.Static? && p.name == q.name && p.value.Num? && p.value.n in q.sweep)
  }

  /** `d` is derived from `c` parameter by parameter: the other
      parameters are kept and expandable ones are kept or fixed to one of
      their sweep values. */
  predicate Instance(d: Config, c: Config)
  {
    |d| == |c| && forall j :: 0 <= j < |c| ==> ParamInstance(d[j], c[j])
  }

  /** A fixed parameter is static, so it is never expanded again: an
      instance of an instance of `c` is an instance of `c`. */
  lemma {:induction false} InstanceTransitive(e: Config, d: Config, c: Config)
    requires Instance(e, d) && Instance(d, c)
    ensures Instance(e, c)
  {
    forall j | 0 <= j < |c|
      ensures ParamInstance(e[j], c[j])
    {
      assert ParamInstance(e[j], d[j]) && ParamInstance(d[j], c[j]);
    }
  }

  /** Fixing an expandable parameter at a value of its sweep gives an
      instance. */
  lemma {:induction false} FixInstance(cur: Config, k: nat, v: int)
    requires k < |cur| && Expandable(cur[k]) && v in cur[k].sweep
    ensures Instance(Fix(cur, k, v), cur)
  {
    var d := Fix(cur, k, v);
    forall j | 0 <= j < |cur|
      ensures ParamInstance(d[j], cur[j])
    {
      if j != k {
        assert d[j] == cur[j];
      }
    }
  }

  lemma {:induction false} ExpandedInstances(cur: Config, k: nat, rest: seq<Config>)
    requires k < |cur| && Expandable(cur[k])
    requires forall d: Config :: d in rest ==> Instance(d, ExpandParam(cur, k, cur[k].sweep).1)
    ensures forall d: Config :: d in ExpandParam(cur, k, cur[k].sweep).0 + rest ==> Instance(d, cur)
  {
    var vals := cur[k].sweep;
    var step := ExpandParam(cur, k, vals);
    var fin := step.1;
    if |vals| > 0 {
      FixInstance(cur, k, vals[|vals| - 1]);
    } else {
      assert forall j :: 0 <= j < |cur| ==> ParamInstance(fin[j], cur[j]);
    }
    assert Instance(fin, cur);
    forall d: Config | d in step.0 + rest
      ensures Instance(d, cur)
    {
      if d in step.0 {
        var i :| 0 <= i < |step.0| && step.0[i] == d;
        FixInstance(cur, k, vals[i]);
      } else {
        InstanceTransitive(d, fin, cur);
      }
    }
  }

  /** One level of expansion over a list of configurations. */
  function Expand(configs: seq<Config>): seq<Config>
  {
    Flatten(seq(|configs|, i requires 0 <= i < |configs| => ExpandConfig(configs[i], 0)))
  }

  /** Every configuration of the expanded level is an instance of one of
      the level before. */
  lemma {:induction false} ExpandInstances(configs: seq<Config>)
    ensures forall d: Config :: d in Expand(configs) ==> exists c: Config :: c in configs && Instance(d, c)
  {
    var rows := seq(|configs|, i requires 0 <= i < |configs| => ExpandConfig(configs[i], 0));
    forall d: Config | d in Expand(configs)
      ensures exists c: Config :: c in configs && Instance(d, c)
    {
      FlattenMember(rows, d);
      var j :| 0 <= j < |rows| && d in rows[j];
      assert Instance(d, configs[j]);
    }
  }

  /** The largest number of expandable parameters among the configurations. */
  function MaxCount(configs: seq<Config>): (m: nat)
    ensures forall i :: 0 <= i < |configs| ==> ExpandableCount(configs[i]) <= m
    ensures |configs| > 0 ==> exists i :: 0 <= i < |configs| && m == ExpandableCount(configs[i])
    ensures |configs| == 0 ==> m == 0
  {
    if |configs| == 0 then 0
    else
      var rest := MaxCount(configs[1..]);
      var first := ExpandableCount(configs[0]);
      if first >= rest then first else rest
  }

  /** Nothing is expanded exactly when no configuration has an expandable
      parameter with a non-empty sweep; otherwise every new configuration
      has fewer expandable parameters than the largest old count. */
  lemma {:induction false} ExpandFacts(configs: seq<Config>)
    ensures |Expand(configs)| == 0 <==> forall i :: 0 <= i < |configs| ==> Settled(configs[i], 0)
    ensures |Expand(configs)| > 0 ==> MaxCount(Expand(configs)) < MaxCount(configs)
  {
    var rows := seq(|configs|, i requires 0 <= i < |configs| => ExpandConfig(configs[i], 0));
    var e := Expand(configs);
    if |e| == 0 {
      forall i | 0 <= i < |configs|
        ensures |rows[i]| == 0 && Settled(configs[i], 0)
      {
        FlattenMultiset(rows, i);
      }
    } else {
      var i0 :| 0 <= i0 < |e| && MaxCount(e) == ExpandableCount(e[i0]);
      FlattenMember(rows, e[i0]);
      var j :| 0 <= j < |rows| && e[i0] in rows[j];
      assert ExpandableCount(e[i0]) < ExpandableCount(configs[j]);
      assert !Settled(configs[j], 0);
    }
  }

  /** `recursive_split_wh_info`, with `copy` imported: expand until a
      level expands nothing, then return that level. */
  function RecursiveSplit(configs: seq<Config>): (r: seq<Config>)
    ensures (forall i :: 0 <= i < |configs| ==> Settled(configs[i], 0)) ==> r == configs
    ensures forall i :: 0 <= i < |r| ==> Settled(r[i], 0)
    ensures |configs| > 0 ==> |r| > 0
    ensures forall d: Config :: d in r ==> exists c: Config :: c in configs && Instance(d, c)
    decreases MaxCount(configs)
  {
    ExpandFacts(configs);
    var expanded := Expand(configs);
    if |expanded| == 0 then
      InstancesOfSelf(configs);
      configs
    else
      var r := RecursiveSplit(expanded);
      ExpandInstances(configs);
      InstancesCompose(r, expanded, configs);
      r
  }

  /** Each configuration the split returns comes from one of the input
      configurations by fixing every expandable parameter that has values
      to one of them; everything else is as in the input. */
  predicate SplitFrom(d: Config, c: Config)
  {
    && |d| == |c|
    && forall j :: 0 <= j < |c| ==>
         if Expandable(c[j]) && |c[j].sweep| > 0
         then d[j].Static? && d[j].name == c[j].name && d[j].value.Num? && d[j].value.n in c[j].sweep
         else d[j] == c[j]
  }

  lemma {:induction false} RecursiveSplitFixesSweeps(configs: seq<Config>)
    ensures forall d: Config :: d in RecursiveSplit(configs) ==> exists c: Config :: c in configs && SplitFrom(d, c)
  {
    var r := RecursiveSplit(configs);
    forall d: Config | d in r
      ensures exists c: Config :: c in configs && SplitFrom(d, c)
    {
      var i :| 0 <= i < |r| && r[i] == d;
      var c: Config :| c in configs && Instance(d, c);
      SettledInstanceFixes(d, c);
    }
  }

  /** A settled instance has every swept parameter with values fixed. */
  lemma {:induction false} SettledInstanceFixes(d: Config, c: Config)
    requires Settled(d, 0) && Instance(d, c)
    ensures SplitFrom(d, c)
  {
    forall j | 0 <= j < |c|
      ensures if Expandable(c[j]) && |c[j].sweep| > 0
              then d[j].Static? && d[j].name == c[j].name && d[j].value.Num? && d[j].value.n in c[j].sweep
              else d[j] == c[j]
    {
      assert ParamInstance(d[j], c[j]);
    }
  }

  lemma {:induction false} InstancesOfSelf(configs: seq<Config>)
    ensures forall d: Config :: d in configs ==> exists c: Config :: c in configs && Instance(d, c)
  {
    forall d: Config | d in configs
      ensures exists c: Config :: c in configs && Instance(d, c)
    {
      assert Instance(d, d);
    }
  }

  lemma {:induction false} InstancesCompose(r: seq<Config>, mid: seq<Config>, configs: seq<Config>)
    requires forall d: Config :: d in r ==> exists e: Config :: e in mid && Instance(d, e)
    requires forall e: Config :: e in mid ==> exists c: Config :: c in configs && Instance(e, c)
    ensures forall d: Config :: d in r ==> exists c: Config :: c in configs && Instance(d, c)
  {
    forall d: Config | d in r
      ensures exists c: Config :: c in configs && Instance(d, c)
    {
      var e: Config :| e in mid && Instance(d, e);
      var c: Config :| c in configs && Instance(e, c);
      InstanceTransitive(d, e, c);
    }
  }

  /** `recursive_split_wh_info` as written: line 104 calls `copy.copy`, but
      neither evaluation.py nor the modules it star-imports (utils.py,
      warehouse_map.py, robot_fleet.py) bring in `copy`, so the first configuration the loop would append
      raises NameError. */
  function RecursiveSplitAsWritten(configs: seq<Config>): (r: Result<seq<Config>>)
    ensures r.Ok? <==> forall i :: 0 <= i < |configs| ==> Settled(configs[i], 0)
    ensures r.Ok? ==> r.value == configs
    ensures r.Err? ==> r.error == NameError
  {
    ExpandFacts(configs);
    if |Expand(configs)| == 0 then Ok(configs) else Err(NameError)
  }

  /** One swept parameter with a single value: the program as written
      raises, where the corrected split fixes the parameter to that value. */
  lemma {:induction false} SplitOneValue()
    ensures RecursiveSplitAsWritten([[Dynamic("aisle_x", 0, 1, 1, [0])]]) == Err(NameError)
    ensures RecursiveSplit([[Dynamic("aisle_x", 0, 1, 1, [0])]]) == [[Static("aisle_x", Num(0))]]
  {
    var c: Config := [Dynamic("aisle_x", 0, 1, 1, [0])];
    var d: Config := [Static("aisle_x", Num(0))];
    assert Expandable(c[0]);
    assert Fix(c, 0, 0) == d;
    var e := ExpandParam(c, 0, [0]);
    assert |e.0| == 1 && e.0[0] == d && e.1 == d;
    assert e.0 == [d];
    assert ExpandConfig(d, 1) == [];
    assert ExpandConfig(c, 0) == [d];
    assert Expand([c]) == [d] by {
      var none: seq<seq<Config>> := [];
      assert seq(1, i requires 0 <= i < 1 => ExpandConfig([c][i], 0)) == [[d]];
      assert Flatten([[d]]) == [d] + Flatten(none);
    }
    assert ExpandConfig(d, 0) == [] by {
      assert !Expandable(d[0]);
    }
    assert Expand([d]) == [] by {
      var none: seq<seq<Config>> := [];
      var empty: seq<Config> := [];
      assert seq(1, i requires 0 <= i < 1 => ExpandConfig([d][i], 0)) == [empty];
      assert Flatten([empty]) == empty + Flatten(none);
    }
  }

  // ---------------------------------------------------------------------
  // generate_fleet_comp
  // ---------------------------------------------------------------------

  /** `[["Drone", d], ["AMR", a]]`. */
  function Comp(d: int, a: int): seq<RobotFleet.Line>
  {
    [RobotFleet.Line("Drone", d), RobotFleet.Line("AMR", a)]
  }

  /** The inner loop for one drone count: a composition for each AMR count
      not above it. Comparing anything but two numbers is treated as the
      TypeError `int()` or the comparison would raise (None). */
  function FleetRow(d: Value, amrs: seq<Value>): (r: Option<seq<seq<RobotFleet.Line>>>)
    ensures r.Some? <==> |amrs| == 0 || (d.Num? && forall j :: 0 <= j < |amrs| ==> amrs[j].Num?)
    ensures r.Some? && d.Num? ==>
              forall x, y :: Comp(x, y) in r.value <==> x == d.n && Num(y) in amrs && x >= y
    ensures r.Some? ==> |r.value| <= |amrs|
  {
    if |amrs| == 0 then Some([])
    else if !(d.Num? && amrs[0].Num?) then None
    else
      match FleetRow(d, amrs[1..])
      case None => None
      case Some(rest) =>
        assert forall j :: 1 <= j < |amrs| ==> amrs[j] == amrs[1..][j - 1];
        assert forall v :: v in amrs <==> v == amrs[0] || v in amrs[1..];
        Some((if d.n >= amrs[0].n then [Comp(d.n, amrs[0].n)] else []) + rest)
  }

  /** Both loops of `generate_fleet_comp`, drone count by drone count. */
  function FleetRows(drones: seq<Value>, amrs: seq<Value>): (r: Option<seq<seq<RobotFleet.Line>>>)
    ensures r.Some? <==>
              || |drones| == 0 || |amrs| == 0
              || ((forall i :: 0 <= i < |drones| ==> drones[i].Num?) && (forall j :: 0 <= j < |amrs| ==> amrs[j].Num?))
    ensures r.Some? ==> forall x, y :: Comp(x, y) in r.value <==> Num(x) in drones && Num(y) in amrs && x >= y
  {
    if |drones| == 0 then Some([])
    else
      match FleetRow(drones[0], amrs)
      case None => None
      case Some(row) =>
        match FleetRows(drones[1..], amrs)
        case None => None
        case Some(rest) =>
          assert forall i :: 1 <= i < |drones| ==> drones[i] == drones[1..][i - 1];
          assert forall v :: v in drones <==> v == drones[0] || v in drones[1..];
          Some(row + rest)
  }

  /** `generate_fleet_comp`: a missing key raises KeyError, a parameter
      without a list raises TypeError (None). The AMR parameter is only
      looked up once there is a drone count to pair it with. */
  function GenerateFleetComp(params: map<string, SimParam>): (r: Option<seq<seq<RobotFleet.Line>>>)
    ensures "n_drone" !in params ==> r.None?
    ensures r.Some? ==> forall x, y :: Comp(x, y) in r.value <==>
              && GetAsList(params["n_drone"]).Some? && Num(x) in GetAsList(params["n_drone"]).value
              && "n_amr" in params && GetAsList(params["n_amr"]).Some? && Num(y) in GetAsList(params["n_amr"]).value
              && x >= y
  {
    if "n_drone" !in params then None
    else
      match GetAsList(params["n_drone"])
      case None => None
      case Some(drones) =>
        if |drones| == 0 then Some([])
        else if "n_amr" !in params then None
        else
          match GetAsList(params["n_amr"])
          case None => None
          case Some(amrs) => FleetRows(drones, amrs)
  }

  /** With both counts swept, the compositions are exactly the pairs of
      swept values with at least as many drones as AMRs. */
  lemma {:induction false} FleetCompOfSweeps(params: map<string, SimParam>, x: int, y: int)
    requires "n_drone" in params && params["n_drone"].Dynamic?
    requires "n_amr" in params && params["n_amr"].Dynamic?
    ensures GenerateFleetComp(params).Some?
    ensures Comp(x, y) in GenerateFleetComp(params).value <==>
              x in params["n_drone"].sweep && y in params["n_amr"].sweep && x >= y
  {
    var ds, ams := GetAsList(params["n_drone"]).value, GetAsList(params["n_amr"]).value;
    var sd, sa := params["n_drone"].sweep, params["n_amr"].sweep;
    assert Num(x) in ds <==> x in sd by {
      if x in sd {
        var i :| 0 <= i < |sd| && sd[i] == x;
        assert ds[i] == Num(x);
      }
    }
    assert Num(y) in ams <==> y in sa by {
      if y in sa {
        var i :| 0 <= i < |sa| && sa[i] == y;
        assert ams[i] == Num(y);
      }
    }
  }
}

=== FILE: path_planning.dfy ===
/** The axis-by-axis Manhattan path of the path planner (path_planning.py),
    at cell level: all x moves, then all y moves, then all z moves, then
    the end cell. The point-to-cell conversion around it is not modelled. */
module PathPlanning {
  import opened Common
  import opened Utils

  /** The value `i` unit steps from `a` in the direction of `b` (the step is
      -1 when `a > b` and +1 otherwise, as in the source's `arange`). */
  function Toward(a: int, b: int, i: int): int
  {
    if a > b then a - i else a + i
  }

  /** `np.arange(a, b, -1 if a > b else 1)`: the integers from `a` towards
      `b`, `b` itself excluded. */
  function Steps(a: int, b: int): (r: seq<int>)
    ensures |r| == Abs(b - a)
    ensures forall i :: 0 <= i < |r| ==> r[i] == Toward(a, b, i)
    decreases Abs(b - a)
  {
    if a == b then [] else [a] + Steps(Toward(a, b, 1), b)
  }

  /** Cell number `p` of the path from `s` to `e`, written in closed form. */
  function Waypoint(s: Cell, e: Cell, p: nat): Cell
  {
    var dx, dy := Abs(e.x - s.x), Abs(e.y - s.y);
    if p <= dx then Point(Toward(s.x, e.x, p), s.y, s.z)
    else if p <= dx + dy then Point(e.x, Toward(s.y, e.y, p - dx), s.z)
    else Point(e.x, e.y, Toward(s.z, e.z, p - dx - dy))
  }

  function PathLength(s: Cell, e: Cell): nat
  {
    Abs(e.x - s.x) + Abs(e.y - s.y) + Abs(e.z - s.z) + 1
  }

  /** The moves along x, then y, then z, then the end cell, as the source
      builds them from three `arange` loops. */
  function AxisMoves(s: Cell, e: Cell): (path: seq<Cell>)
    ensures |path| == PathLength(s, e)
  {
    XMoves(s, e) + YMoves(s, e) + ZMoves(s, e) + [e]
  }

  /** The first loop: the x values from `s.x` towards `e.x`, at `s`'s y and z. */
  function XMoves(s: Cell, e: Cell): (moves: seq<Cell>)
    ensures |moves| == Abs(e.x - s.x)
    ensures forall i :: 0 <= i < |moves| ==> moves[i] == Point(Toward(s.x, e.x, i), s.y, s.z)
  {
    var xs := Steps(s.x, e.x);
    seq(|xs|, i requires 0 <= i < |xs| => Point(xs[i], s.y, s.z))
  }

  /** The second loop: the y values from `s.y` towards `e.y`, at `e.x` and `s.z`. */
  function YMoves(s: Cell, e: Cell): (moves: seq<Cell>)
    ensures |moves| == Abs(e.y - s.y)
    ensures forall i :: 0 <= i < |moves| ==> moves[i] == Point(e.x, Toward(s.y, e.y, i), s.z)
  {
    var ys := Steps(s.y, e.y);
    seq(|ys|, i requires 0 <= i < |ys| => Point(e.x, ys[i], s.z))
  }

  /** The third loop: the z values from `s.z` towards `e.z`, at `e.x` and `e.y`. */
  function ZMoves(s: Cell, e: Cell): (moves: seq<Cell>)
    ensures |moves| == Abs(e.z - s.z)
    ensures forall i :: 0 <= i < |moves| ==> moves[i] == Point(e.x, e.y, Toward(s.z, e.z, i))
  {
    var zs := Steps(s.z, e.z);
    seq(|zs|, i requires 0 <= i < |zs| => Point(e.x, e.y, zs[i]))
  }

  lemma {:induction false} AxisMovesAt(s: Cell, e: Cell, p: nat)
    requires p < PathLength(s, e)
    ensures AxisMoves(s, e)[p] == Waypoint(s, e, p)
  {
    var xm, ym, zm := XMoves(s, e), YMoves(s, e), ZMoves(s, e);
    var dx, dy, dz := |xm|, |ym|, |zm|;
    var path := AxisMoves(s, e);
    if p < dx {
      assert path[p] == xm[p];
    } else if p < dx + dy {
      assert path[p] == ym[p - dx];
      TowardEnd(s.x, e.x);
    } else if p < dx + dy + dz {
      assert path[p] == zm[p - dx - dy];
      TowardEnd(s.y, e.y);
    } else {
      assert path[p] == e;
      TowardEnd(s.z, e.z);
    }
  }

  /** `calc_manhattan_path` on cells. */
  function CalcManhattanPath(s: Cell, e: Cell): (path: seq<Cell>)
    ensures |path| == PathLength(s, e)
    ensures path[0] == s && path[|path| - 1] == e
    ensures forall p :: 0 <= p < |path| ==> path[p] == Waypoint(s, e, p)
  {
    var path := AxisMoves(s, e);
    assert forall p :: 0 <= p < |path| ==> path[p] == Waypoint(s, e, p) by {
      forall p | 0 <= p < |path|
        ensures path[p] == Waypoint(s, e, p)
      {
        AxisMovesAt(s, e, p);
      }
    }
    path
  }

  /** Two cells one unit apart along exactly one axis. */
  predicate UnitStep(a: Cell, b: Cell)
  {
    || (Abs(a.x - b.x) == 1 && a.y == b.y && a.z == b.z)
    || (a.x == b.x && Abs(a.y - b.y) == 1 && a.z == b.z)
    || (a.x == b.x && a.y == b.y && Abs(a.z - b.z) == 1)
  }

  /** Consecutive cells are neighbours, and the moves come axis by axis:
      the first |dx| steps move along x, the next |dy| along y, the rest
      along z. */
  lemma {:induction false} ManhattanPathSteps(s: Cell, e: Cell, p: nat)
    requires p + 1 < PathLength(s, e)
    ensures var path := CalcManhattanPath(s, e);
      && UnitStep(path[p], path[p + 1])
      && (p < Abs(e.x - s.x) ==> path[p + 1].x == Toward(path[p].x, e.x, 1))
      && (Abs(e.x - s.x) <= p < Abs(e.x - s.x) + Abs(e.y - s.y) ==>
            path[p + 1].y == Toward(path[p].y, e.y, 1))
      && (Abs(e.x - s.x) + Abs(e.y - s.y) <= p ==> path[p + 1].z == Toward(path[p].z, e.z, 1))
  {
    var path := CalcManhattanPath(s, e);
    assert path[p] == Waypoint(s, e, p) && path[p + 1] == Waypoint(s, e, p + 1);
    WaypointStep(s, e, p);
  }

  lemma {:induction false} WaypointStep(s: Cell, e: Cell, p: nat)
    requires p + 1 < PathLength(s, e)
    ensures var a, b := Waypoint(s, e, p), Waypoint(s, e, p + 1);
      && UnitStep(a, b)
      && (p < Abs(e.x - s.x) ==> b.x == Toward(a.x, e.x, 1))
      && (Abs(e.x - s.x) <= p < Abs(e.x - s.x) + Abs(e.y - s.y) ==> b.y == Toward(a.y, e.y, 1))
      && (Abs(e.x - s.x) + Abs(e.y - s.y) <= p ==> b.z == Toward(a.z, e.z, 1))
  {
    var dx, dy := Abs(e.x - s.x), Abs(e.y - s.y);
    if p < dx {
      TowardStep(s.x, e.x, p);
    } else if p < dx + dy {
      TowardStep(s.y, e.y, p - dx);
    } else {
      TowardStep(s.z, e.z, p - dx - dy);
    }
  }

  /** One more step towards `b` from the `i`-th value, short of `b`. */
  lemma {:induction false} TowardStep(a: int, b: int, i: nat)
    requires i < Abs(b - a)
    ensures Toward(Toward(a, b, i), b, 1) == Toward(a, b, i + 1)
  {
  }

  /** All the steps towards `b` end at `b`. */
  lemma {:induction false} TowardEnd(a: int, b: int)
    ensures Toward(a, b, Abs(b - a)) == b
  {
  }

  /** Every step brings the path one unit closer to the end cell and one
      unit further from the start cell, so no coordinate ever backtracks
      and the path is a shortest one. */
  lemma {:induction false} ManhattanPathDistances(s: Cell, e: Cell, p: nat)
    requires p < PathLength(s, e)
    ensures var path := CalcManhattanPath(s, e);
      && Manhattan(s, path[p]) == p
      && Manhattan(path[p], e) == |path| - 1 - p
  {
    WaypointDistances(s, e, p);
  }

  lemma {:induction false} WaypointDistances(s: Cell, e: Cell, p: nat)
    requires p < PathLength(s, e)
    ensures Manhattan(s, Waypoint(s, e, p)) == p
    ensures Manhattan(Waypoint(s, e, p), e) == PathLength(s, e) - 1 - p
  {
    var dx, dy := Abs(e.x - s.x), Abs(e.y - s.y);
    if p <= dx {
      XPhaseDistances(s, e, p);
    } else if p <= dx + dy {
      YPhaseDistances(s, e, p);
    } else {
      ZPhaseDistances(s, e, p);
    }
  }

  lemma {:induction false} XPhaseDistances(s: Cell, e: Cell, p: nat)
    requires p <= Abs(e.x - s.x)
    ensures Manhattan(s, Waypoint(s, e, p)) == p
    ensures Manhattan(Waypoint(s, e, p), e) == PathLength(s, e) - 1 - p
  {
    PhaseDistances(s.x, e.x, p, Abs(s.y - e.y) + Abs(s.z - e.z));
    PhaseDistances(s.y, e.y, 0, 0);
    PhaseDistances(s.z, e.z, 0, 0);
  }

  lemma {:induction false} YPhaseDistances(s: Cell, e: Cell, p: nat)
    requires Abs(e.x - s.x) < p <= Abs(e.x - s.x) + Abs(e.y - s.y)
    ensures Manhattan(s, Waypoint(s, e, p)) == p
    ensures Manhattan(Waypoint(s, e, p), e) == PathLength(s, e) - 1 - p
  {
    var dx := Abs(e.x - s.x);
    PhaseDistances(s.y, e.y, p - dx, Abs(s.z - e.z));
    PhaseDistances(s.x, e.x, dx, 0);
    PhaseDistances(s.z, e.z, 0, 0);
  }

  lemma {:induction false} ZPhaseDistances(s: Cell, e: Cell, p: nat)
    requires Abs(e.x - s.x) + Abs(e.y - s.y) < p < PathLength(s, e)
    ensures Manhattan(s, Waypoint(s, e, p)) == p
    ensures Manhattan(Waypoint(s, e, p), e) == PathLength(s, e) - 1 - p
  {
    var dx, dy := Abs(e.x - s.x), Abs(e.y - s.y);
    PhaseDistances(s.z, e.z, p - dx - dy, 0);
    PhaseDistances(s.x, e.x, dx, 0);
    PhaseDistances(s.y, e.y, dy, 0);
  }

  /** `i` steps into one axis's moves, with `rest` still to go on the later
      axes: the distances to where the axis started and to the end. */
  lemma {:induction false} PhaseDistances(a: int, b: int, i: nat, rest: nat)
    requires i <= Abs(b - a)
    ensures Abs(a - Toward(a, b, i)) == i
    ensures Abs(Toward(a, b, i) - b) + rest == Abs(b - a) + rest - i
    ensures Abs(a - b) == Abs(b - a)
  {
    TowardDistances(a, b, i);
  }

  lemma {:induction false} TowardDistances(a: int, b: int, i: nat)
    requires i <= Abs(b - a)
    ensures Abs(a - Toward(a, b, i)) == i
    ensures Abs(Toward(a, b, i) - b) == Abs(b - a) - i
  {
  }

  /** Along the path each coordinate moves monotonically towards its target
      value. */
  lemma {:induction false} ManhattanPathMonotone(s: Cell, e: Cell, p: nat, q: nat)
    requires p <= q < PathLength(s, e)
    ensures var path := CalcManhattanPath(s, e);
      && Abs(path[q].x - e.x) <= Abs(path[p].x - e.x)
      && Abs(path[q].y - e.y) <= Abs(path[p].y - e.y)
      && Abs(path[q].z - e.z) <= Abs(path[p].z - e.z)
  {
    var path := CalcManhattanPath(s, e);
    assert path[p] == Waypoint(s, e, p) && path[q] == Waypoint(s, e, q);
    WaypointMonotone(s, e, p, q);
  }

  lemma {:induction false} WaypointMonotone(s: Cell, e: Cell, p: nat, q: nat)
    requires p <= q < PathLength(s, e)
    ensures var a, b := Waypoint(s, e, p), Waypoint(s, e, q);
      && Abs(b.x - e.x) <= Abs(a.x - e.x)
      && Abs(b.y - e.y) <= Abs(a.y - e.y)
      && Abs(b.z - e.z) <= Abs(a.z - e.z)
  {
    WaypointCloserX(s, e, p, q);
    WaypointCloserY(s, e, p, q);
    WaypointCloserZ(s, e, p, q);
  }

  /** Each coordinate of a later waypoint is no farther from the end. */
  lemma {:induction false} WaypointCloserX(s: Cell, e: Cell, p: nat, q: nat)
    requires p <= q < PathLength(s, e)
    ensures Abs(Waypoint(s, e, q).x - e.x) <= Abs(Waypoint(s, e, p).x - e.x)
  {
    WaypointCoord(s, e, p, 0);
    WaypointCoord(s, e, q, 0);
    AxisCloser(s.x, e.x, p, q, Waypoint(s, e, p).x, Waypoint(s, e, q).x);
  }

  lemma {:induction false} WaypointCloserY(s: Cell, e: Cell, p: nat, q: nat)
    requires p <= q < PathLength(s, e)
    ensures Abs(Waypoint(s, e, q).y - e.y) <= Abs(Waypoint(s, e, p).y - e.y)
  {
    var dx := Abs(e.x - s.x);
    WaypointCoord(s, e, p, 1);
    WaypointCoord(s, e, q, 1);
    AxisCloser(s.y, e.y, p - dx, q - dx, Waypoint(s, e, p).y, Waypoint(s, e, q).y);
  }

  lemma {:induction false} WaypointCloserZ(s: Cell, e: Cell, p: nat, q: nat)
    requires p <= q < PathLength(s, e)
    ensures Abs(Waypoint(s, e, q).z - e.z) <= Abs(Waypoint(s, e, p).z - e.z)
  {
    var dx, dy := Abs(e.x - s.x), Abs(e.y - s.y);
    WaypointCoord(s, e, p, 2);
    WaypointCoord(s, e, q, 2);
    AxisCloser(s.z, e.z, p - dx - dy, q - dx - dy, Waypoint(s, e, p).z, Waypoint(s, e, q).z);
  }

  /** On one axis, the coordinate after more steps is no farther from the
      end. */
  lemma {:induction false} AxisCloser(from: int, to: int, v: int, w: int, ca: int, cb: int)
    requires v <= w
    requires ca == Toward(from, to, Clamp(v, Abs(to - from)))
    requires cb == Toward(from, to, Clamp(w, Abs(to - from)))
    ensures Abs(cb - to) <= Abs(ca - to)
  {
    ClampMonotone(v, w, Abs(to - from));
    TowardCloser(from, to, Clamp(v, Abs(to - from)), Clamp(w, Abs(to - from)));
  }

  /** `v` cut to the range `0..hi`. */
  function Clamp(v: int, hi: nat): (c: nat)
    ensures c <= hi
    ensures 0 <= v <= hi ==> c == v
  {
    if v < 0 then 0 else if v > hi then hi else v
  }

  lemma {:induction false} ClampMonotone(v: int, w: int, hi: nat)
    requires v <= w
    ensures Clamp(v, hi) <= Clamp(w, hi)
  {
  }

  /** Each coordinate of a waypoint is the value reached after the steps
      taken along its axis so far. */
  lemma {:induction false} WaypointCoord(s: Cell, e: Cell, p: nat, axis: nat)
    requires p < PathLength(s, e)
    ensures var w, dx, dy := Waypoint(s, e, p), Abs(e.x - s.x), Abs(e.y - s.y);
      && (axis == 0 ==> w.x == Toward(s.x, e.x, Clamp(p, dx)))
      && (axis == 1 ==> w.y == Toward(s.y, e.y, Clamp(p - dx, dy)))
      && (axis == 2 ==> w.z == Toward(s.z, e.z, Clamp(p - dx - dy, Abs(e.z - s.z))))
  {
    if axis == 0 {
      TowardEnd(s.x, e.x);
    } else if axis == 1 {
      TowardEnd(s.y, e.y);
    }
  }

  /** Further steps towards `b` leave less of the way to go. */
  lemma {:induction false} TowardCloser(a: int, b: int, i: nat, j: nat)
    requires i <= j <= Abs(b - a)
    ensures Abs(Toward(a, b, j) - b) <= Abs(Toward(a, b, i) - b)
  {
    TowardDistances(a, b, i);
    TowardDistances(a, b, j);
  }

  /** From a cell to itself the path is that single cell. */
  lemma {:induction false} ManhattanPathToSelf(c: Cell)
    ensures CalcManhattanPath(c, c) == [c]
  {
  }
}

=== FILE: regions.dfy ===
/** Regions of the task allocator (task_allocation.py:13-18, 97-162): the
    tasks are grouped by a clustering into one region per AMR, and the AMRs
    are then exchanged between regions until no AMR's path to its region
    centre crosses another's.

    The clustering (KMeans) is an input: a label per task and a centroid
    per cluster. Whether two straight paths cross is a parameter too. */
module Regions {
  import opened Common
  import opened Utils
  import opened RobotFleet
  import opened SwapRefine

  /** A region and its regional fleet: the one "AMR" entry and the "Drone"
      entries in insertion order. */
  datatype Region = Region(id: string, center: Point, tasks: seq<Task>, amr: Robot, drones: seq<Robot>)

  /** `intersect(a1, b1, a2, b2)`: whether the segment a1-b1 crosses the
      segment a2-b2. */
  type Crosses = (Point, Point, Point, Point) -> bool

  function TaskLists(regions: seq<Region>): seq<seq<Task>>
  {
    seq(|regions|, i requires 0 <= i < |regions| => regions[i].tasks)
  }

  function DroneLists(regions: seq<Region>): seq<seq<Robot>>
  {
    seq(|regions|, i requires 0 <= i < |regions| => regions[i].drones)
  }

  function Amrs(regions: seq<Region>): seq<Robot>
  {
    seq(|regions|, i requires 0 <= i < |regions| => regions[i].amr)
  }

  function Centers(regions: seq<Region>): seq<Point>
  {
    seq(|regions|, i requires 0 <= i < |regions| => regions[i].center)
  }

  // ---------------------------------------------------------------------
  // create_Regions
  // ---------------------------------------------------------------------

  /** Python's `int()` on a float: the integer part, rounding toward zero. */
  function Trunc(x: real): (n: int)
    ensures x >= 0.0 ==> n as real <= x < n as real + 1.0
    ensures x < 0.0 ==> n as real - 1.0 < x <= n as real
  {
    if x >= 0.0 then x.Floor else -((-x).Floor)
  }

  /** What KMeans hands back for `k` clusters of `n` points: a label in
      `0 .. k-1` per point and an (x, y) centroid per cluster. */
  predicate ValidClustering(labels: seq<int>, centroids: seq<(real, real)>, n: nat, k: nat)
  {
    && |labels| == n
    && |centroids| == k
    && forall j :: 0 <= j < n ==> 0 <= labels[j] < k
  }

  /** The tasks whose label is `i`, in task-list order. */
  function Labelled(tasks: seq<Task>, labels: seq<int>, i: int): seq<Task>
    requires |labels| == |tasks|
  {
    if |tasks| == 0 then []
    else (if labels[0] == i then [tasks[0]] else []) + Labelled(tasks[1..], labels[1..], i)
  }

  /** The tasks whose label lies in `0 .. n-1`, in task-list order. */
  function LabelledBelow(tasks: seq<Task>, labels: seq<int>, n: int): seq<Task>
    requires |labels| == |tasks|
  {
    if |tasks| == 0 then []
    else (if 0 <= labels[0] < n then [tasks[0]] else []) + LabelledBelow(tasks[1..], labels[1..], n)
  }

  /** A region's tasks keep their order from the task list. */
  lemma {:induction false} LabelledIsSubsequence(tasks: seq<Task>, labels: seq<int>, i: int)
    requires |labels| == |tasks|
    ensures IsSubsequence(Labelled(tasks, labels, i), tasks)
  {
    if |tasks| > 0 {
      LabelledIsSubsequence(tasks[1..], labels[1..], i);
      var rest := Labelled(tasks[1..], labels[1..], i);
      if labels[0] == i {
        assert Labelled(tasks, labels, i)[1..] == rest;
      } else {
        assert Labelled(tasks, labels, i) == rest;
        SubsequenceExtend(rest, tasks[1..], tasks[0]);
        assert [tasks[0]] + tasks[1..] == tasks;
      }
    }
  }

  /** A task is in region `i` exactly when some occurrence of it carries
      label `i`. */
  lemma {:induction false} LabelledMembers(tasks: seq<Task>, labels: seq<int>, i: int, t: Task)
    requires |labels| == |tasks|
    ensures t in Labelled(tasks, labels, i) <==> exists k :: 0 <= k < |tasks| && tasks[k] == t && labels[k] == i
  {
    if |tasks| > 0 {
      LabelledMembers(tasks[1..], labels[1..], i, t);
      if exists k :: 1 <= k < |tasks| && tasks[k] == t && labels[k] == i {
        var k :| 1 <= k < |tasks| && tasks[k] == t && labels[k] == i;
        assert tasks[1..][k - 1] == t && labels[1..][k - 1] == i;
      }
      if exists k :: 0 <= k < |tasks| - 1 && tasks[1..][k] == t && labels[1..][k] == i {
        var k :| 0 <= k < |tasks| - 1 && tasks[1..][k] == t && labels[1..][k] == i;
        assert tasks[k + 1] == t && labels[k + 1] == i;
      }
    }
  }

  /** Widening the label range by one adds exactly the tasks of the new
      label. */
  lemma {:induction false} LabelledBelowStep(tasks: seq<Task>, labels: seq<int>, n: nat)
    requires |labels| == |tasks|
    ensures multiset(LabelledBelow(tasks, labels, n + 1))
         == multiset(LabelledBelow(tasks, labels, n)) + multiset(Labelled(tasks, labels, n))
  {
    if |tasks| > 0 {
      LabelledBelowStep(tasks[1..], labels[1..], n);
    }
  }

  /** With every label below `n`, the tasks labelled below `n` are all of
      them. */
  lemma {:induction false} LabelledBelowAll(tasks: seq<Task>, labels: seq<int>, n: nat)
    requires |labels| == |tasks|
    requires forall j :: 0 <= j < |tasks| ==> 0 <= labels[j] < n
    ensures LabelledBelow(tasks, labels, n) == tasks
  {
    if |tasks| > 0 {
      assert forall j :: 0 <= j < |tasks| - 1 ==> labels[1..][j] == labels[j + 1];
      LabelledBelowAll(tasks[1..], labels[1..], n);
      assert tasks == [tasks[0]] + tasks[1..];
    }
  }

  function RegionId(i: nat): string
  {
    "R" + NatToString(i)
  }

  function MakeRegion(tasks: seq<Task>, amrs: seq<Robot>, labels: seq<int>,
                      centroids: seq<(real, real)>, i: nat): Region
    requires ValidClustering(labels, centroids, |tasks|, |amrs|) && i < |amrs|
  {
    var c := centroids[i];
    Region(RegionId(i), Point(Trunc(c.0), Trunc(c.1), 5), Labelled(tasks, labels, i), amrs[i], [])
  }

  /** `create_Regions`: region `i` gets id "R<i>", the truncated centroid
      `i` at height 5, AMR `i`, no drones yet, and the tasks labelled `i`.
      KMeans rejects zero clusters and more clusters than tasks
      (ValueError); otherwise its labelling is taken as given. */
  function CreateRegions(tasks: seq<Task>, amrs: seq<Robot>, labels: seq<int>,
                         centroids: seq<(real, real)>): (r: Result<seq<Region>>)
    requires 1 <= |amrs| <= |tasks| ==> ValidClustering(labels, centroids, |tasks|, |amrs|)
    ensures r.Ok? <==> 1 <= |amrs| <= |tasks|
    ensures r.Err? ==> r.error == ValueError
    ensures r.Ok? ==> |r.value| == |amrs| && Amrs(r.value) == amrs
    ensures r.Ok? ==> forall i :: 0 <= i < |amrs| ==>
              && r.value[i].id == "R" + NatToString(i)
              && r.value[i].drones == []
              && r.value[i].center == Point(Trunc(centroids[i].0), Trunc(centroids[i].1), 5)
              && r.value[i].tasks == Labelled(tasks, labels, i)
  {
    if |amrs| == 0 || |tasks| < |amrs| then Err(ValueError)
    else
      var regions := seq(|amrs|, i requires 0 <= i < |amrs| => MakeRegion(tasks, amrs, labels, centroids, i));
      assert Amrs(regions) == amrs;
      Ok(regions)
  }

  /** The regions partition the task list: every task lands in exactly one
      region (as many times as it occurs), in task-list order, and the
      region ids are distinct. */
  lemma {:induction false} CreateRegionsPartitions(tasks: seq<Task>, amrs: seq<Robot>, labels: seq<int>,
                                centroids: seq<(real, real)>)
    requires 1 <= |amrs| <= |tasks| && ValidClustering(labels, centroids, |tasks|, |amrs|)
    ensures var regions := CreateRegions(tasks, amrs, labels, centroids).value;
      && multiset(Flatten(TaskLists(regions))) == multiset(tasks)
      && (forall i :: 0 <= i < |regions| ==>
            && IsSubsequence(regions[i].tasks, tasks)
            && forall t :: t in regions[i].tasks <==>
                 exists k :: 0 <= k < |tasks| && tasks[k] == t && labels[k] == i)
      && forall i, j :: 0 <= i < j < |regions| ==> regions[i].id != regions[j].id
  {
    var regions := CreateRegions(tasks, amrs, labels, centroids).value;
    LabelledCover(tasks, labels, TaskLists(regions));
    forall i | 0 <= i < |regions|
      ensures IsSubsequence(regions[i].tasks, tasks)
      ensures forall t :: t in regions[i].tasks <==>
                exists k :: 0 <= k < |tasks| && tasks[k] == t && labels[k] == i
    {
      LabelledPart(tasks, labels, i);
    }
    forall i, j | 0 <= i < j < |regions|
      ensures regions[i].id != regions[j].id
    {
      PrefixedNumbersDistinct("R", i, j);
    }
  }

  /** One list per label, each holding the tasks of its label, hold all
      the tasks between them. */
  lemma {:induction false} LabelledCover(tasks: seq<Task>, labels: seq<int>, lists: seq<seq<Task>>)
    requires |labels| == |tasks| && forall j :: 0 <= j < |tasks| ==> 0 <= labels[j] < |lists|
    requires forall i :: 0 <= i < |lists| ==> lists[i] == Labelled(tasks, labels, i)
    ensures multiset(Flatten(lists)) == multiset(tasks)
  {
    PrefixRegionsPartition(tasks, labels, lists, |lists|);
    LabelledBelowAll(tasks, labels, |lists|);
    assert lists[..|lists|] == lists;
  }

  /** The tasks of one label keep their order and are exactly the tasks
      carrying that label. */
  lemma {:induction false} LabelledPart(tasks: seq<Task>, labels: seq<int>, i: int)
    requires |labels| == |tasks|
    ensures IsSubsequence(Labelled(tasks, labels, i), tasks)
    ensures forall t :: t in Labelled(tasks, labels, i) <==>
              exists k :: 0 <= k < |tasks| && tasks[k] == t && labels[k] == i
  {
    LabelledIsSubsequence(tasks, labels, i);
    forall t
      ensures t in Labelled(tasks, labels, i) <==> exists k :: 0 <= k < |tasks| && tasks[k] == t && labels[k] == i
    {
      LabelledMembers(tasks, labels, i, t);
    }
  }

  lemma {:induction false} PrefixRegionsPartition(tasks: seq<Task>, labels: seq<int>, lists: seq<seq<Task>>, n: nat)
    requires |labels| == |tasks| && n <= |lists|
    requires forall i :: 0 <= i < |lists| ==> lists[i] == Labelled(tasks, labels, i)
    ensures multiset(Flatten(lists[..n])) == multiset(LabelledBelow(tasks, labels, n))
  {
    if n == 0 {
      LabelledBelowNone(tasks, labels);
    } else {
      PrefixRegionsPartition(tasks, labels, lists, n - 1);
      FlattenSnoc(lists, n);
      LabelledBelowStep(tasks, labels, n - 1);
    }
  }

  lemma {:induction false} LabelledBelowNone(tasks: seq<Task>, labels: seq<int>)
    requires |labels| == |tasks|
    ensures LabelledBelow(tasks, labels, 0) == []
  {
    if |tasks| > 0 {
      LabelledBelowNone(tasks[1..], labels[1..]);
    }
  }

  // ---------------------------------------------------------------------
  // assign_AMRs2Regions
  // ---------------------------------------------------------------------

  /** The AMR at region `i` and the AMR at region `k` get in each other's
      way when the path from the first AMR to its centre crosses the path
      from the second AMR to its centre. */
  function AmrConflict(crosses: Crosses): (Point, Robot, Point, Robot) -> bool
  {
    (c1: Point, a1: Robot, c2: Point, a2: Robot) => crosses(a1.pos, c1, a2.pos, c2)
  }

  /** `assign_AMRs2Regions`: AMRs are exchanged between regions while their
      paths to the region centres cross. Regions keep their id, centre,
      tasks and drones and still hold one AMR each; the AMRs are a
      rearrangement of the previous ones. When the swapping finishes, the
      last region's AMR path crosses no other. */
  function AssignAmrs(regions: seq<Region>, crosses: Crosses, fuel: nat): (r: Result<seq<Region>>)
    ensures r.Err? ==> r.error == OutOfFuel
    ensures r.Ok? ==> |r.value| == |regions|
    ensures r.Ok? ==> forall i :: 0 <= i < |regions| ==> r.value[i].(amr := regions[i].amr) == regions[i]
    ensures r.Ok? ==> multiset(Amrs(r.value)) == multiset(Amrs(regions))
    ensures r.Ok? && |regions| > 0 ==>
              var last := |regions| - 1;
              forall k :: 0 <= k < |regions| ==>
                !crosses(r.value[last].amr.pos, regions[last].center, r.value[k].amr.pos, regions[k].center)
  {
    var s := Refine(Centers(regions), Amrs(regions), AmrConflict(crosses), fuel);
    if !s.complete then Err(OutOfFuel)
    else
      var out := seq(|regions|, i requires 0 <= i < |regions| => regions[i].(amr := s.xs[i]));
      assert Amrs(out) == s.xs;
      Ok(out)
  }

  /** When no AMR path crosses another, nothing moves. */
  lemma {:induction false} AssignAmrsWithoutCrossings(regions: seq<Region>, crosses: Crosses, fuel: nat)
    requires forall i, k :: 0 <= i < |regions| && 0 <= k < |regions| ==>
               !crosses(regions[i].amr.pos, regions[i].center, regions[k].amr.pos, regions[k].center)
    ensures AssignAmrs(regions, crosses, fuel) == Ok(regions)
  {
    var fixed, xs := Centers(regions), Amrs(regions);
    assert forall i, k :: 0 <= i < |xs| && 0 <= k < |xs| ==>
             !AmrConflict(crosses)(fixed[i], xs[i], fixed[k], xs[k]);
    RefineWithoutCrossings(fixed, xs, AmrConflict(crosses), fuel);
    var out := AssignAmrs(regions, crosses, fuel).value;
    forall i | 0 <= i < |regions|
      ensures out[i] == regions[i]
    {
      assert out[i].amr == xs[i] == regions[i].amr;
    }
    assert out == regions;
  }
}

=== FILE: robot_fleet.dfy ===
/** Robots, their planned timelines, and the fleet registry (robot_fleet.py). */
module RobotFleet {
  import opened Common
  import opened Utils

  /** A planned path: segments of points whose concatenation is the robot's
      position per timestep. A robot starts with the one-point path
      `[[pos]]` and paths are only ever extended, so the concatenation is
      never empty. */
  type Path = p: seq<seq<Point>> | |Flatten(p)| > 0 witness [[Point(0, 0, 0)]]

  datatype Robot = Robot(id: string, pos: Point, taskList: TaskList, path: Path)

  /** `Robot(robot_id, pos)` */
  function NewRobot(id: string, pos: Point): (r: Robot)
    ensures r.id == id && r.pos == pos && r.taskList.tasks == []
    ensures PathLen(r) == 1
    ensures forall t: nat :: LookupPos(r, t) == pos
  {
    assert Flatten([[pos]]) == [pos] + Flatten([[pos]][1..]);
    Robot(id, pos, TaskList([]), [[pos]])
  }

  /** The concatenated path (`list(chain(*self.path))`). */
  function Timeline(r: Robot): (tl: seq<Point>)
    ensures |tl| > 0
  {
    Flatten(r.path)
  }

  /** `path_len`: the number of time steps the path covers. Every robot
      has at least its starting point. */
  function PathLen(r: Robot): (n: nat)
    ensures n > 0
  {
    |Timeline(r)|
  }

  /** `path_len` counts every point of every segment. */
  lemma {:induction false} PathLenIsSegmentTotal(r: Robot)
    ensures PathLen(r) == SumLengths(r.path)
  {
    FlattenLength(r.path);
  }

  /** `lookup_pos`: the point at timestep `t`, or the last point once the
      path has run out ("parked"). Timesteps are natural numbers here;
      Python's negative indexing is not modelled. */
  function LookupPos(r: Robot, t: nat): (p: Point)
    ensures p in Timeline(r)
  {
    var tl := Timeline(r);
    if t >= |tl| then tl[|tl| - 1] else tl[t]
  }

  /** The timeline read segment by segment: point `o` of segment `j` is the
      position at the timestep that follows all earlier segments. */
  lemma {:induction false} LookupPosInSegment(r: Robot, j: nat, o: nat)
    requires j < |r.path| && o < |r.path[j]|
    ensures LookupPos(r, SumLengths(r.path[..j]) + o) == r.path[j][o]
  {
    FlattenIndex(r.path, j, o);
  }

  /** From the last timestep on, the robot stays where its path ends. */
  lemma {:induction false} LookupPosParks(r: Robot, t: nat)
    requires t >= PathLen(r) - 1
    ensures LookupPos(r, t) == LookupPos(r, PathLen(r) - 1) == Timeline(r)[PathLen(r) - 1]
  {
  }

  /** `lookup_pos_and_remaining_path_len` */
  function LookupPosAndRemaining(r: Robot, t: nat): (res: (Point, int))
    ensures res.0 == LookupPos(r, t)
    ensures res.1 == PathLen(r) - t - 1
    ensures res.1 < 0 <==> t >= PathLen(r)
  {
    var tl := Timeline(r);
    if t >= |tl| then (tl[|tl| - 1], |tl| - t - 1) else (tl[t], |tl| - t - 1)
  }

  /** `add_task` as written: the task records the robot as assigned, then
      line 50 looks up `add_task` on the robot's TaskList, which in
      utils.py has no such attribute, so the call raises AttributeError. The task keeps the
      assignment; the robot is not updated. */
  function AddTaskAsWritten(r: Robot, task: Task): (res: (Task, Result<Robot>))
    ensures res.0.assignedRobot == Some(r.id)
    ensures res.0.(assignedRobot := task.assignedRobot) == task
    ensures res.1 == Err(AttributeError)
  {
    (task.(assignedRobot := Some(r.id)), Err(AttributeError))
  }

  /** `add_task` as evidently intended: the task records the robot as
      assigned and is appended to the robot's task list. */
  function AddTask(r: Robot, task: Task): (res: (Robot, Task))
    ensures res.1.assignedRobot == Some(r.id)
    ensures res.1.(assignedRobot := task.assignedRobot) == task
    ensures res.0.taskList.tasks == r.taskList.tasks + [res.1]
    ensures res.0.(taskList := r.taskList) == r
  {
    var given := task.(assignedRobot := Some(r.id));
    (r.(taskList := TaskList(r.taskList.tasks + [given])), given)
  }

  /** Adding tasks one after another leaves them at the end of the task
      list in call order, each recording the robot, and touches nothing
      else. */
  function AddTasks(r: Robot, tasks: seq<Task>): Robot
    decreases |tasks|
  {
    if |tasks| == 0 then r else AddTasks(AddTask(r, tasks[0]).0, tasks[1..])
  }

  lemma {:induction false} AddTasksAppends(r: Robot, tasks: seq<Task>)
    ensures var res := AddTasks(r, tasks);
      && |res.taskList.tasks| == |r.taskList.tasks| + |tasks|
      && res.taskList.tasks[..|r.taskList.tasks|] == r.taskList.tasks
      && (forall i :: 0 <= i < |tasks| ==>
            res.taskList.tasks[|r.taskList.tasks| + i] == tasks[i].(assignedRobot := Some(r.id)))
      && res.(taskList := r.taskList) == r
    decreases |tasks|
  {
    if |tasks| > 0 {
      var next := AddTask(r, tasks[0]).0;
      AddTasksAppends(next, tasks[1..]);
      var res := AddTasks(r, tasks);
      assert res == AddTasks(next, tasks[1..]);
      forall i | 0 <= i < |tasks|
        ensures res.taskList.tasks[|r.taskList.tasks| + i] == tasks[i].(assignedRobot := Some(r.id))
      {
        if i > 0 {
          assert tasks[1..][i - 1] == tasks[i];
        }
      }
    }
  }

  /** `add_paths`: new segments go after the existing ones. */
  function AddPaths(r: Robot, segments: seq<seq<Point>>): (res: Robot)
    ensures res.id == r.id && res.pos == r.pos && res.taskList == r.taskList
    ensures |res.path| == |r.path| + |segments|
    ensures res.path[..|r.path|] == r.path && res.path[|r.path|..] == segments
    ensures PathLen(res) == PathLen(r) + SumLengths(segments)
    ensures forall t: nat :: t < PathLen(r) ==> LookupPos(res, t) == LookupPos(r, t)
  {
    FlattenAppend(r.path, segments);
    FlattenLength(segments);
    var p: Path := r.path + segments;
    assert p[..|r.path|] == r.path && p[|r.path|..] == segments;
    r.(path := p)
  }

  /** `Robot.__lt__`: robots order by path length. */
  predicate RobotLess(a: Robot, b: Robot)
  {
    PathLen(a) < PathLen(b)
  }

  /** `<` on robots is a strict weak order: irreflexive, asymmetric and
      transitive, and two robots are unordered exactly when their paths
      have the same length. */
  lemma {:induction false} RobotLessIsStrictOrder(a: Robot, b: Robot, c: Robot)
    ensures !RobotLess(a, a)
    ensures RobotLess(a, b) ==> !RobotLess(b, a)
    ensures RobotLess(a, b) && RobotLess(b, c) ==> RobotLess(a, c)
    ensures !RobotLess(a, b) && !RobotLess(b, a) <==> PathLen(a) == PathLen(b)
    ensures !RobotLess(a, b) && !RobotLess(b, c) ==> !RobotLess(a, c)
  {
  }

  /** Adding path segments never makes a robot less than it was, and makes
      the old robot less exactly when the segments hold some cell. */
  lemma {:induction false} RobotLessAddPaths(r: Robot, segments: seq<seq<Point>>)
    ensures !RobotLess(AddPaths(r, segments), r)
    ensures RobotLess(r, AddPaths(r, segments)) <==> SumLengths(segments) > 0
  {
  }

  /** A robot with the selection's longest path is a greatest element for
      `<`: no selected robot is greater. */
  lemma {:induction false} LongestIsGreatest(robots: seq<Robot>)
    requires |robots| > 0
    ensures exists b :: b in robots && PathLen(b) == MaxPathLen(robots) && forall c :: c in robots ==> !RobotLess(b, c)
  {
    var i :| 0 <= i < |robots| && PathLen(robots[i]) == MaxPathLen(robots);
    assert robots[i] in robots;
  }

  // ---------------------------------------------------------------------
  // Fleet
  // ---------------------------------------------------------------------

  datatype Kind = Drone | AMR

  /** The `robot_type` argument: "All" or one key of the fleet. */
  datatype Selector = All | Only(kind: Kind)

  /** One entry of the fleet dictionary: a robot type and its robots in
      insertion order. */
  datatype Group = Group(kind: Kind, robots: seq<Robot>)

  /** The fleet dictionary, entries in insertion order. */
  datatype Fleet = Fleet(groups: seq<Group>)

  /** Dictionary keys are distinct. */
  predicate WellFormed(f: Fleet)
  {
    forall i, j :: 0 <= i < j < |f.groups| ==> f.groups[i].kind != f.groups[j].kind
  }

  function GroupIndex(groups: seq<Group>, k: Kind): (r: Option<nat>)
    ensures r.None? <==> forall j :: 0 <= j < |groups| ==> groups[j].kind != k
    ensures r.Some? ==> r.value < |groups| && groups[r.value].kind == k
  {
    if |groups| == 0 then None
    else if groups[0].kind == k then Some(0)
    else match GroupIndex(groups[1..], k)
      case None => None
      case Some(i) => Some(i + 1)
  }

  function GroupLists(f: Fleet): seq<seq<Robot>>
  {
    seq(|f.groups|, i requires 0 <= i < |f.groups| => f.groups[i].robots)
  }

  /** `get_robots_as_list`: every group's robots, groups in dictionary order,
      for "All"; a single group's robots otherwise, or None (KeyError) when
      the fleet has no such key. */
  function RobotsAsList(f: Fleet, sel: Selector): (r: Option<seq<Robot>>)
    ensures sel.All? ==> r.Some? && |r.value| == SumLengths(GroupLists(f))
    ensures sel.All? ==> forall i :: 0 <= i < |f.groups| ==>
              && Offset(f, i) + |f.groups[i].robots| <= |r.value|
              && r.value[Offset(f, i)..Offset(f, i) + |f.groups[i].robots|] == f.groups[i].robots
    ensures sel.Only? ==> (r.None? <==> forall j :: 0 <= j < |f.groups| ==> f.groups[j].kind != sel.kind)
    ensures sel.Only? && r.Some? ==> exists j :: 0 <= j < |f.groups| && f.groups[j].kind == sel.kind && r.value == f.groups[j].robots
    ensures sel.Only? && WellFormed(f) ==> forall j :: 0 <= j < |f.groups| && f.groups[j].kind == sel.kind ==>
              r == Some(f.groups[j].robots)
  {
    match sel
    case All =>
      FlattenLength(GroupLists(f));
      GroupOffsets(f);
      Some(Flatten(GroupLists(f)))
    case Only(k) =>
      match GroupIndex(f.groups, k)
      case None => None
      case Some(i) => Some(f.groups[i].robots)
  }

  /** Where group `i` starts in the "All" list. */
  function Offset(f: Fleet, i: nat): nat
    requires i <= |f.groups|
  {
    SumLengths(GroupLists(f)[..i])
  }

  lemma {:induction false} GroupOffsets(f: Fleet)
    ensures forall i :: 0 <= i < |f.groups| ==>
              && Offset(f, i) + |f.groups[i].robots| <= |Flatten(GroupLists(f))|
              && Flatten(GroupLists(f))[Offset(f, i)..Offset(f, i) + |f.groups[i].robots|] == f.groups[i].robots
  {
    forall i | 0 <= i < |f.groups|
      ensures Offset(f, i) + |f.groups[i].robots| <= |Flatten(GroupLists(f))|
      ensures Flatten(GroupLists(f))[Offset(f, i)..Offset(f, i) + |f.groups[i].robots|] == f.groups[i].robots
    {
      FlattenSlice(GroupLists(f), i);
    }
  }

  /** Every robot of a selected type is also in the "All" list. */
  lemma {:induction false} OnlyListInAllList(f: Fleet, k: Kind)
    requires RobotsAsList(f, Only(k)).Some?
    ensures multiset(RobotsAsList(f, Only(k)).value) <= multiset(RobotsAsList(f, All).value)
  {
    var i := GroupIndex(f.groups, k).value;
    FlattenMultiset(GroupLists(f), i);
  }

  lemma {:induction false} SelectedRobotsInAll(f: Fleet, sel: Selector)
    requires RobotsAsList(f, sel).Some? && |RobotsAsList(f, sel).value| > 0
    ensures |RobotsAsList(f, All).value| > 0
  {
    if sel.Only? {
      OnlyListInAllList(f, sel.kind);
      var w := RobotsAsList(f, sel).value[0];
      assert w in multiset(RobotsAsList(f, All).value);
    }
  }

  function MaxPathLen(robots: seq<Robot>): (m: nat)
    requires |robots| > 0
    ensures forall i :: 0 <= i < |robots| ==> PathLen(robots[i]) <= m
    ensures exists i :: 0 <= i < |robots| && PathLen(robots[i]) == m
  {
    if |robots| == 1 then PathLen(robots[0])
    else
      var rest := MaxPathLen(robots[1..]);
      assert forall i :: 1 <= i < |robots| ==> robots[i] == robots[1..][i - 1];
      if PathLen(robots[0]) >= rest then PathLen(robots[0]) else rest
  }

  /** `longest_path_len`: the largest path length over the selected robots;
      None when the key is missing or the list is empty (`max` of an empty
      list raises). */
  function LongestPathLen(f: Fleet, sel: Selector): (r: Option<nat>)
    ensures r.Some? <==> RobotsAsList(f, sel).Some? && |RobotsAsList(f, sel).value| > 0
    ensures r.Some? ==> forall b :: b in RobotsAsList(f, sel).value ==> PathLen(b) <= r.value
    ensures r.Some? ==> exists b :: b in RobotsAsList(f, sel).value && PathLen(b) == r.value
  {
    match RobotsAsList(f, sel)
    case None => None
    case Some(list) => if |list| == 0 then None else Some(MaxPathLen(list))
  }

  /** `closest_robots`: every selected robot whose position at `t` is at
      the least Manhattan distance from `point`, in list order. */
  function ClosestRobots(f: Fleet, point: Point, t: nat, sel: Selector): (r: Option<seq<Robot>>)
    ensures r.Some? <==> RobotsAsList(f, sel).Some? && |RobotsAsList(f, sel).value| > 0
    ensures r.Some? ==> |r.value| > 0 && IsSubsequence(r.value, RobotsAsList(f, sel).value)
    ensures r.Some? ==> forall b :: b in r.value <==>
              && b in RobotsAsList(f, sel).value
              && forall c :: c in RobotsAsList(f, sel).value ==>
                   Manhattan(point, LookupPos(b, t)) <= Manhattan(point, LookupPos(c, t))
  {
    match RobotsAsList(f, sel)
    case None => None
    case Some(list) =>
      if |list| == 0 then None
      else Some(MinimaBy(list, b => Manhattan(point, LookupPos(b, t))))
  }

  /** The score `closest_robots_at_end_path` ranks by: distance at time
      `time` plus the steps the robot still has planned after it. */
  function EndPathScore(b: Robot, point: Point, time: nat): int
  {
    var (pos, remaining) := LookupPosAndRemaining(b, time);
    Manhattan(point, pos) + remaining
  }

  /** `closest_robots_at_end_path`: the time is the longest path of the
      selected type, but every robot of the fleet is scored. */
  function ClosestRobotsAtEndPath(f: Fleet, point: Point, sel: Selector): (r: Option<seq<Robot>>)
    ensures r.Some? <==> LongestPathLen(f, sel).Some?
    ensures r.Some? ==> |r.value| > 0 && IsSubsequence(r.value, RobotsAsList(f, All).value)
    ensures r.Some? ==> forall b :: b in r.value <==>
              var time := LongestPathLen(f, sel).value;
              && b in RobotsAsList(f, All).value
              && forall c :: c in RobotsAsList(f, All).value ==>
                   Manhattan(point, LookupPos(b, time)) + PathLen(b) - time - 1 <=
                   Manhattan(point, LookupPos(c, time)) + PathLen(c) - time - 1
  {
    match LongestPathLen(f, sel)
    case None => None
    case Some(time) =>
      var all := RobotsAsList(f, All).value;
      SelectedRobotsInAll(f, sel);
      Some(MinimaBy(all, b => EndPathScore(b, point, time)))
  }

  // ---------------------------------------------------------------------
  // populate_by_composition
  // ---------------------------------------------------------------------

  /** One `[robot_type, count]` line of a fleet composition. */
  datatype Line = Line(name: string, count: int)

  function Count(line: Line): nat
  {
    if line.count > 0 then line.count else 0
  }

  predicate Recognized(line: Line)
  {
    line.name == "Drone" || line.name == "AMR"
  }

  /** Start points consumed by a composition: only "Drone" and "AMR" lines
      create robots. */
  function RobotsNeeded(lines: seq<Line>): nat
  {
    if |lines| == 0 then 0
    else (if Recognized(lines[0]) then Count(lines[0]) else 0) + RobotsNeeded(lines[1..])
  }

  /** `bots` for one line: ids `letter + str(i)`, positions taken from the
      start points in order. */
  function MakeBots(letter: string, n: nat, starts: seq<Point>, from: nat): (bots: seq<Robot>)
    requires from + n <= |starts|
    ensures |bots| == n
    ensures forall i :: 0 <= i < n ==> bots[i] == NewRobot(letter + NatToString(i), starts[from + i])
  {
    seq(n, i requires 0 <= i < n => NewRobot(letter + NatToString(i), starts[from + i]))
  }

  /** `self.robots[kind] = bots`: replaces an existing key in place, or adds
      it at the end. */
  function SetGroup(groups: seq<Group>, k: Kind, bots: seq<Robot>): (r: seq<Group>)
    requires WellFormed(Fleet(groups))
    ensures WellFormed(Fleet(r))
    ensures RobotsAsList(Fleet(r), Only(k)) == Some(bots)
    ensures forall k' :: k' != k ==> RobotsAsList(Fleet(r), Only(k')) == RobotsAsList(Fleet(groups), Only(k'))
  {
    match GroupIndex(groups, k)
    case Some(i) =>
      var r := groups[i := Group(k, bots)];
      GroupIndexSameKinds(groups, r);
      GroupIndexUnique(r, i);
      r
    case None =>
      var r := groups + [Group(k, bots)];
      assert forall j :: 0 <= j < |groups| ==> r[j] == groups[j];
      GroupIndexUnique(r, |groups|);
      GroupIndexOfExtension(groups, Group(k, bots));
      r
  }

  lemma {:induction false} GroupIndexUnique(groups: seq<Group>, i: nat)
    requires WellFormed(Fleet(groups)) && i < |groups|
    ensures GroupIndex(groups, groups[i].kind) == Some(i)
  {
    if i > 0 {
      assert groups[0].kind != groups[i].kind;
      assert groups[1..][i - 1] == groups[i];
      GroupIndexUnique(groups[1..], i - 1);
    }
  }

  lemma {:induction false} GroupIndexSameKinds(a: seq<Group>, b: seq<Group>)
    requires |a| == |b| && forall j :: 0 <= j < |a| ==> a[j].kind == b[j].kind
    ensures forall k :: GroupIndex(a, k) == GroupIndex(b, k)
  {
    if |a| > 0 {
      GroupIndexSameKinds(a[1..], b[1..]);
    }
  }

  lemma {:induction false} GroupIndexOfExtension(groups: seq<Group>, g: Group)
    ensures forall k :: k != g.kind ==> GroupIndex(groups + [g], k) == GroupIndex(groups, k)
  {
    if |groups| > 0 {
      assert (groups + [g])[1..] == groups[1..] + [g];
      GroupIndexOfExtension(groups[1..], g);
    } else {
      assert ([] + [g])[1..] == [];
    }
  }

  function Compose(lines: seq<Line>, starts: seq<Point>, robotNum: nat, groups: seq<Group>): (r: Option<Fleet>)
    requires WellFormed(Fleet(groups)) && robotNum <= |starts|
    ensures r.Some? <==> robotNum + RobotsNeeded(lines) <= |starts|
    ensures r.Some? ==> WellFormed(r.value)
    decreases |lines|
  {
    if |lines| == 0 then Some(Fleet(groups))
    else
      var line := lines[0];
      if Recognized(line) then
        var n := Count(line);
        if robotNum + n > |starts| then None
        else
          var k := if line.name == "Drone" then Drone else AMR;
          var letter := if line.name == "Drone" then "D" else "A";
          Compose(lines[1..], starts, robotNum + n, SetGroup(groups, k, MakeBots(letter, n, starts, robotNum)))
      else
        Compose(lines[1..], starts, robotNum, groups)
  }

  /** `populate_by_composition`: rebuilds the fleet from `[type, count]`
      lines, numbering each type's robots from 0 and handing out start
      points in order; running out of start points raises IndexError,
      reported as None. */
  function PopulateByComposition(lines: seq<Line>, starts: seq<Point>): (r: Option<Fleet>)
    ensures r.Some? <==> RobotsNeeded(lines) <= |starts|
    ensures r.Some? ==> WellFormed(r.value)
  {
    Compose(lines, starts, 0, [])
  }

  /** The usual two-line composition yields drones "D0".. on the first start
      points and AMRs "A0".. on the following ones. */
  lemma {:induction false} DroneAmrComposition(d: nat, a: nat, starts: seq<Point>)
    requires d + a <= |starts|
    ensures var f := PopulateByComposition([Line("Drone", d), Line("AMR", a)], starts);
      && f.Some?
      && RobotsAsList(f.value, Only(Drone)) == Some(MakeBots("D", d, starts, 0))
      && RobotsAsList(f.value, Only(AMR)) == Some(MakeBots("A", a, starts, d))
  {
    var lines := [Line("Drone", d), Line("AMR", a)];
    assert lines[1..] == [Line("AMR", a)];
    assert lines[1..][1..] == [];
    var g1 := SetGroup([], Drone, MakeBots("D", d, starts, 0));
    var g2 := SetGroup(g1, AMR, MakeBots("A", a, starts, d));
    assert PopulateByComposition(lines, starts) == Compose(lines[1..], starts, d, g1);
    assert Compose(lines[1..], starts, d, g1) == Compose([], starts, d + a, g2);
  }
}

=== FILE: swap_refine.dfy ===
/** The crossing-elimination loop shared by the allocator's AMR assignment
    and both sweep optimisations (task_allocation.py:143-162, 255-279,
    333-357): for each position `i`, scan `k` from 0; when the path of `i`
    crosses the path of `k`, swap the items at `i` and `k` and restart the
    scan at `k = 0`.

    Items move; the anchors the paths start from (`fixed`) stay in place.
    Whether two paths cross is a parameter. Nothing bounds the number of
    restarts for an arbitrary crossing test, so each scan carries a fuel
    bound and reports when it ran out instead of finishing. */
module SwapRefine {
  import opened Common

  /** The rearranged items, and whether every scan finished within its
      fuel. */
  datatype Scan<X> = Scan(xs: seq<X>, complete: bool)

  /** The path of position `i` crosses none of the paths at positions
      `0 .. k-1`. */
  predicate ClearUpTo<F, X>(fixed: seq<F>, xs: seq<X>, conflict: (F, X, F, X) -> bool, i: nat, k: nat)
    requires |fixed| == |xs| && i < |xs| && k <= |xs|
  {
    forall j :: 0 <= j < k ==> !conflict(fixed[i], xs[i], fixed[j], xs[j])
  }

  /** The inner `while k < len(...)` loop for position `i`, from `k` on.
      Each restart after a swap spends one unit of fuel. */
  function ScanRow<F, X>(fixed: seq<F>, xs: seq<X>, conflict: (F, X, F, X) -> bool,
                         i: nat, k: nat, fuel: nat): (r: Scan<X>)
    requires |fixed| == |xs| && i < |xs| && k <= |xs|
    requires ClearUpTo(fixed, xs, conflict, i, k)
    ensures |r.xs| == |xs| && multiset(r.xs) == multiset(xs)
    ensures r.complete ==> ClearUpTo(fixed, r.xs, conflict, i, |xs|)
    decreases fuel, |xs| - k
  {
    if k == |xs| then Scan(xs, true)
    else if conflict(fixed[i], xs[i], fixed[k], xs[k]) then
      if fuel == 0 then Scan(xs, false)
      else ScanRow(fixed, Swap(xs, i, k), conflict, i, 0, fuel - 1)
    else ScanRow(fixed, xs, conflict, i, k + 1, fuel)
  }

  /** The outer `for i in range(...)` loop, from position `i` on. */
  function RefineFrom<F, X>(fixed: seq<F>, xs: seq<X>, conflict: (F, X, F, X) -> bool,
                            i: nat, fuel: nat): (r: Scan<X>)
    requires |fixed| == |xs| && i <= |xs|
    ensures |r.xs| == |xs| && multiset(r.xs) == multiset(xs)
    ensures r.complete && i < |xs| ==> ClearUpTo(fixed, r.xs, conflict, |xs| - 1, |xs|)
    decreases |xs| - i
  {
    if i == |xs| then Scan(xs, true)
    else
      var row := ScanRow(fixed, xs, conflict, i, 0, fuel);
      if !row.complete then row
      else RefineFrom(fixed, row.xs, conflict, i + 1, fuel)
  }

  /** The whole loop nest: a rearrangement of the items. When it finishes,
      the path of the last position crosses no other path. */
  function Refine<F, X>(fixed: seq<F>, xs: seq<X>, conflict: (F, X, F, X) -> bool, fuel: nat): (r: Scan<X>)
    requires |fixed| == |xs|
    ensures |r.xs| == |xs| && multiset(r.xs) == multiset(xs)
    ensures r.complete && |xs| > 0 ==> ClearUpTo(fixed, r.xs, conflict, |xs| - 1, |xs|)
  {
    RefineFrom(fixed, xs, conflict, 0, fuel)
  }

  /** When no pair of paths crosses, the loop nest finishes at once and
      moves nothing. */
  lemma {:induction false} RefineWithoutCrossings<F, X>(fixed: seq<F>, xs: seq<X>,
                                                         conflict: (F, X, F, X) -> bool, fuel: nat)
    requires |fixed| == |xs|
    requires forall i, k :: 0 <= i < |xs| && 0 <= k < |xs| ==> !conflict(fixed[i], xs[i], fixed[k], xs[k])
    ensures Refine(fixed, xs, conflict, fuel) == Scan(xs, true)
  {
    RefineFromWithoutCrossings(fixed, xs, conflict, 0, fuel);
  }

  lemma {:induction false} RefineFromWithoutCrossings<F, X>(fixed: seq<F>, xs: seq<X>,
                                                             conflict: (F, X, F, X) -> bool, i: nat, fuel: nat)
    requires |fixed| == |xs| && i <= |xs|
    requires forall i, k :: 0 <= i < |xs| && 0 <= k < |xs| ==> !conflict(fixed[i], xs[i], fixed[k], xs[k])
    ensures RefineFrom(fixed, xs, conflict, i, fuel) == Scan(xs, true)
    decreases |xs| - i
  {
    if i < |xs| {
      ScanRowWithoutCrossings(fixed, xs, conflict, i, 0, fuel);
      assert RefineFrom(fixed, xs, conflict, i, fuel) == RefineFrom(fixed, xs, conflict, i + 1, fuel);
      RefineFromWithoutCrossings(fixed, xs, conflict, i + 1, fuel);
    }
  }

  lemma {:induction false} ScanRowWithoutCrossings<F, X>(fixed: seq<F>, xs: seq<X>,
                                                          conflict: (F, X, F, X) -> bool, i: nat, k: nat, fuel: nat)
    requires |fixed| == |xs| && i < |xs| && k <= |xs|
    requires forall i, k :: 0 <= i < |xs| && 0 <= k < |xs| ==> !conflict(fixed[i], xs[i], fixed[k], xs[k])
    ensures ClearUpTo(fixed, xs, conflict, i, k)
    ensures ScanRow(fixed, xs, conflict, i, k, fuel) == Scan(xs, true)
    decreases |xs| - k
  {
    if k < |xs| {
      ScanRowWithoutCrossings(fixed, xs, conflict, i, k + 1, fuel);
    }
  }
}

=== FILE: sweeps.dfy ===
/** Task assignment by sweeps (task_allocation.py:90-95, 218-367): tasks
    are handed out in batches, one task per agent per batch; the tasks of
    each batch are exchanged between agents while the agents' approach
    paths cross; then every agent receives its task.

    In the regional scheme a task is split at the region centre into a
    drone leg and an AMR leg; in the homogeneous scheme the agent takes the
    whole task. Assignments are recorded as a log of (robot id, task), in
    the order of the source's `add_task` calls. */
module Sweeps {
  import opened Common
  import opened Utils
  import opened RobotFleet
  import opened SwapRefine
  import opened Regions

  /** One `add_task` call: the robot, by id, and the task it receives. */
  datatype Assignment = Assignment(robot: string, task: Task)

  // ---------------------------------------------------------------------
  // split_task_by_point
  // ---------------------------------------------------------------------

  /** `split_task_by_point`: the drone leg runs from the pick point to
      `p`, the AMR leg from `p` to the drop point; both keep the task id
      and start fresh (no robot, not started, not done). */
  function SplitTask(t: Task, p: Point): (legs: (Task, Task))
    ensures legs.0.id == t.id && legs.1.id == t.id
    ensures legs.0.pick == t.pick && legs.1.drop == t.drop
    ensures legs.0.drop == p && legs.1.pick == p
    ensures legs.0.assignedRobot == None && !legs.0.started && !legs.0.done
    ensures legs.1.assignedRobot == None && !legs.1.started && !legs.1.done
  {
    (NewTask(t.id, t.pick, p), NewTask(t.id, p, t.drop))
  }

  /** The two legs meet at the hand-off point and together cover the
      original route: joining them gives back the task as first created. */
  lemma {:induction false} SplitTaskJoins(t: Task, p: Point)
    ensures var (d, a) := SplitTask(t, p);
      && d.drop == a.pick
      && NewTask(d.id, d.pick, a.drop) == NewTask(t.id, t.pick, t.drop)
      && (t.assignedRobot == None && !t.started && !t.done ==> NewTask(d.id, d.pick, a.drop) == t)
  {
  }

  // ---------------------------------------------------------------------
  // Batches
  // ---------------------------------------------------------------------

  /** The batch taken at each sweep: `min(agents, remaining)` tasks from
      the front of the pending list. */
  function Batch(pending: seq<Task>, agents: nat): (b: seq<Task>)
    requires agents > 0
    ensures |b| == Min(agents, |pending|) && b == pending[..|b|]
  {
    pending[..Min(agents, |pending|)]
  }

  /** Whether sweep `sweeps` covers the pending tasks batch by batch: sweep
      `d` is a rearrangement of batch `d`. */
  predicate SweepsOfBatches(sweeps: seq<seq<Task>>, pending: seq<Task>, agents: nat)
    requires agents > 0
  {
    var batches := Chunks(pending, agents);
    && |sweeps| == |batches|
    && forall d :: 0 <= d < |sweeps| ==> multiset(sweeps[d]) == multiset(batches[d]) && |sweeps[d]| == |batches[d]|
  }

  /** Rearranging every batch keeps the tasks: the sweeps together hold
      exactly the pending tasks. */
  lemma {:induction false} SweepsConserve(sweeps: seq<seq<Task>>, pending: seq<Task>, agents: nat)
    requires agents > 0 && SweepsOfBatches(sweeps, pending, agents)
    ensures multiset(Flatten(sweeps)) == multiset(pending)
    decreases |sweeps|
  {
    var batches := Chunks(pending, agents);
    if |sweeps| > 0 {
      var n := Min(agents, |pending|);
      assert batches == [pending[..n]] + Chunks(pending[n..], agents);
      assert SweepsOfBatches(sweeps[1..], pending[n..], agents) by {
        assert Chunks(pending[n..], agents) == batches[1..];
      }
      SweepsConserve(sweeps[1..], pending[n..], agents);
      assert pending == pending[..n] + pending[n..];
    } else {
      assert |Flatten(batches)| == 0;
    }
  }

  // ---------------------------------------------------------------------
  // assign_Tasks2Agents: the sweeps of one region
  // ---------------------------------------------------------------------

  /** Two tasks of a regional sweep get in each other's way when the
      approach path of one agent (from its anchor to its task's pick point)
      crosses the other's. */
  function TaskConflict(crosses: Crosses): (Point, Task, Point, Task) -> bool
  {
    (a1: Point, t1: Task, a2: Point, t2: Task) => crosses(a1, t1.pick, a2, t2.pick)
  }

  /** Where the drones start from at sweep `depth`: their own positions on
      the first sweep, the region centre (the last drop-off) after that. */
  function RegionAnchors(drones: seq<Robot>, center: Point, depth: nat, m: nat): (anchors: seq<Point>)
    requires m <= |drones|
    ensures |anchors| == m
    ensures forall i :: 0 <= i < m ==> anchors[i] == if depth == 0 then drones[i].pos else center
  {
    seq(m, i requires 0 <= i < m => if depth == 0 then drones[i].pos else center)
  }

  /** The `while unclaimed_tasks` loop of one region, from sweep `depth`
      on: each batch is rearranged by the crossing swaps. */
  function RegionSweeps(drones: seq<Robot>, center: Point, pending: seq<Task>, depth: nat,
                        crosses: Crosses, fuel: nat): (r: Result<seq<seq<Task>>>)
    requires |drones| > 0
    ensures r.Err? ==> r.error == OutOfFuel
    ensures r.Ok? ==> SweepsOfBatches(r.value, pending, |drones|)
    decreases |pending|
  {
    if |pending| == 0 then Ok([])
    else
      var batch := Batch(pending, |drones|);
      var s := Refine(RegionAnchors(drones, center, depth, |batch|), batch, TaskConflict(crosses), fuel);
      if !s.complete then Err(OutOfFuel)
      else
        match RegionSweeps(drones, center, pending[|batch|..], depth + 1, crosses, fuel)
        case Err(e) => Err(e)
        case Ok(rest) =>
          SweepsOfBatchesCons(pending, |drones|, s.xs, rest);
          Ok([s.xs] + rest)
  }

  /** A rearrangement of the first batch in front of the sweeps of the
      remaining tasks gives the sweeps of all of them. */
  lemma {:induction false} SweepsOfBatchesCons(pending: seq<Task>, agents: nat, first: seq<Task>, rest: seq<seq<Task>>)
    requires agents > 0 && |pending| > 0
    requires |first| == |Batch(pending, agents)| && multiset(first) == multiset(Batch(pending, agents))
    requires SweepsOfBatches(rest, pending[|Batch(pending, agents)|..], agents)
    ensures SweepsOfBatches([first] + rest, pending, agents)
  {
    var batch := Batch(pending, agents);
    assert Chunks(pending, agents) == [batch] + Chunks(pending[|batch|..], agents);
  }

  /** The `add_task` calls of one sweep: for each position `i`, the drone
      leg to drone `i`, then the AMR leg to the region's AMR. */
  function SweepLog(sweep: seq<Task>, droneIds: seq<string>, amrId: string, center: Point): (log: seq<Assignment>)
    requires |sweep| <= |droneIds|
    ensures |log| == 2 * |sweep|
    ensures forall i :: 0 <= i < |sweep| ==>
              && log[2 * i] == Assignment(droneIds[i], SplitTask(sweep[i], center).0)
              && log[2 * i + 1] == Assignment(amrId, SplitTask(sweep[i], center).1)
    decreases |sweep|
  {
    if |sweep| == 0 then []
    else
      var legs := SplitTask(sweep[0], center);
      var rest := SweepLog(sweep[1..], droneIds[1..], amrId, center);
      assert forall i :: 1 <= i < |sweep| ==> sweep[1..][i - 1] == sweep[i] && droneIds[1..][i - 1] == droneIds[i];
      [Assignment(droneIds[0], legs.0), Assignment(amrId, legs.1)] + rest
  }

  function Ids(robots: seq<Robot>): (ids: seq<string>)
    ensures |ids| == |robots| && forall i :: 0 <= i < |robots| ==> ids[i] == robots[i].id
  {
    seq(|robots|, i requires 0 <= i < |robots| => robots[i].id)
  }

  /** A drone's distance from a centre, the key drones are sorted by. */
  function NearestKey(center: Point): Robot -> int
  {
    (d: Robot) => Manhattan(d.pos, center) as int
  }

  /** A task's negated pick distance from a centre: sorting by it puts
      the farthest task first. */
  function FarthestKey(center: Point): Task -> int
  {
    (t: Task) => 0 - Manhattan(t.pick, center) as int
  }

  /** The drones of a region nearest its centre first. The sort is stable:
      drones at the same distance keep their order. */
  function SortedDrones(reg: Region): (ds: seq<Robot>)
    ensures multiset(ds) == multiset(reg.drones) && |ds| == |reg.drones|
    ensures forall i, j :: 0 <= i < j < |ds| ==> Manhattan(ds[i].pos, reg.center) <= Manhattan(ds[j].pos, reg.center)
    ensures forall v :: WithKey(ds, NearestKey(reg.center), v) == WithKey(reg.drones, NearestKey(reg.center), v)
  {
    var key := NearestKey(reg.center);
    var ds := SortBy(reg.drones, key);
    assert forall i, j :: 0 <= i < j < |ds| ==> key(ds[i]) <= key(ds[j]);
    ds
  }

  /** The tasks of a region farthest from its centre first. The sort is
      stable on the negated distance, as `sorted(..., reverse=True)` keeps
      tasks at the same distance in their order. */
  function SortedTasks(reg: Region): (ts: seq<Task>)
    ensures multiset(ts) == multiset(reg.tasks) && |ts| == |reg.tasks|
    ensures forall i, j :: 0 <= i < j < |ts| ==> Manhattan(ts[i].pick, reg.center) >= Manhattan(ts[j].pick, reg.center)
    ensures forall v :: WithKey(ts, FarthestKey(reg.center), v) == WithKey(reg.tasks, FarthestKey(reg.center), v)
  {
    var key := FarthestKey(reg.center);
    var ts := SortBy(reg.tasks, key);
    assert forall i, j :: 0 <= i < j < |ts| ==> key(ts[i]) <= key(ts[j]);
    ts
  }

  /** What one region's assignment produced: its sweeps in order, and the
      `add_task` calls they made. */
  datatype RegionPlan = RegionPlan(sweeps: seq<seq<Task>>, log: seq<Assignment>)

  /** The `add_task` calls of a region's sweeps, sweep after sweep. */
  function RegionLog(sweeps: seq<seq<Task>>, droneIds: seq<string>, amrId: string, center: Point): seq<Assignment>
    requires forall d :: 0 <= d < |sweeps| ==> |sweeps[d]| <= |droneIds|
  {
    if |sweeps| == 0 then []
    else SweepLog(sweeps[0], droneIds, amrId, center) + RegionLog(sweeps[1..], droneIds, amrId, center)
  }

  /** What a region's plan promises: it sweeps every region task once,
      batch by batch in the sorted order, no sweep larger than the drone
      count, and its log is made of the sweeps' hand-offs to the sorted
      drones and the region's AMR. */
  predicate PlanOf(reg: Region, plan: RegionPlan)
  {
    && multiset(Flatten(plan.sweeps)) == multiset(reg.tasks)
    && (|reg.drones| > 0 ==> SweepsOfBatches(plan.sweeps, SortedTasks(reg), |reg.drones|))
    && (forall d :: 0 <= d < |plan.sweeps| ==> |plan.sweeps[d]| <= |reg.drones|)
    && plan.log == RegionLog(plan.sweeps, Ids(SortedDrones(reg)), reg.amr.id, reg.center)
  }

  /** Assignment for one region. A region with tasks and no drone never
      leaves the loop (every batch is empty). */
  function AssignRegion(reg: Region, crosses: Crosses, fuel: nat): (r: Result<RegionPlan>)
    ensures r.Err? ==> r.error in {Hangs, OutOfFuel}
    ensures r.Err? && r.error == Hangs <==> |reg.tasks| > 0 && |reg.drones| == 0
    ensures r.Ok? ==> PlanOf(reg, r.value)
  {
    if |reg.tasks| == 0 then Ok(RegionPlan([], []))
    else if |reg.drones| == 0 then Err(Hangs)
    else
      var drones := SortedDrones(reg);
      var tasks := SortedTasks(reg);
      match RegionSweeps(drones, reg.center, tasks, 0, crosses, fuel)
      case Err(e) => Err(e)
      case Ok(sweeps) =>
        SweepsConserve(sweeps, tasks, |drones|);
        assert forall d :: 0 <= d < |sweeps| ==> |sweeps[d]| <= |drones| by {
          var batches := Chunks(tasks, |drones|);
          assert forall d :: 0 <= d < |sweeps| ==> |sweeps[d]| == |batches[d]|;
        }
        Ok(RegionPlan(sweeps, RegionLog(sweeps, Ids(drones), reg.amr.id, reg.center)))
  }

  /** Earlier sweeps of a region take tasks at least as far from the
      centre as later sweeps. */
  lemma {:induction false} SweepsFarthestFirst(reg: Region, plan: RegionPlan, d1: nat, d2: nat, a: Task, b: Task)
    requires PlanOf(reg, plan)
    requires d1 < d2 < |plan.sweeps| && a in plan.sweeps[d1] && b in plan.sweeps[d2]
    ensures Manhattan(a.pick, reg.center) >= Manhattan(b.pick, reg.center)
  {
    assert |reg.drones| > 0 by {
      assert |plan.sweeps[d1]| > 0;
    }
    var tasks := SortedTasks(reg);
    var p1, p2 := SweepMembersInOrder(tasks, |reg.drones|, plan.sweeps, d1, d2, a, b);
  }

  /** Members of an earlier and a later sweep, found at their positions in
      the pending tasks. */
  lemma {:induction false} SweepMembersInOrder(pending: seq<Task>, m: nat, sweeps: seq<seq<Task>>, d1: nat, d2: nat, a: Task, b: Task)
    returns (p1: nat, p2: nat)
    requires m > 0 && SweepsOfBatches(sweeps, pending, m)
    requires d1 < d2 < |sweeps| && a in sweeps[d1] && b in sweeps[d2]
    ensures p1 < p2 < |pending| && pending[p1] == a && pending[p2] == b
  {
    var batches := Chunks(pending, m);
    assert a in batches[d1] by {
      assert a in multiset(sweeps[d1]);
    }
    assert b in batches[d2] by {
      assert b in multiset(sweeps[d2]);
    }
    p1, p2 := ChunkMembersInOrder(pending, m, d1, d2, a, b);
  }

  /** Plan `i` is a plan of region `i`, for every region. */
  predicate PlansOf(regions: seq<Region>, plans: seq<RegionPlan>)
    decreases |regions|
  {
    && |plans| == |regions|
    && (|regions| > 0 ==> PlanOf(regions[0], plans[0]) && PlansOf(regions[1..], plans[1..]))
  }

  lemma {:induction false} PlansOfEach(regions: seq<Region>, plans: seq<RegionPlan>, i: nat)
    requires PlansOf(regions, plans) && i < |regions|
    ensures PlanOf(regions[i], plans[i])
    decreases i
  {
    if i > 0 {
      PlansOfEach(regions[1..], plans[1..], i - 1);
    }
  }

  lemma {:induction false} PlansOfCons(regions: seq<Region>, plan: RegionPlan, rest: seq<RegionPlan>)
    requires |regions| > 0 && PlanOf(regions[0], plan) && PlansOf(regions[1..], rest)
    ensures PlansOf(regions, [plan] + rest)
  {
    assert ([plan] + rest)[1..] == rest;
  }

  /** `assign_Tasks2Agents`: the regions in order, each with its own plan. */
  function AssignTasksToAgents(regions: seq<Region>, crosses: Crosses, fuel: nat): (r: Result<seq<RegionPlan>>)
    ensures r.Err? ==> r.error in {Hangs, OutOfFuel}
    ensures r.Err? && r.error == Hangs ==> exists i :: 0 <= i < |regions| && |regions[i].tasks| > 0 && |regions[i].drones| == 0
    ensures r.Ok? ==> PlansOf(regions, r.value)
    decreases |regions|
  {
    if |regions| == 0 then Ok([])
    else
      match AssignRegion(regions[0], crosses, fuel)
      case Err(e) => Err(e)
      case Ok(plan) =>
        match AssignTasksToAgents(regions[1..], crosses, fuel)
        case Err(e) =>
          HangsLater(regions, e);
          Err(e)
        case Ok(rest) =>
          PlansOfStep(regions, crosses, fuel, plan, rest);
          Ok([plan] + rest)
  }

  /** A region without drones further on is a region without drones. */
  lemma {:induction false} HangsLater(regions: seq<Region>, e: Error)
    requires |regions| > 0
    requires e == Hangs ==> exists j :: 0 <= j < |regions[1..]| && |regions[1..][j].tasks| > 0 && |regions[1..][j].drones| == 0
    ensures e == Hangs ==> exists i :: 0 <= i < |regions| && |regions[i].tasks| > 0 && |regions[i].drones| == 0
  {
    if e == Hangs {
      var j :| 0 <= j < |regions[1..]| && |regions[1..][j].tasks| > 0 && |regions[1..][j].drones| == 0;
      assert regions[j + 1] == regions[1..][j];
    }
  }

  /** The first region's plan in front of the plans of the others. */
  lemma {:induction false} PlansOfStep(regions: seq<Region>, crosses: Crosses, fuel: nat, plan: RegionPlan, rest: seq<RegionPlan>)
    requires |regions| > 0 && AssignRegion(regions[0], crosses, fuel) == Ok(plan)
    requires PlansOf(regions[1..], rest)
    ensures PlansOf(regions, [plan] + rest)
  {
    PlansOfCons(regions, plan, rest);
  }

  /** The `add_task` calls of all regions, region after region. */
  function PlansLog(plans: seq<RegionPlan>): seq<Assignment>
  {
    if |plans| == 0 then [] else plans[0].log + PlansLog(plans[1..])
  }

  /** The tasks swept by all regions, region after region. */
  function PlansSwept(plans: seq<RegionPlan>): seq<Task>
  {
    if |plans| == 0 then [] else Flatten(plans[0].sweeps) + PlansSwept(plans[1..])
  }

  /** Every task of every region is swept exactly once. */
  lemma {:induction false} PlansConserve(regions: seq<Region>, plans: seq<RegionPlan>)
    requires PlansOf(regions, plans)
    ensures multiset(PlansSwept(plans)) == multiset(Flatten(TaskLists(regions)))
    decreases |regions|
  {
    if |regions| > 0 {
      PlansConserve(regions[1..], plans[1..]);
      assert TaskLists(regions)[1..] == TaskLists(regions[1..]);
      assert TaskLists(regions)[0] == regions[0].tasks;
    }
  }

  // ---------------------------------------------------------------------
  // Joining the legs back
  // ---------------------------------------------------------------------

  /** A task as first created, whatever it has recorded since. */
  function Fresh(t: Task): Task
  {
    NewTask(t.id, t.pick, t.drop)
  }

  /** Joins each consecutive (drone leg, AMR leg) pair of a log back into
      one task from the drone leg's pick point to the AMR leg's drop
      point. */
  function Rejoin(log: seq<Assignment>): seq<Task>
    decreases |log|
  {
    if |log| < 2 then []
    else [NewTask(log[0].task.id, log[0].task.pick, log[1].task.drop)] + Rejoin(log[2..])
  }

  lemma {:induction false} RejoinAppend(a: seq<Assignment>, b: seq<Assignment>, pairs: nat)
    requires |a| == 2 * pairs
    ensures Rejoin(a + b) == Rejoin(a) + Rejoin(b)
    decreases pairs
  {
    if pairs > 0 {
      assert (a + b)[0] == a[0] && (a + b)[1] == a[1];
      assert (a + b)[2..] == a[2..] + b;
      RejoinAppend(a[2..], b, pairs - 1);
    } else {
      assert a + b == b;
    }
  }

  /** The legs handed out in one sweep join back into the sweep's tasks. */
  lemma {:induction false} RejoinSweepLog(sweep: seq<Task>, droneIds: seq<string>, amrId: string, center: Point)
    requires |sweep| <= |droneIds|
    ensures Rejoin(SweepLog(sweep, droneIds, amrId, center)) == MapSeq(Fresh, sweep)
    decreases |sweep|
  {
    if |sweep| > 0 {
      var log := SweepLog(sweep, droneIds, amrId, center);
      var rest := SweepLog(sweep[1..], droneIds[1..], amrId, center);
      assert log[2..] == rest;
      RejoinSweepLog(sweep[1..], droneIds[1..], amrId, center);
      SplitTaskJoins(sweep[0], center);
    }
  }

  /** The legs handed out in a region join back into the tasks it swept. */
  lemma {:induction false} RejoinRegionLog(sweeps: seq<seq<Task>>, droneIds: seq<string>, amrId: string, center: Point)
    requires forall d :: 0 <= d < |sweeps| ==> |sweeps[d]| <= |droneIds|
    ensures |RegionLog(sweeps, droneIds, amrId, center)| == 2 * |Flatten(sweeps)|
    ensures Rejoin(RegionLog(sweeps, droneIds, amrId, center)) == MapSeq(Fresh, Flatten(sweeps))
    decreases |sweeps|
  {
    if |sweeps| > 0 {
      RejoinRegionLog(sweeps[1..], droneIds, amrId, center);
      RejoinSweepLog(sweeps[0], droneIds, amrId, center);
      RejoinAppend(SweepLog(sweeps[0], droneIds, amrId, center), RegionLog(sweeps[1..], droneIds, amrId, center), |sweeps[0]|);
      MapSeqAppend(Fresh, sweeps[0], Flatten(sweeps[1..]));
    }
  }

  lemma {:induction false} RejoinPlan(reg: Region, plan: RegionPlan)
    requires PlanOf(reg, plan)
    ensures |plan.log| == 2 * |Flatten(plan.sweeps)| && Rejoin(plan.log) == MapSeq(Fresh, Flatten(plan.sweeps))
  {
    RejoinRegionLog(plan.sweeps, Ids(SortedDrones(reg)), reg.amr.id, reg.center);
  }

  /** The legs handed out in all regions join back into the tasks swept. */
  lemma {:induction false} RejoinPlansLog(regions: seq<Region>, plans: seq<RegionPlan>)
    requires PlansOf(regions, plans)
    ensures |PlansLog(plans)| == 2 * |PlansSwept(plans)|
    ensures Rejoin(PlansLog(plans)) == MapSeq(Fresh, PlansSwept(plans))
    decreases |regions|
  {
    if |regions| > 0 {
      var plan := plans[0];
      RejoinPlan(regions[0], plan);
      RejoinPlansLog(regions[1..], plans[1..]);
      RejoinAppend(plan.log, PlansLog(plans[1..]), |Flatten(plan.sweeps)|);
      MapSeqAppend(Fresh, Flatten(plan.sweeps), PlansSwept(plans[1..]));
    }
  }

  // ---------------------------------------------------------------------
  // assign_Tasks2Fleet_homogeneous
  // ---------------------------------------------------------------------

  /** From the second homogeneous sweep on, both approach paths of a pair
      are drawn from the anchor of the first agent of the pair
      (task_allocation.py line 344 reads agent `i`'s last drop-off for
      both); the first sweep compares each agent's own position, as
      `TaskConflict` does. */
  function SharedAnchorConflict(crosses: Crosses): (Point, Task, Point, Task) -> bool
  {
    (a1: Point, t1: Task, a2: Point, t2: Task) => crosses(a1, t1.pick, a1, t2.pick)
  }

  /** Whether every agent in the first `m` has finished `depth` tasks, so
      that `task_list.tasks[depth - 1]` exists. */
  predicate HasDropOff(agents: seq<Robot>, depth: nat, m: nat)
    requires m <= |agents|
  {
    depth == 0 || forall i :: 0 <= i < m ==> |agents[i].taskList.tasks| >= depth
  }

  /** Where the agents start from at sweep `depth`: their positions on the
      first sweep, the drop point of their task number `depth - 1` after
      that. */
  function AgentAnchors(agents: seq<Robot>, depth: nat, m: nat): (anchors: seq<Point>)
    requires m <= |agents| && HasDropOff(agents, depth, m)
    ensures |anchors| == m
  {
    seq(m, i requires 0 <= i < m =>
          if depth == 0 then agents[i].pos else agents[i].taskList.tasks[depth - 1].drop)
  }

  /** The fleet after the sweep's `add_task` calls: agent `i` of the first
      `|sweep|` receives task `i` of the sweep. */
  function GiveTasks(agents: seq<Robot>, sweep: seq<Task>): (out: seq<Robot>)
    requires |sweep| <= |agents|
    ensures |out| == |agents|
  {
    seq(|agents|, i requires 0 <= i < |agents| => if i < |sweep| then AddTask(agents[i], sweep[i]).0 else agents[i])
  }

  /** Agent `i` of the sweep receives task `i`, at the end of its task list
      and recording its id; the agents beyond the sweep are untouched. */
  lemma {:induction false} GiveTasksGives(agents: seq<Robot>, sweep: seq<Task>)
    requires |sweep| <= |agents|
    ensures var out := GiveTasks(agents, sweep);
            && (forall i :: 0 <= i < |sweep| ==>
                  && out[i].id == agents[i].id
                  && out[i].taskList.tasks == agents[i].taskList.tasks + [sweep[i].(assignedRobot := Some(agents[i].id))])
            && (forall i :: |sweep| <= i < |agents| ==> out[i] == agents[i])
  {
  }

  /** One sweep of the homogeneous scheme: the next batch, rearranged by
      the crossing swaps (between the agents' own paths on the first
      sweep, from a shared anchor on later ones). Reading the drop-off of an agent without enough
      tasks is the IndexError the source raises. */
  function HomogeneousSweep(agents: seq<Robot>, pending: seq<Task>, depth: nat,
                            crosses: Crosses, fuel: nat): (r: Result<seq<Task>>)
    requires |agents| > 0
    ensures r.Err? ==> r.error in {IndexError, OutOfFuel}
    ensures r.Err? && r.error == IndexError ==> !HasDropOff(agents, depth, |agents|)
    ensures r.Ok? ==> |r.value| == Min(|agents|, |pending|)
  {
    var batch := Batch(pending, |agents|);
    var m := |batch|;
    if !HasDropOff(agents, depth, m) then Err(IndexError)
    else
      var conflict := if depth == 0 then TaskConflict(crosses) else SharedAnchorConflict(crosses);
      var s := Refine(AgentAnchors(agents, depth, m), batch, conflict, fuel);
      if !s.complete then Err(OutOfFuel) else Ok(s.xs)
  }

  /** A sweep takes the next tasks, only in another order. */
  lemma {:induction false} HomogeneousSweepTasks(agents: seq<Robot>, pending: seq<Task>, depth: nat, crosses: Crosses, fuel: nat)
    requires |agents| > 0
    ensures var r := HomogeneousSweep(agents, pending, depth, crosses, fuel);
            r.Ok? ==> multiset(r.value) == multiset(pending[..|r.value|])
  {
  }

  /** Two paths cross when the first starts left of the second and ends
      right of it: enough of a crossing test for the example below. */
  function XCrosses(): Crosses
  {
    (p1: Point, q1: Point, p2: Point, q2: Point) => p1.x < p2.x && q1.x > q2.x
  }

  /** On the first sweep each agent's path starts at its own position: two
      agents at x = 0 and x = 1 whose tasks are picked at x = 5 and x = 3
      have crossing paths and trade tasks, although paths drawn from the
      first agent's position alone would not cross. */
  lemma {:induction false} FirstSweepUsesOwnPositions()
    ensures var a := NewTask("a", Point(5, 0, 0), Point(5, 0, 0));
            var b := NewTask("b", Point(3, 0, 0), Point(3, 0, 0));
            var agents := [NewRobot("D0", Point(0, 0, 0)), NewRobot("D1", Point(1, 0, 0))];
            && HomogeneousSweep(agents, [a, b], 0, XCrosses(), 1) == Ok([b, a])
            && Refine([Point(0, 0, 0), Point(1, 0, 0)], [a, b], SharedAnchorConflict(XCrosses()), 1) == Scan([a, b], true)
  {
    var a := NewTask("a", Point(5, 0, 0), Point(5, 0, 0));
    var b := NewTask("b", Point(3, 0, 0), Point(3, 0, 0));
    var agents := [NewRobot("D0", Point(0, 0, 0)), NewRobot("D1", Point(1, 0, 0))];
    var anchors := [Point(0, 0, 0), Point(1, 0, 0)];
    assert Batch([a, b], 2) == [a, b];
    assert AgentAnchors(agents, 0, 2) == anchors;
    OwnPositionsTrade(a, b);
    RefineWithoutCrossings(anchors, [a, b], SharedAnchorConflict(XCrosses()), 1);
  }

  /** The crossing swaps of the example, with each agent's own position as
      its anchor: one swap, after which nothing crosses. */
  lemma {:induction false} OwnPositionsTrade(a: Task, b: Task)
    requires a.pick == Point(5, 0, 0) && b.pick == Point(3, 0, 0)
    ensures Refine([Point(0, 0, 0), Point(1, 0, 0)], [a, b], TaskConflict(XCrosses()), 1) == Scan([b, a], true)
  {
    var anchors := [Point(0, 0, 0), Point(1, 0, 0)];
    var own := TaskConflict(XCrosses());
    assert Swap([a, b], 0, 1) == [b, a];
    assert ScanRow(anchors, [a, b], own, 0, 0, 1) == ScanRow(anchors, [b, a], own, 0, 0, 0);
    assert !own(anchors[0], b, anchors[0], b) && !own(anchors[0], b, anchors[1], a);
    assert ScanRow(anchors, [b, a], own, 0, 1, 0) == ScanRow(anchors, [b, a], own, 0, 2, 0);
    assert ScanRow(anchors, [b, a], own, 0, 0, 0) == Scan([b, a], true);
    assert !own(anchors[1], a, anchors[0], b) && !own(anchors[1], a, anchors[1], a);
    assert ScanRow(anchors, [b, a], own, 1, 1, 1) == ScanRow(anchors, [b, a], own, 1, 2, 1);
    assert ScanRow(anchors, [b, a], own, 1, 0, 1) == Scan([b, a], true);
    assert RefineFrom(anchors, [b, a], own, 1, 1) == Scan([b, a], true);
  }

  /** The `while unclaimed_tasks` loop of the homogeneous scheme, from
      sweep `depth` on: the `add_task` calls made, sweep after sweep, one
      per pending task. Its further guarantees are the lemmas below. */
  function HomogeneousSweeps(agents: seq<Robot>, pending: seq<Task>, depth: nat,
                             crosses: Crosses, fuel: nat): (r: Result<seq<Assignment>>)
    ensures r.Ok? ==> |r.value| == |pending|
    ensures r.Err? ==> |pending| > 0
    decreases |pending|
  {
    if |pending| == 0 then Ok([])
    else if |agents| == 0 then Err(Hangs)
    else
      match HomogeneousSweep(agents, pending, depth, crosses, fuel)
      case Err(e) => Err(e)
      case Ok(sweep) =>
        Prepend(Given(agents, sweep),
                HomogeneousSweeps(GiveTasks(agents, sweep), pending[|sweep|..], depth + 1, crosses, fuel))
  }

  /** `given` followed by the log of `r`, or the error of `r`. */
  function Prepend(given: seq<Assignment>, r: Result<seq<Assignment>>): (p: Result<seq<Assignment>>)
    ensures p.Err? <==> r.Err?
    ensures r.Err? ==> p.error == r.error
    ensures r.Ok? ==> |p.value| == |given| + |r.value| && p.value[..|given|] == given && p.value[|given|..] == r.value
  {
    match r
    case Err(e) => Err(e)
    case Ok(rest) => Ok(given + rest)
  }

  /** The `add_task` calls of one homogeneous sweep: task `i` to agent `i`. */
  function Given(agents: seq<Robot>, sweep: seq<Task>): (given: seq<Assignment>)
    requires |sweep| <= |agents|
    ensures |given| == |sweep|
    ensures forall i :: 0 <= i < |sweep| ==> given[i] == Assignment(agents[i].id, sweep[i])
  {
    seq(|sweep|, i requires 0 <= i < |sweep| => Assignment(agents[i].id, sweep[i]))
  }

  /** What one sweep of the loop does: it takes the next `min(n, |pending|)`
      tasks in some order, `next` is the fleet after its `add_task` calls
      and `given` records those calls. */
  predicate SweepStep(agents: seq<Robot>, pending: seq<Task>, sweep: seq<Task>,
                      next: seq<Robot>, given: seq<Assignment>)
  {
    && |agents| > 0 && |sweep| == Min(|agents|, |pending|)
    && multiset(sweep) == multiset(pending[..|sweep|])
    && |next| == |agents|
    && (forall i :: 0 <= i < |agents| ==> next[i].id == agents[i].id)
    && (forall i :: 0 <= i < |sweep| ==> |next[i].taskList.tasks| == |agents[i].taskList.tasks| + 1)
    && |given| == |sweep|
    && (forall i :: 0 <= i < |sweep| ==> given[i] == Assignment(agents[i].id, sweep[i]))
  }

  /** A sweep that succeeds takes at least one task, and the loop
      continues with the fleet it produced and the tasks after it. */
  lemma {:induction false} HomogeneousStep(agents: seq<Robot>, pending: seq<Task>, depth: nat, crosses: Crosses, fuel: nat,
                        sweep: seq<Task>)
    requires |pending| > 0 && |agents| > 0
    requires HomogeneousSweep(agents, pending, depth, crosses, fuel) == Ok(sweep)
    ensures 0 < |sweep| <= |pending| && |sweep| <= |agents|
    ensures HomogeneousSweeps(agents, pending, depth, crosses, fuel)
         == Prepend(Given(agents, sweep),
                    HomogeneousSweeps(GiveTasks(agents, sweep), pending[|sweep|..], depth + 1, crosses, fuel))
  {
  }

  /** A sweep that succeeds is a `SweepStep`. */
  lemma {:induction false} HomogeneousStepFacts(agents: seq<Robot>, pending: seq<Task>, depth: nat, crosses: Crosses, fuel: nat,
                             sweep: seq<Task>)
    requires |agents| > 0
    requires HomogeneousSweep(agents, pending, depth, crosses, fuel) == Ok(sweep)
    ensures SweepStep(agents, pending, sweep, GiveTasks(agents, sweep), Given(agents, sweep))
  {
    HomogeneousSweepTasks(agents, pending, depth, crosses, fuel);
    GiveTasksGives(agents, sweep);
  }

  /** The ways the loop can fail from sweep `depth` on: only with tasks
      left, hanging exactly when there are no agents, and an IndexError means
      some agent lacked the drop-off the sweep reads. */
  predicate SweepsError(e: Error, agents: seq<Robot>, pending: seq<Task>, depth: nat)
  {
    && |pending| > 0 && e in {Hangs, IndexError, OutOfFuel}
    && (e == Hangs <==> |agents| == 0)
    && (e == IndexError ==> !HasDropOff(agents, depth, |agents|))
  }

  /** Every way the loop fails from sweep `depth` on is a `SweepsError`. */
  predicate FailsAsExpected(agents: seq<Robot>, pending: seq<Task>, depth: nat, crosses: Crosses, fuel: nat)
  {
    var r := HomogeneousSweeps(agents, pending, depth, crosses, fuel);
    r.Err? ==> SweepsError(r.error, agents, pending, depth)
  }

  /** How the homogeneous loop fails; when every agent has `depth` tasks
      the drop-off lookup never fails. */
  lemma {:induction false} HomogeneousSweepsErrors(agents: seq<Robot>, pending: seq<Task>, depth: nat,
                                                   crosses: Crosses, fuel: nat)
    ensures FailsAsExpected(agents, pending, depth, crosses, fuel)
    decreases |pending|
  {
    var more, next, rest := HomogeneousErrorsStep(agents, pending, depth, crosses, fuel);
    if more {
      HomogeneousSweepsErrors(next, rest, depth + 1, crosses, fuel);
    }
  }

  /** One turn of the loop: either it stops here, failing as expected or
      not at all, or it goes on with the fleet `next` and the tasks `rest`,
      and fails as expected if it does so from there. */
  lemma {:induction false} HomogeneousErrorsStep(agents: seq<Robot>, pending: seq<Task>, depth: nat, crosses: Crosses, fuel: nat)
    returns (more: bool, next: seq<Robot>, rest: seq<Task>)
    ensures more ==> |rest| < |pending|
    ensures !more ==> FailsAsExpected(agents, pending, depth, crosses, fuel)
    ensures more && FailsAsExpected(next, rest, depth + 1, crosses, fuel) ==>
            FailsAsExpected(agents, pending, depth, crosses, fuel)
  {
    more, next, rest := false, agents, pending;
    if |pending| > 0 && |agents| > 0 {
      var s := HomogeneousSweep(agents, pending, depth, crosses, fuel);
      if s.Ok? {
        var sweep := s.value;
        HomogeneousStep(agents, pending, depth, crosses, fuel, sweep);
        more, next, rest := true, GiveTasks(agents, sweep), pending[|sweep|..];
        var r := HomogeneousSweeps(next, rest, depth + 1, crosses, fuel);
        if r.Err? {
          HomogeneousSweepsFailLater(agents, pending, depth, crosses, fuel, sweep, r.error);
        }
      }
    }
  }

  /** Whatever the loop hands out from sweep `depth` on is a round-robin
      log of the pending tasks. */
  predicate HandsOutRoundRobin(agents: seq<Robot>, pending: seq<Task>, depth: nat, crosses: Crosses, fuel: nat)
  {
    var r := HomogeneousSweeps(agents, pending, depth, crosses, fuel);
    r.Ok? ==> RoundRobin(agents, pending, r.value)
  }

  /** What the homogeneous loop hands out: every pending task exactly once,
      the `k`-th to agent `k mod n`. */
  lemma {:induction false} HomogeneousSweepsRoundRobin(agents: seq<Robot>, pending: seq<Task>, depth: nat,
                                                       crosses: Crosses, fuel: nat)
    ensures HandsOutRoundRobin(agents, pending, depth, crosses, fuel)
    decreases |pending|
  {
    var more, next, rest := HomogeneousRoundRobinStep(agents, pending, depth, crosses, fuel);
    if more {
      HomogeneousSweepsRoundRobin(next, rest, depth + 1, crosses, fuel);
    }
  }

  /** One turn of the loop: either it stops here, handing out nothing more,
      or it goes on with the fleet `next` and the tasks `rest`, and hands
      out round robin if it does so from there. */
  lemma {:induction false} HomogeneousRoundRobinStep(agents: seq<Robot>, pending: seq<Task>, depth: nat, crosses: Crosses,
                                  fuel: nat)
    returns (more: bool, next: seq<Robot>, rest: seq<Task>)
    ensures more ==> |rest| < |pending|
    ensures !more ==> HandsOutRoundRobin(agents, pending, depth, crosses, fuel)
    ensures more && HandsOutRoundRobin(next, rest, depth + 1, crosses, fuel) ==>
            HandsOutRoundRobin(agents, pending, depth, crosses, fuel)
  {
    more, next, rest := false, agents, pending;
    if |pending| > 0 && |agents| > 0 {
      var s := HomogeneousSweep(agents, pending, depth, crosses, fuel);
      if s.Ok? {
        var sweep := s.value;
        HomogeneousStep(agents, pending, depth, crosses, fuel, sweep);
        more, next, rest := true, GiveTasks(agents, sweep), pending[|sweep|..];
        var r := HomogeneousSweeps(next, rest, depth + 1, crosses, fuel);
        if r.Ok? {
          HomogeneousSweepsLogLater(agents, pending, depth, crosses, fuel, sweep, r.value);
        }
      }
    }
  }

  /** `log` hands out every pending task exactly once, the `k`-th to agent
      `k mod n`. */
  predicate RoundRobin(agents: seq<Robot>, pending: seq<Task>, log: seq<Assignment>)
  {
    && |log| == |pending| && (|pending| > 0 ==> |agents| > 0)
    && multiset(TasksOf(log)) == multiset(pending)
    && forall k :: 0 <= k < |log| ==> log[k].robot == agents[k % |agents|].id
  }

  /** A failure in a later sweep is one the loop can fail with from this
      sweep: in particular an IndexError there means the agents lacked a
      drop-off already. */
  lemma {:induction false} HomogeneousSweepsFailLater(agents: seq<Robot>, pending: seq<Task>, depth: nat, crosses: Crosses,
                                   fuel: nat, sweep: seq<Task>, e: Error)
    requires |agents| > 0
    requires HomogeneousSweep(agents, pending, depth, crosses, fuel) == Ok(sweep)
    ensures SweepsError(e, GiveTasks(agents, sweep), pending[|sweep|..], depth + 1) ==>
            SweepsError(e, agents, pending, depth)
  {
    HomogeneousStepFacts(agents, pending, depth, crosses, fuel, sweep);
    if SweepsError(e, GiveTasks(agents, sweep), pending[|sweep|..], depth + 1) {
      StepErrors(agents, GiveTasks(agents, sweep), pending, sweep, Given(agents, sweep), depth, e);
    }
  }

  lemma {:induction false} StepErrors(agents: seq<Robot>, next: seq<Robot>, pending: seq<Task>,
                   sweep: seq<Task>, given: seq<Assignment>, depth: nat, e: Error)
    requires SweepStep(agents, pending, sweep, next, given)
    requires SweepsError(e, next, pending[|sweep|..], depth + 1)
    ensures SweepsError(e, agents, pending, depth)
  {
    if e == IndexError && HasDropOff(agents, depth, |agents|) {
      HomogeneousDropOffs(agents, next, sweep, depth);
    }
  }

  /** A round-robin log of the tasks after a sweep, following that sweep's
      log, is a round-robin log of all of them. */
  lemma {:induction false} HomogeneousSweepsLogLater(agents: seq<Robot>, pending: seq<Task>, depth: nat, crosses: Crosses,
                                  fuel: nat, sweep: seq<Task>, rest: seq<Assignment>)
    requires |agents| > 0
    requires HomogeneousSweep(agents, pending, depth, crosses, fuel) == Ok(sweep)
    ensures RoundRobin(GiveTasks(agents, sweep), pending[|sweep|..], rest) ==>
            RoundRobin(agents, pending, Given(agents, sweep) + rest)
  {
    HomogeneousStepFacts(agents, pending, depth, crosses, fuel, sweep);
    if RoundRobin(GiveTasks(agents, sweep), pending[|sweep|..], rest) {
      HomogeneousLogFacts(agents, GiveTasks(agents, sweep), pending, sweep, Given(agents, sweep), rest);
    }
  }

  /** The tasks of a log, in order. */
  function TasksOf(log: seq<Assignment>): (ts: seq<Task>)
    ensures |ts| == |log| && forall k :: 0 <= k < |log| ==> ts[k] == log[k].task
  {
    seq(|log|, k requires 0 <= k < |log| => log[k].task)
  }

  /** A full sweep gives every agent one more task, so the next sweep finds
      every drop-off it reads. */
  lemma {:induction false} HomogeneousDropOffs(agents: seq<Robot>, next: seq<Robot>, sweep: seq<Task>, depth: nat)
    requires |sweep| <= |agents| && |next| == |agents|
    requires forall i :: 0 <= i < |sweep| ==> |next[i].taskList.tasks| == |agents[i].taskList.tasks| + 1
    requires |sweep| == |agents| && HasDropOff(agents, depth, |agents|)
    ensures HasDropOff(next, depth + 1, |next|)
  {
  }

  /** A sweep's log, then a round-robin log of the tasks after it, is a
      round-robin log of all the pending tasks. */
  lemma {:induction false} HomogeneousLogFacts(agents: seq<Robot>, next: seq<Robot>, pending: seq<Task>, sweep: seq<Task>,
                            given: seq<Assignment>, rest: seq<Assignment>)
    requires SweepStep(agents, pending, sweep, next, given)
    requires RoundRobin(next, pending[|sweep|..], rest)
    ensures RoundRobin(agents, pending, given + rest)
  {
    LogConserves(pending, sweep, given, rest);
    forall k | 0 <= k < |given + rest|
      ensures (given + rest)[k].robot == agents[k % |agents|].id
    {
      RoundRobinAt(agents, next, |pending|, given, rest, k);
    }
  }

  /** A sweep's log followed by the rest of the log carries the pending
      tasks, when each part carries its share. */
  lemma {:induction false} LogConserves(pending: seq<Task>, sweep: seq<Task>, given: seq<Assignment>, rest: seq<Assignment>)
    requires |sweep| <= |pending|
    requires multiset(sweep) == multiset(pending[..|sweep|])
    requires |given| == |sweep| && forall i :: 0 <= i < |sweep| ==> given[i].task == sweep[i]
    requires multiset(TasksOf(rest)) == multiset(pending[|sweep|..])
    ensures multiset(TasksOf(given + rest)) == multiset(pending)
  {
    assert TasksOf(given + rest) == sweep + TasksOf(rest) by {
      assert TasksOf(given) == sweep;
    }
    assert pending == pending[..|sweep|] + pending[|sweep|..];
  }

  /** Entry `k` of the combined log goes to agent `k mod n`. */
  lemma {:induction false} RoundRobinAt(agents: seq<Robot>, next: seq<Robot>, n: nat, given: seq<Assignment>,
                     rest: seq<Assignment>, k: nat)
    requires |agents| > 0 && |given| == Min(|agents|, n) && |rest| == n - |given|
    requires |next| == |agents| && forall i :: 0 <= i < |agents| ==> next[i].id == agents[i].id
    requires forall i :: 0 <= i < |given| ==> given[i].robot == agents[i].id
    requires forall j :: 0 <= j < |rest| ==> rest[j].robot == next[j % |next|].id
    requires k < |given + rest|
    ensures (given + rest)[k].robot == agents[k % |agents|].id
  {
    var m := |given|;
    if k < m {
      SmallMod(k, |agents|);
      assert (given + rest)[k] == given[k];
    } else {
      assert m == |agents| by {
        assert |rest| > 0;
      }
      assert (given + rest)[k] == rest[k - m];
      RoundRobinShift(agents, next, rest, m, k);
    }
  }

  /** The log after a full sweep continues the round from agent 0. */
  lemma {:induction false} RoundRobinShift(agents: seq<Robot>, next: seq<Robot>, rest: seq<Assignment>, m: nat, k: nat)
    requires 0 < m == |agents| == |next| && forall i :: 0 <= i < |agents| ==> next[i].id == agents[i].id
    requires forall k :: 0 <= k < |rest| ==> rest[k].robot == next[k % |next|].id
    requires m <= k < m + |rest|
    ensures rest[k - m].robot == agents[k % m].id
  {
    ShiftMod(k, m);
    assert rest[k - m].robot == next[(k - m) % m].id;
  }

  lemma {:induction false} SmallMod(k: nat, n: nat)
    requires k < n
    ensures k % n == k
  {
  }

  lemma {:induction false} ShiftMod(k: nat, n: nat)
    requires 0 < n <= k
    ensures (k - n) % n == k % n
  {
    var a, b := k / n, (k - n) / n;
    var ra, rb := k % n, (k - n) % n;
    assert k == a * n + ra && k - n == b * n + rb;
    var c := a - 1 - b;
    assert c * n == rb - ra;
  }
}

=== FILE: task_allocation.dfy ===
/** The task allocator (task_allocation.py:26-95): it reads the ground
    agents and the drones of a fleet, and `populate_fleet` hands the tasks
    of its task list to the fleet's robots by one of four schemes, chosen
    by a string key.

    The schemes are modelled as producing the log of `add_task` calls they
    make; the fleet returned is the original fleet with every robot's log
    share appended to its task list. Robots are told apart by id. */
module TaskAllocation {
  import opened Common
  import opened Utils
  import opened RobotFleet
  import opened Regions
  import opened DroneBalance
  import opened Sweeps

  /** The allocator's state after construction: the tasks, the fleet, and
      the AMR and drone lists read from the fleet. */
  datatype Allocator = Allocator(tasks: seq<Task>, fleet: Fleet, ground: seq<Robot>, drones: seq<Robot>)

  predicate HasKind(f: Fleet, k: Kind)
  {
    exists j :: 0 <= j < |f.groups| && f.groups[j].kind == k
  }

  /** `TaskAllocator.__init__`: both robot lists are read with
      `get_robots_as_list`, which raises KeyError for a fleet without an
      "AMR" or a "Drone" entry. */
  function NewAllocator(tasks: seq<Task>, fleet: Fleet): (r: Result<Allocator>)
    ensures r.Ok? <==> HasKind(fleet, AMR) && HasKind(fleet, Drone)
    ensures r.Err? ==> r.error == KeyError
    ensures r.Ok? ==> r.value.tasks == tasks && r.value.fleet == fleet
    ensures r.Ok? && WellFormed(fleet) ==> forall j :: 0 <= j < |fleet.groups| ==>
              && (fleet.groups[j].kind == AMR ==> r.value.ground == fleet.groups[j].robots)
              && (fleet.groups[j].kind == Drone ==> r.value.drones == fleet.groups[j].robots)
  {
    match (RobotsAsList(fleet, Only(AMR)), RobotsAsList(fleet, Only(Drone)))
    case (Some(ground), Some(drones)) => Ok(Allocator(tasks, fleet, ground, drones))
    case _ => Err(KeyError)
  }

  /** The two messages `check_for_input_error` may print. */
  datatype Warning = TooManyGround | UnusedDrones

  /** `check_for_input_error`: warns about more ground agents than tasks
      and about more drones than tasks, in that order, and never reports an
      error (its early return is commented out). */
  function CheckForInputError(a: Allocator): (r: (bool, seq<Warning>))
    ensures !r.0
    ensures TooManyGround in r.1 <==> |a.tasks| < |a.ground|
    ensures UnusedDrones in r.1 <==> |a.tasks| < |a.drones|
    ensures |r.1| <= 2 && (|r.1| == 2 ==> r.1 == [TooManyGround, UnusedDrones])
  {
    var first := if |a.tasks| < |a.ground| then [TooManyGround] else [];
    var second := if |a.tasks| < |a.drones| then [UnusedDrones] else [];
    (false, first + second)
  }

  // ---------------------------------------------------------------------
  // Applying a log of `add_task` calls to the fleet
  // ---------------------------------------------------------------------

  /** The tasks a log hands to robot `id`, in call order. */
  function TasksFor(log: seq<Assignment>, id: string): seq<Task>
    decreases |log|
  {
    if |log| == 0 then []
    else (if log[0].robot == id then [log[0].task] else []) + TasksFor(log[1..], id)
  }

  /** A robot's share of a log holds each task exactly as often as the log
      hands it to that robot. */
  lemma {:induction false} TasksForCounts(log: seq<Assignment>, id: string, t: Task)
    ensures multiset(TasksFor(log, id))[t] == multiset(log)[Assignment(id, t)]
    decreases |log|
  {
    if |log| > 0 {
      TasksForCounts(log[1..], id, t);
      assert log == [log[0]] + log[1..];
    }
  }

  /** One robot after its share of the log: the share is appended to its
      task list in order, each task recording the robot, and nothing else
      about the robot changes. */
  function Receive(r: Robot, log: seq<Assignment>): (res: Robot)
    ensures var share := TasksFor(log, r.id);
      && |res.taskList.tasks| == |r.taskList.tasks| + |share|
      && res.taskList.tasks[..|r.taskList.tasks|] == r.taskList.tasks
      && (forall i :: 0 <= i < |share| ==>
            res.taskList.tasks[|r.taskList.tasks| + i] == share[i].(assignedRobot := Some(r.id)))
      && res.(taskList := r.taskList) == r
  {
    AddTasksAppends(r, TasksFor(log, r.id));
    AddTasks(r, TasksFor(log, r.id))
  }

  /** The fleet after a log of `add_task` calls: the same dictionary of
      robots, each with its share of the log appended in call order, every
      appended task recording the robot. */
  function ApplyLog(f: Fleet, log: seq<Assignment>): (res: Fleet)
    ensures |res.groups| == |f.groups|
    ensures forall g :: 0 <= g < |f.groups| ==>
              res.groups[g].kind == f.groups[g].kind && |res.groups[g].robots| == |f.groups[g].robots|
    ensures forall g, i :: 0 <= g < |f.groups| && 0 <= i < |f.groups[g].robots| ==>
              var (before, after) := (f.groups[g].robots[i], res.groups[g].robots[i]);
              && after.(taskList := before.taskList) == before
              && |after.taskList.tasks| == |before.taskList.tasks| + |TasksFor(log, before.id)|
              && after.taskList.tasks[..|before.taskList.tasks|] == before.taskList.tasks
              && forall k :: 0 <= k < |TasksFor(log, before.id)| ==>
                   after.taskList.tasks[|before.taskList.tasks| + k]
                   == TasksFor(log, before.id)[k].(assignedRobot := Some(before.id))
  {
    Fleet(seq(|f.groups|, g requires 0 <= g < |f.groups| =>
      Group(f.groups[g].kind, seq(|f.groups[g].robots|, i requires 0 <= i < |f.groups[g].robots| =>
        Receive(f.groups[g].robots[i], log)))))
  }

  /** An empty log leaves the fleet as it was. */
  lemma {:induction false} ApplyEmptyLog(f: Fleet)
    ensures ApplyLog(f, []) == f
  {
    var res := ApplyLog(f, []);
    forall g | 0 <= g < |f.groups|
      ensures res.groups[g] == f.groups[g]
    {
      assert res.groups[g].robots == f.groups[g].robots;
    }
  }

  /** The fleet after a log of `add_task` calls, with `add_task` as
      written (robot_fleet.py:48-50) and the `TaskList` of utils.py: the
      first call raises AttributeError, so only an empty log leaves a fleet
      to return. */
  function ApplyLogAsWritten(f: Fleet, log: seq<Assignment>): (res: Result<Fleet>)
    ensures res.Ok? <==> |log| == 0
    ensures res.Ok? ==> res.value == f
    ensures res.Err? ==> res.error == AttributeError
  {
    if |log| == 0 then Ok(f) else Err(AttributeError)
  }

  /** As written, handing out any task fails, while the corrected fleet
      gives the first robot of the log a task more; with nothing handed out
      both leave the fleet as it was. */
  lemma {:induction false} ApplyLogAsWrittenFails(f: Fleet, log: seq<Assignment>)
    ensures |log| == 0 ==> ApplyLogAsWritten(f, log) == Ok(ApplyLog(f, log))
    ensures |log| > 0 ==> ApplyLogAsWritten(f, log) == Err(AttributeError)
    ensures |log| > 0 ==> forall g, i ::
              0 <= g < |f.groups| && 0 <= i < |f.groups[g].robots| && f.groups[g].robots[i].id == log[0].robot ==>
              |ApplyLog(f, log).groups[g].robots[i].taskList.tasks| > |f.groups[g].robots[i].taskList.tasks|
  {
    if |log| == 0 {
      ApplyEmptyLog(f);
    } else {
      forall id | id == log[0].robot
        ensures |TasksFor(log, id)| > 0
      {
      }
    }
  }

  // ---------------------------------------------------------------------
  // The schemes
  // ---------------------------------------------------------------------

  /** The "regional" scheme: regions by clustering, AMRs to regions, drones
      to regions, then the sweeps of every region. The average drones per
      task reads the fleet's own "Drone" entry. Every task is delivered
      exactly once, as a drone leg followed by an AMR leg that join back
      into the task. */
  function Regional(a: Allocator, labels: seq<int>, centroids: seq<(real, real)>,
                    crosses: Crosses, fuel: nat): (r: Result<seq<Assignment>>)
    requires 1 <= |a.ground| <= |a.tasks| ==> ValidClustering(labels, centroids, |a.tasks|, |a.ground|)
    ensures !(1 <= |a.ground| <= |a.tasks|) ==> r == Err(ValueError)
    ensures r.Err? ==> r.error in {ValueError, KeyError, Hangs, ZeroDivision, OutOfFuel}
    ensures r.Ok? ==> |r.value| == 2 * |a.tasks|
    ensures r.Ok? ==> multiset(Rejoin(r.value)) == multiset(MapSeq(Fresh, a.tasks))
  {
    match CreateRegions(a.tasks, a.ground, labels, centroids)
    case Err(e) => Err(e)
    case Ok(created) =>
      match AssignAmrs(created, crosses, fuel)
      case Err(e) => Err(e)
      case Ok(withAmrs) =>
        match RobotsAsList(a.fleet, Only(Drone))
        case None => Err(KeyError)
        case Some(fleetDrones) =>
          match AssignDrones(withAmrs, a.drones, |fleetDrones|, |a.tasks|, fuel)
          case Err(e) => Err(e)
          case Ok(regions) =>
            match AssignTasksToAgents(regions, crosses, fuel)
            case Err(e) => Err(e)
            case Ok(plans) =>
              RegionalDelivers(a.tasks, a.ground, labels, centroids, created, withAmrs, regions, plans);
              Ok(PlansLog(plans))
  }

  /** The regions keep their task lists through AMR and drone assignment,
      so the sweeps cover the task list. */
  lemma {:induction false} RegionalDelivers(tasks: seq<Task>, amrs: seq<Robot>, labels: seq<int>, centroids: seq<(real, real)>,
                         created: seq<Region>, withAmrs: seq<Region>, regions: seq<Region>,
                         plans: seq<RegionPlan>)
    requires 1 <= |amrs| <= |tasks| && ValidClustering(labels, centroids, |tasks|, |amrs|)
    requires CreateRegions(tasks, amrs, labels, centroids) == Ok(created)
    requires |withAmrs| == |created| && forall i :: 0 <= i < |created| ==> withAmrs[i].(amr := created[i].amr) == created[i]
    requires SameButDrones(regions, withAmrs)
    requires PlansOf(regions, plans)
    ensures |PlansLog(plans)| == 2 * |tasks|
    ensures multiset(Rejoin(PlansLog(plans))) == multiset(MapSeq(Fresh, tasks))
  {
    CreateRegionsPartitions(tasks, amrs, labels, centroids);
    KeptTaskLists(created, withAmrs, regions);
    PlansDeliver(tasks, regions, plans);
  }

  /** AMR and drone assignment leave the regions' task lists alone. */
  lemma {:induction false} KeptTaskLists(created: seq<Region>, withAmrs: seq<Region>, regions: seq<Region>)
    requires |withAmrs| == |created| && forall i :: 0 <= i < |created| ==> withAmrs[i].(amr := created[i].amr) == created[i]
    requires SameButDrones(regions, withAmrs)
    ensures TaskLists(regions) == TaskLists(created)
  {
    assert forall i :: 0 <= i < |created| ==> regions[i].tasks == withAmrs[i].tasks == created[i].tasks;
  }

  /** Plans of regions that partition the task list hand every task out
      once, as two legs that join back into it. */
  lemma {:induction false} PlansDeliver(tasks: seq<Task>, regions: seq<Region>, plans: seq<RegionPlan>)
    requires multiset(Flatten(TaskLists(regions))) == multiset(tasks)
    requires PlansOf(regions, plans)
    ensures |PlansLog(plans)| == 2 * |tasks|
    ensures multiset(Rejoin(PlansLog(plans))) == multiset(MapSeq(Fresh, tasks))
  {
    PlansConserve(regions, plans);
    RejoinPlansLog(regions, plans);
    assert |PlansSwept(plans)| == |tasks| by {
      assert |multiset(PlansSwept(plans))| == |multiset(tasks)|;
    }
    MapSeqMultiset(Fresh, PlansSwept(plans), tasks);
  }

  /** `assign_Tasks2Fleet_homogeneous`: the selected robots take the whole
      tasks in turn. Every task is handed out exactly once, the `k`-th to
      robot `k mod n`. The drop-off lookup of later sweeps never fails,
      since a sweep is only followed by another when it gave every robot a
      task. */
  function Homogeneous(a: Allocator, sel: Selector, crosses: Crosses, fuel: nat): (r: Result<seq<Assignment>>)
    ensures r.Err? ==> r.error in {KeyError, Hangs, OutOfFuel}
    ensures r.Err? && r.error == KeyError <==> RobotsAsList(a.fleet, sel).None?
    ensures r.Err? && r.error == Hangs <==> RobotsAsList(a.fleet, sel) == Some([]) && |a.tasks| > 0
    ensures r.Ok? ==> multiset(TasksOf(r.value)) == multiset(a.tasks)
    ensures r.Ok? ==> var agents := RobotsAsList(a.fleet, sel).value;
              && |r.value| == |a.tasks| && (|a.tasks| > 0 ==> |agents| > 0)
              && forall k :: 0 <= k < |r.value| ==> r.value[k].robot == agents[k % |agents|].id
  {
    match RobotsAsList(a.fleet, sel)
    case None => Err(KeyError)
    case Some(agents) =>
      HomogeneousSweepsErrors(agents, a.tasks, 0, crosses, fuel);
      HomogeneousSweepsRoundRobin(agents, a.tasks, 0, crosses, fuel);
      HomogeneousSweeps(agents, a.tasks, 0, crosses, fuel)
  }

  /** The `add_task` calls `populate_fleet` makes for a key; an
      unrecognised key only prints a message. */
  function Assignments(a: Allocator, key: string, labels: seq<int>, centroids: seq<(real, real)>,
                       crosses: Crosses, fuel: nat): (r: Result<seq<Assignment>>)
    requires key == "regional" && 1 <= |a.ground| <= |a.tasks| ==>
               ValidClustering(labels, centroids, |a.tasks|, |a.ground|)
    ensures key !in {"regional", "drones_only", "amrs_only", "treat_as_homogeneous"} ==> r == Ok([])
    ensures key == "regional" && r.Ok? ==> multiset(Rejoin(r.value)) == multiset(MapSeq(Fresh, a.tasks))
    ensures key in {"drones_only", "amrs_only", "treat_as_homogeneous"} && r.Ok? ==>
              multiset(TasksOf(r.value)) == multiset(a.tasks)
  {
    if key == "regional" then Regional(a, labels, centroids, crosses, fuel)
    else if key == "drones_only" then Homogeneous(a, Only(Drone), crosses, fuel)
    else if key == "amrs_only" then Homogeneous(a, Only(AMR), crosses, fuel)
    else if key == "treat_as_homogeneous" then Homogeneous(a, All, crosses, fuel)
    else Ok([])
  }

  /** `populate_fleet`: the fleet with the chosen scheme's tasks added. */
  function PopulateFleet(a: Allocator, key: string, labels: seq<int>, centroids: seq<(real, real)>,
                         crosses: Crosses, fuel: nat): (r: Result<Fleet>)
    requires key == "regional" && 1 <= |a.ground| <= |a.tasks| ==>
               ValidClustering(labels, centroids, |a.tasks|, |a.ground|)
    ensures key !in {"regional", "drones_only", "amrs_only", "treat_as_homogeneous"} ==> r == Ok(a.fleet)
    ensures r.Err? <==> Assignments(a, key, labels, centroids, crosses, fuel).Err?
    ensures r.Ok? ==> |r.value.groups| == |a.fleet.groups| && forall g :: 0 <= g < |a.fleet.groups| ==>
              && r.value.groups[g].kind == a.fleet.groups[g].kind
              && |r.value.groups[g].robots| == |a.fleet.groups[g].robots|
  {
    match Assignments(a, key, labels, centroids, crosses, fuel)
    case Err(e) => Err(e)
    case Ok(log) =>
      if log == [] then ApplyEmptyLog(a.fleet); Ok(ApplyLog(a.fleet, log))
      else Ok(ApplyLog(a.fleet, log))
  }
}

=== FILE: utils.dfy ===
/** Geometry and task records (utils.py): integer points, axis-aligned
    zones with inclusive bounds, tasks and task lists. */
module Utils {
  import opened Common

  /** A position. Coordinates are integers in this model; the source's
      float coordinates and its point-to-cell resolution scaling are not
      modelled, so a grid cell is the same integer triple. */
  datatype Point = Point(x: int, y: int, z: int)

  type Cell = Point

  /** Manhattan distance, the metric every nearest-robot and sweep-ordering
      decision of the allocator uses. */
  function Manhattan(a: Point, b: Point): nat
  {
    Abs(a.x - b.x) + Abs(a.y - b.y) + Abs(a.z - b.z)
  }

  lemma {:induction false} ManhattanSymmetric(a: Point, b: Point)
    ensures Manhattan(a, b) == Manhattan(b, a)
  {
  }

  lemma {:induction false} ManhattanZeroIffEqual(a: Point, b: Point)
    ensures Manhattan(a, b) == 0 <==> a == b
  {
  }

  // ---------------------------------------------------------------------
  // Zone
  // ---------------------------------------------------------------------

  /** An axis-aligned box given by `[lo, hi]` limits per axis. */
  datatype Zone = Zone(xLo: int, xHi: int, yLo: int, yHi: int, zLo: int, zHi: int)

  /** `corners`: the all-low corner, then the all-high corner. */
  function Corners(zone: Zone): (c: seq<Point>)
    ensures |c| == 2
  {
    [Point(zone.xLo, zone.yLo, zone.zLo), Point(zone.xHi, zone.yHi, zone.zHi)]
  }

  /** `is_inside`: both bounds inclusive on every axis. */
  predicate IsInside(zone: Zone, x: int, y: int, z: int)
  {
    && zone.xLo <= x <= zone.xHi
    && zone.yLo <= y <= zone.yHi
    && zone.zLo <= z <= zone.zHi
  }

  function XRange(zone: Zone): int { zone.xHi - zone.xLo }
  function YRange(zone: Zone): int { zone.yHi - zone.yLo }
  function ZRange(zone: Zone): int { zone.zHi - zone.zLo }

  /** A point is inside exactly when it lies componentwise between the two
      corners. */
  lemma {:induction false} InsideIffBetweenCorners(zone: Zone, p: Point)
    ensures IsInside(zone, p.x, p.y, p.z) <==>
      && Corners(zone)[0].x <= p.x <= Corners(zone)[1].x
      && Corners(zone)[0].y <= p.y <= Corners(zone)[1].y
      && Corners(zone)[0].z <= p.z <= Corners(zone)[1].z
  {
  }

  /** A zone contains some point exactly when none of its ranges is
      negative, and then both corners are inside it. */
  lemma {:induction false} NonEmptyIffRangesNonNegative(zone: Zone)
    ensures (exists p: Point :: IsInside(zone, p.x, p.y, p.z)) <==>
              XRange(zone) >= 0 && YRange(zone) >= 0 && ZRange(zone) >= 0
    ensures XRange(zone) >= 0 && YRange(zone) >= 0 && ZRange(zone) >= 0 ==>
              forall c :: c in Corners(zone) ==> IsInside(zone, c.x, c.y, c.z)
  {
    if XRange(zone) >= 0 && YRange(zone) >= 0 && ZRange(zone) >= 0 {
      var lo := Corners(zone)[0];
      assert IsInside(zone, lo.x, lo.y, lo.z);
    }
  }

  // ---------------------------------------------------------------------
  // Task and TaskList
  // ---------------------------------------------------------------------

  /** A pick-and-drop job. The assigned robot is held as the robot's id. */
  datatype Task = Task(id: string, pick: Point, drop: Point,
                       assignedRobot: Option<string>, started: bool, done: bool)

  /** `Task(task_id, pick_point, drop_point)` with the default keyword
      arguments. */
  function NewTask(id: string, pick: Point, drop: Point): (t: Task)
    ensures t.id == id && t.pick == pick && t.drop == drop
    ensures t.assignedRobot == None && !t.started && !t.done
  {
    Task(id, pick, drop, None, false, false)
  }

  datatype TaskList = TaskList(tasks: seq<Task>)

  /** `t` is a fresh task with id `id`, its pick point drawn from `picks`
      and its drop point from `drops`. */
  predicate Drawn(t: Task, id: string, picks: seq<Point>, drops: seq<Point>)
  {
    t == NewTask(id, t.pick, t.drop) && t.pick in picks && t.drop in drops
  }

  /** `populate_randomly`: appends `n` tasks with ids `prefix + str(i)`, each
      with a pick point drawn from `picks` and a drop point drawn from
      `drops`. The random draws are modelled as arbitrary members; drawing
      from an empty list raises IndexError, reported as None. */
  method PopulateRandomly(list: TaskList, picks: seq<Point>, drops: seq<Point>,
                          n: nat, prefix: string)
    returns (r: Option<TaskList>)
    ensures r.None? <==> n > 0 && (|picks| == 0 || |drops| == 0)
    ensures r.Some? ==> |r.value.tasks| == |list.tasks| + n
    ensures r.Some? ==> r.value.tasks[..|list.tasks|] == list.tasks
    ensures r.Some? ==> forall i :: 0 <= i < n ==>
              Drawn(r.value.tasks[|list.tasks| + i], prefix + NatToString(i), picks, drops)
    ensures r.Some? ==> forall i, j :: |list.tasks| <= i < j < |r.value.tasks| ==>
              r.value.tasks[i].id != r.value.tasks[j].id
  {
    if n > 0 && (|picks| == 0 || |drops| == 0) {
      return None;
    }
    var tasks := list.tasks;
    var i := 0;
    while i < n
      invariant 0 <= i <= n
      invariant |tasks| == |list.tasks| + i
      invariant tasks[..|list.tasks|] == list.tasks
      invariant forall j :: 0 <= j < i ==>
                  Drawn(tasks[|list.tasks| + j], prefix + NatToString(j), picks, drops)
    {
      assert picks[0] in picks && drops[0] in drops;
      var pick :| pick in picks;
      var drop :| drop in drops;
      var prev := tasks;
      tasks := tasks + [NewTask(prefix + NatToString(i), pick, drop)];
      assert forall j :: 0 <= j < |prev| ==> tasks[j] == prev[j];
      i := i + 1;
    }
    DrawnIdsDistinct(tasks, |list.tasks|, prefix, picks, drops);
    return Some(TaskList(tasks));
  }

  /** Tasks drawn with ids `prefix + str(0)`, `prefix + str(1)`, ... have
      distinct ids. */
  lemma {:induction false} DrawnIdsDistinct(tasks: seq<Task>, base: nat, prefix: string, picks: seq<Point>, drops: seq<Point>)
    requires base <= |tasks|
    requires forall j :: 0 <= j < |tasks| - base ==> Drawn(tasks[base + j], prefix + NatToString(j), picks, drops)
    ensures forall i, j :: base <= i < j < |tasks| ==> tasks[i].id != tasks[j].id
  {
    forall i, j | base <= i < j < |tasks|
      ensures tasks[i].id != tasks[j].id
    {
      var a, b := i - base, j - base;
      assert tasks[base + a].id == prefix + NatToString(a);
      assert tasks[base + b].id == prefix + NatToString(b);
      PrefixedNumbersDistinct(prefix, a, b);
    }
  }
}

=== FILE: warehouse_map.dfy ===
/** Warehouse geometry (warehouse_map.py): the layout arithmetic of
    `initialize_info`, the shelf grid and boundary zones of
    `generate_zones`, and the occupancy matrix over integer cell zones with
    its `cell_blocked` lookup. Lengths are integers here. */
module WarehouseMap {
  import opened Common
  import opened Utils

  /** The `wh_info` dictionary: bin size and pick distance, shelf size in
      bins, aisle widths, shelf counts, border paddings and the per-border
      drop-point flags. */
  datatype WhInfo = WhInfo(
    binX: int, binY: int, binZ: int, binPickDistance: int,
    shelfBinsX: int, shelfBinsY: int, shelfBinsZ: int,
    aisleX: int, aisleY: int, countX: int, countY: int,
    padTop: int, padDown: int, padLeft: int, padRight: int,
    dropTop: bool, dropDown: bool, dropLeft: bool, dropRight: bool)

  /** The attributes `initialize_info` sets on the map. */
  datatype Layout = Layout(
    binX: int, binY: int, binZ: int, binD: int,
    shelfX: int, shelfY: int, shelfZ: int,
    aisleX: int, aisleY: int, countX: int, countY: int,
    bdrTop: int, bdrDown: int, bdrLeft: int, bdrRight: int,
    dropPointsTop: bool, dropPointsDown: bool, dropPointsLeft: bool, dropPointsRight: bool)

  /** `initialize_info`: a shelf measures its bin count times the bin size
      on every axis, so with a positive bin size it holds a whole number of
      bins; everything else is copied. */
  function InitializeInfo(info: WhInfo): (l: Layout)
    ensures l.shelfX == info.shelfBinsX * info.binX
    ensures l.shelfY == info.shelfBinsY * info.binY
    ensures l.shelfZ == info.shelfBinsZ * info.binZ
    ensures info.binX > 0 ==> l.shelfX % info.binX == 0 && l.shelfX / info.binX == info.shelfBinsX
    ensures info.binY > 0 ==> l.shelfY % info.binY == 0 && l.shelfY / info.binY == info.shelfBinsY
    ensures info.binZ > 0 ==> l.shelfZ % info.binZ == 0 && l.shelfZ / info.binZ == info.shelfBinsZ
    ensures l.binX == info.binX && l.binY == info.binY && l.binZ == info.binZ
    ensures l.binD == info.binPickDistance
    ensures l.aisleX == info.aisleX && l.aisleY == info.aisleY
    ensures l.countX == info.countX && l.countY == info.countY
    ensures l.bdrTop == info.padTop && l.bdrDown == info.padDown
    ensures l.bdrLeft == info.padLeft && l.bdrRight == info.padRight
    ensures l.dropPointsTop == info.dropTop && l.dropPointsDown == info.dropDown
    ensures l.dropPointsLeft == info.dropLeft && l.dropPointsRight == info.dropRight
  {
    WholeBins(info.shelfBinsX, info.binX);
    WholeBins(info.shelfBinsY, info.binY);
    WholeBins(info.shelfBinsZ, info.binZ);
    Layout(info.binX, info.binY, info.binZ, info.binPickDistance,
           info.shelfBinsX * info.binX, info.shelfBinsY * info.binY, info.shelfBinsZ * info.binZ,
           info.aisleX, info.aisleY, info.countX, info.countY,
           info.padTop, info.padDown, info.padLeft, info.padRight,
           info.dropTop, info.dropDown, info.dropLeft, info.dropRight)
  }

  lemma {:induction false} WholeBins(n: int, b: int)
    ensures b > 0 ==> (n * b) % b == 0 && (n * b) / b == n
  {
    if b > 0 {
      LemmaDivMulExact(n, b);
    }
  }

  lemma {:induction false} LemmaDivMulExact(n: int, b: int)
    requires b > 0
    ensures (n * b) % b == 0 && (n * b) / b == n
  {
    var q, r := (n * b) / b, (n * b) % b;
    assert n * b == q * b + r && 0 <= r < b;
    assert (n - q) * b == n * b - q * b;
    if n - q > 0 {
      MulLe(1, n - q, b);
    } else if n - q < 0 {
      MulLe(1, q - n, b);
    }
  }

  // ---------------------------------------------------------------------
  // generate_zones
  // ---------------------------------------------------------------------

  /** The number of iterations of `range(c)`. */
  function RangeLen(c: int): nat
  {
    if c < 0 then 0 else c
  }

  /** `xlim`, `ylim`, `zlim`: the extent of the shelving block. */
  function XLim(l: Layout): int { l.shelfX * l.countX + l.aisleX * (l.countX - 1) }
  function YLim(l: Layout): int { l.shelfY * l.countY + l.aisleY * (l.countY - 1) }
  function ZLim(l: Layout): int { l.shelfZ }

  /** Shelf `(i, j)`: column `i` along x, row `j` along y, one shelf plus
      one aisle apart, offset by the left and top paddings. */
  function ShelfAt(l: Layout, i: int, j: int): Zone
  {
    var x := i * (l.shelfX + l.aisleX) + l.bdrLeft;
    var y := j * (l.shelfY + l.aisleY) + l.bdrTop;
    Zone(x, l.shelfX + x, y, l.shelfY + y, 0, l.shelfZ)
  }

  /** The shelves of the first `n` columns, in the order of the nested
      loops: column by column, and row by row within a column. */
  function ShelfColumns(l: Layout, n: nat): (shelves: seq<Zone>)
    ensures |shelves| == n * RangeLen(l.countY)
  {
    var ny := RangeLen(l.countY);
    if n == 0 then []
    else
      var prev := ShelfColumns(l, n - 1);
      assert (n - 1) * ny + ny == n * ny;
      prev + Column(l, n - 1)
  }

  /** The shelves of column `i`, one per row. */
  function Column(l: Layout, i: int): (column: seq<Zone>)
    ensures |column| == RangeLen(l.countY)
    ensures forall j :: 0 <= j < |column| ==> column[j] == ShelfAt(l, i, j)
  {
    seq(RangeLen(l.countY), j requires 0 <= j < RangeLen(l.countY) => ShelfAt(l, i, j))
  }

  /** The row-major position of cell `(i, j)` in a grid of `ny` rows. */
  function Flat(i: int, j: int, ny: int): int
  {
    i * ny + j
  }

  /** Row-major index arithmetic: cell `(i, j)` of an `n` by `ny` grid sits
      at a valid flat index. */
  lemma {:induction false} GridIndex(i: int, j: int, n: int, ny: int)
    requires 0 <= i < n && 0 <= j < ny
    ensures 0 <= Flat(i, j, ny) < n * ny
  {
    MulLe(i + 1, n, ny);
    assert (i + 1) * ny == i * ny + ny;
  }

  lemma {:induction false} ShelfColumnsAt(l: Layout, n: nat, i: nat, j: nat)
    requires i < n && j < RangeLen(l.countY)
    ensures 0 <= Flat(i, j, RangeLen(l.countY)) < |ShelfColumns(l, n)|
    ensures ShelfColumns(l, n)[Flat(i, j, RangeLen(l.countY))] == ShelfAt(l, i, j)
  {
    var ny := RangeLen(l.countY);
    GridIndex(i, j, n, ny);
    var prev := ShelfColumns(l, n - 1);
    assert ShelfColumns(l, n) == prev + Column(l, n - 1);
    if i < n - 1 {
      ShelfColumnsAt(l, n - 1, i, j);
    } else {
      assert Flat(i, j, ny) == |prev| + j;
    }
  }

  /** The `shelves` list of `generate_zones`: `count_x * count_y` shelves. */
  function Shelves(l: Layout): (shelves: seq<Zone>)
    ensures |shelves| == RangeLen(l.countX) * RangeLen(l.countY)
  {
    ShelfColumns(l, RangeLen(l.countX))
  }

  /** Shelf `(i, j)` of the nested loops sits at index `i * count_y + j`. */
  lemma {:induction false} ShelvesAt(l: Layout, i: nat, j: nat)
    requires i < RangeLen(l.countX) && j < RangeLen(l.countY)
    ensures 0 <= Flat(i, j, RangeLen(l.countY)) < |Shelves(l)|
    ensures Shelves(l)[Flat(i, j, RangeLen(l.countY))] == ShelfAt(l, i, j)
  {
    ShelfColumnsAt(l, RangeLen(l.countX), i, j);
  }

  /** `wh_zone`: the whole floor, the shelving block plus all four
      paddings, from the ground to the shelf height. */
  function WhZone(l: Layout): (zone: Zone)
    ensures Corners(zone)[0] == Point(0, 0, 0)
    ensures XRange(zone) == XLim(l) + l.bdrLeft + l.bdrRight
    ensures YRange(zone) == YLim(l) + l.bdrTop + l.bdrDown
    ensures ZRange(zone) == ZLim(l)
  {
    Zone(0, XLim(l) + l.bdrLeft + l.bdrRight, 0, YLim(l) + l.bdrTop + l.bdrDown, 0, ZLim(l))
  }

  /** `shelf_zone` as the source writes it: its y upper limit is built from
      `xlim` rather than `ylim`. */
  function ShelfZoneAsWritten(l: Layout): Zone
  {
    Zone(l.bdrLeft, XLim(l) + l.bdrLeft, l.bdrTop, XLim(l) + l.bdrTop, 0, ZLim(l))
  }

  /** `shelf_zone` with the evident intent: the shelving block alone, each
      axis shifted by its leading padding. */
  function ShelfZone(l: Layout): (zone: Zone)
    ensures Corners(zone)[0] == Point(l.bdrLeft, l.bdrTop, 0)
    ensures XRange(zone) == XLim(l) && YRange(zone) == YLim(l) && ZRange(zone) == ZLim(l)
  {
    Zone(l.bdrLeft, XLim(l) + l.bdrLeft, l.bdrTop, YLim(l) + l.bdrTop, 0, ZLim(l))
  }

  /** `generate_zones`, with the shelf zone's y bound corrected: the
      `count_x * count_y` shelves, the shelving block shifted by the
      leading paddings, and the floor from the origin. In a proper layout
      every shelf lies inside the shelf zone, and the shelf zone inside the
      floor. */
  function GenerateZones(l: Layout): (zones: (seq<Zone>, Zone, Zone))
    ensures |zones.0| == RangeLen(l.countX) * RangeLen(l.countY)
    ensures Corners(zones.1)[0] == Point(l.bdrLeft, l.bdrTop, 0)
    ensures XRange(zones.1) == XLim(l) && YRange(zones.1) == YLim(l) && ZRange(zones.1) == ZLim(l)
    ensures Corners(zones.2)[0] == Point(0, 0, 0)
    ensures XRange(zones.2) == XLim(l) + l.bdrLeft + l.bdrRight
    ensures YRange(zones.2) == YLim(l) + l.bdrTop + l.bdrDown
    ensures ZRange(zones.2) == ZLim(l)
    ensures Proper(l) ==> Within(zones.1, zones.2)
    ensures Proper(l) ==> forall k :: 0 <= k < |zones.0| ==> Within(zones.0[k], zones.1) && Within(zones.0[k], zones.2)
  {
    var zones := (Shelves(l), ShelfZone(l), WhZone(l));
    if Proper(l) then
      ShelvesWithinFloor(l);
      ShelfWithinZones(l, 0, 0);
      zones
    else zones
  }

  /** Every point of `inner` is a point of `outer`. */
  predicate Within(inner: Zone, outer: Zone)
  {
    && outer.xLo <= inner.xLo && inner.xHi <= outer.xHi
    && outer.yLo <= inner.yLo && inner.yHi <= outer.yHi
    && outer.zLo <= inner.zLo && inner.zHi <= outer.zHi
  }

  lemma {:induction false} WithinContainsPoints(inner: Zone, outer: Zone, p: Point)
    requires Within(inner, outer)
    requires IsInside(inner, p.x, p.y, p.z)
    ensures IsInside(outer, p.x, p.y, p.z)
  {
  }

  /** Non-negative sizes, aisles and paddings and at least one shelf per
      axis: the layouts the warehouse configurations describe. */
  predicate Proper(l: Layout)
  {
    && l.shelfX >= 0 && l.shelfY >= 0 && l.shelfZ >= 0
    && l.aisleX >= 0 && l.aisleY >= 0
    && l.countX >= 1 && l.countY >= 1
    && l.bdrTop >= 0 && l.bdrDown >= 0 && l.bdrLeft >= 0 && l.bdrRight >= 0
  }

  lemma {:induction false} MulLe(a: int, b: int, c: int)
    requires 0 <= a <= b && 0 <= c
    ensures 0 <= a * c <= b * c
  {
    if a < b {
      MulLe(a, b - 1, c);
      assert b * c == (b - 1) * c + c;
    }
  }

  /** Column `i` of `c`, one shelf wide plus the aisles before it, fits in
      the block of `c` shelves and `c - 1` aisles. */
  lemma {:induction false} AxisFits(i: int, c: int, s: int, a: int)
    requires 0 <= i < c && s >= 0 && a >= 0
    ensures 0 <= i * (s + a)
    ensures i * (s + a) + s <= s * c + a * (c - 1)
  {
    MulLe(i, c - 1, s + a);
    assert (c - 1) * (s + a) == (c - 1) * s + (c - 1) * a;
    assert s * c == (c - 1) * s + s;
  }

  /** Each shelf lies inside the shelf zone, and the shelf zone inside the
      floor zone. */
  lemma {:induction false} ShelfWithinZones(l: Layout, i: int, j: int)
    requires Proper(l)
    requires 0 <= i < l.countX && 0 <= j < l.countY
    ensures Within(ShelfAt(l, i, j), ShelfZone(l))
    ensures Within(ShelfZone(l), WhZone(l))
  {
    AxisFits(i, l.countX, l.shelfX, l.aisleX);
    AxisFits(j, l.countY, l.shelfY, l.aisleY);
    AxisFits(0, l.countX, l.shelfX, l.aisleX);
    AxisFits(0, l.countY, l.shelfY, l.aisleY);
  }

  /** With a proper layout every generated shelf lies inside the shelf
      zone and inside the floor zone. */
  lemma {:induction false} ShelvesWithinFloor(l: Layout)
    requires Proper(l)
    ensures forall k :: 0 <= k < |Shelves(l)| ==>
              Within(Shelves(l)[k], ShelfZone(l)) && Within(Shelves(l)[k], WhZone(l))
  {
    ColumnsWithinFloor(l, l.countX);
  }

  lemma {:induction false} ColumnsWithinFloor(l: Layout, n: nat)
    requires Proper(l) && n <= l.countX
    ensures forall k :: 0 <= k < |ShelfColumns(l, n)| ==>
              Within(ShelfColumns(l, n)[k], ShelfZone(l)) && Within(ShelfColumns(l, n)[k], WhZone(l))
  {
    if n > 0 {
      ColumnsWithinFloor(l, n - 1);
      var ny := RangeLen(l.countY);
      var prev := ShelfColumns(l, n - 1);
      var column := Column(l, n - 1);
      assert ShelfColumns(l, n) == prev + column;
      forall j | 0 <= j < ny
        ensures Within(column[j], ShelfZone(l)) && Within(column[j], WhZone(l))
      {
        ShelfWithinZones(l, n - 1, j);
      }
    }
  }

  /** The shelf zone as written holds every shelf of a proper layout
      exactly when the shelving block is no deeper along y than it is wide
      along x. Otherwise the last shelf of the first column sticks out past
      the zone's y bound `xlim + bdr_top`. */
  lemma {:induction false} ShelfZoneAsWrittenMissesShelves(l: Layout)
    requires Proper(l)
    ensures (forall k :: 0 <= k < |Shelves(l)| ==> Within(Shelves(l)[k], ShelfZoneAsWritten(l))) <==>
              YLim(l) <= XLim(l)
  {
    if YLim(l) <= XLim(l) {
      ShelvesWithinFloor(l);
      assert Within(ShelfZone(l), ShelfZoneAsWritten(l));
    } else {
      var j := l.countY - 1;
      ShelvesAt(l, 0, j);
      LastShelfReach(l);
      assert !Within(Shelves(l)[Flat(0, j, RangeLen(l.countY))], ShelfZoneAsWritten(l));
    }
  }

  /** The last shelf of a column ends where the shelving block ends. */
  lemma {:induction false} LastShelfReach(l: Layout)
    requires l.countY >= 1
    ensures ShelfAt(l, 0, l.countY - 1).yHi == YLim(l) + l.bdrTop
  {
    var c := l.countY;
    assert (c - 1) * (l.shelfY + l.aisleY) == (c - 1) * l.shelfY + (c - 1) * l.aisleY;
    assert l.shelfY * c == (c - 1) * l.shelfY + l.shelfY;
    assert l.aisleY * (c - 1) == (c - 1) * l.aisleY;
  }

  /** Four 20-wide shelf columns with 40-wide aisles, and two 100-deep
      shelf rows with a 30-deep aisle: `xlim = 200`, `ylim = 230`, so shelf
      `(0, 1)` reaches `y = 230` while the zone as written stops at
      `y = 200`. */
  function WideLayout(): Layout
  {
    Layout(1, 1, 1, 0, 20, 100, 10, 40, 30, 4, 2, 0, 0, 0, 0, false, false, false, false)
  }

  lemma {:induction false} WideLayoutMissesShelf()
    ensures Proper(WideLayout()) && XLim(WideLayout()) == 200 && YLim(WideLayout()) == 230
    ensures ShelfAt(WideLayout(), 0, 1) == Zone(0, 20, 130, 230, 0, 10)
    ensures ShelfZoneAsWritten(WideLayout()) == Zone(0, 200, 0, 200, 0, 10)
  {
  }

  // ---------------------------------------------------------------------
  // Occupancy matrix
  // ---------------------------------------------------------------------

  /** A boolean matrix indexed `[x][y][z]`. */
  type Matrix = seq<seq<seq<bool>>>

  predicate HasShape(m: Matrix, nx: nat, ny: nat, nz: nat)
  {
    && |m| == nx
    && (forall i :: 0 <= i < nx ==> |m[i]| == ny)
    && (forall i, j :: 0 <= i < nx && 0 <= j < ny ==> |m[i][j]| == nz)
  }

  /** A numpy slice bound `v` on an axis of length `n`: negative values
      count from the end, and the result is clamped to `[0, n]`. */
  function SliceBound(v: int, n: nat): (b: nat)
    ensures b <= n
    ensures 0 <= v <= n ==> b == v
  {
    if v < 0 then (if v + n < 0 then 0 else v + n)
    else if v > n then n
    else v
  }

  /** Whether index `c` falls in the slice `[lo:hi]` of an axis of length
      `n`. */
  predicate InSlice(c: int, lo: int, hi: int, n: nat)
  {
    SliceBound(lo, n) <= c < SliceBound(hi, n)
  }

  /** Whether cell `(i, j, k)` is covered by the assignment
      `occ[x0:x1, y0:y1, z0:z1] = True` for a cell zone. */
  predicate Covers(zone: Zone, i: int, j: int, k: int, nx: nat, ny: nat, nz: nat)
  {
    && InSlice(i, zone.xLo, zone.xHi, nx)
    && InSlice(j, zone.yLo, zone.yHi, ny)
    && InSlice(k, zone.zLo, zone.zHi, nz)
  }

  /** `np.full((nx, ny, nz), False)`. */
  function Empty(nx: nat, ny: nat, nz: nat): (m: Matrix)
    ensures HasShape(m, nx, ny, nz)
  {
    seq(nx, i => seq(ny, j => seq(nz, k => false)))
  }

  /** One slice assignment of the fill loop: the cells the zone covers
      become True, the others keep their value. */
  function Fill(m: Matrix, zone: Zone, nx: nat, ny: nat, nz: nat): (r: Matrix)
    requires HasShape(m, nx, ny, nz)
    ensures HasShape(r, nx, ny, nz)
  {
    seq(nx, i requires 0 <= i < nx =>
      seq(ny, j requires 0 <= j < ny =>
        seq(nz, k requires 0 <= k < nz => m[i][j][k] || Covers(zone, i, j, k, nx, ny, nz))))
  }

  /** `make_occupancy_matrix` over cell zones: start all False, then fill
      each blocked zone in turn. */
  function MakeOccupancy(nx: nat, ny: nat, nz: nat, zones: seq<Zone>): (m: Matrix)
    ensures HasShape(m, nx, ny, nz)
  {
    if |zones| == 0 then Empty(nx, ny, nz)
    else Fill(MakeOccupancy(nx, ny, nz, zones[..|zones| - 1]), zones[|zones| - 1], nx, ny, nz)
  }

  /** The matrix dimensions at `resolution` cells per unit length: each
      extent of the floor zone times the resolution. */
  function FloorCells(l: Layout, resolution: nat): (int, int, int)
  {
    (XRange(WhZone(l)) * resolution, YRange(WhZone(l)) * resolution, ZRange(WhZone(l)) * resolution)
  }

  /** `make_occupancy_matrix` at a whole number of cells per unit length:
      a matrix over the floor zone with every blocked cell zone filled in.
      A floor with a negative extent asks numpy for a negative dimension,
      which raises ValueError. */
  function OccupancyMatrix(l: Layout, resolution: nat, zones: seq<Zone>): (r: Result<Matrix>)
    ensures r.Ok? <==> resolution == 0 || (XRange(WhZone(l)) >= 0 && YRange(WhZone(l)) >= 0 && ZRange(WhZone(l)) >= 0)
    ensures r.Err? ==> r.error == ValueError
    ensures Proper(l) ==> r.Ok?
    ensures r.Ok? ==> var (nx, ny, nz) := FloorCells(l, resolution);
              && nx >= 0 && ny >= 0 && nz >= 0 && HasShape(r.value, nx, ny, nz)
              && forall i, j, k :: 0 <= i < nx && 0 <= j < ny && 0 <= k < nz ==>
                   (r.value[i][j][k] <==> exists q :: 0 <= q < |zones| && Covers(zones[q], i, j, k, nx, ny, nz))
  {
    var (nx, ny, nz) := FloorCells(l, resolution);
    if nx < 0 || ny < 0 || nz < 0 then Err(ValueError)
    else
      var m := MakeOccupancy(nx, ny, nz, zones);
      OccupancyAll(nx, ny, nz, zones);
      Ok(m)
  }

  lemma {:induction false} OccupancyAll(nx: nat, ny: nat, nz: nat, zones: seq<Zone>)
    ensures forall i, j, k :: 0 <= i < nx && 0 <= j < ny && 0 <= k < nz ==>
              (MakeOccupancy(nx, ny, nz, zones)[i][j][k] <==> exists q :: 0 <= q < |zones| && Covers(zones[q], i, j, k, nx, ny, nz))
  {
    forall i, j, k | 0 <= i < nx && 0 <= j < ny && 0 <= k < nz
      ensures MakeOccupancy(nx, ny, nz, zones)[i][j][k] <==> exists q :: 0 <= q < |zones| && Covers(zones[q], i, j, k, nx, ny, nz)
    {
      OccupancyIff(nx, ny, nz, zones, i, j, k);
    }
  }

  /** A cell of the matrix is True exactly when some blocked zone covers
      it. */
  lemma {:induction false} OccupancyIff(nx: nat, ny: nat, nz: nat, zones: seq<Zone>, i: nat, j: nat, k: nat)
    requires i < nx && j < ny && k < nz
    ensures MakeOccupancy(nx, ny, nz, zones)[i][j][k] <==>
              exists q :: 0 <= q < |zones| && Covers(zones[q], i, j, k, nx, ny, nz)
  {
    if |zones| > 0 {
      var init := zones[..|zones| - 1];
      OccupancyIff(nx, ny, nz, init, i, j, k);
      FillAt(MakeOccupancy(nx, ny, nz, init), zones[|zones| - 1], nx, ny, nz, i, j, k);
      CoveredSnoc(zones, init, i, j, k, nx, ny, nz);
    }
  }

  lemma {:induction false} FillAt(m: Matrix, zone: Zone, nx: nat, ny: nat, nz: nat, i: nat, j: nat, k: nat)
    requires HasShape(m, nx, ny, nz) && i < nx && j < ny && k < nz
    ensures Fill(m, zone, nx, ny, nz)[i][j][k] == (m[i][j][k] || Covers(zone, i, j, k, nx, ny, nz))
  {
  }

  /** Some zone covers the cell exactly when one of the earlier zones or
      the last zone does. */
  lemma {:induction false} CoveredSnoc(zones: seq<Zone>, init: seq<Zone>, i: nat, j: nat, k: nat, nx: nat, ny: nat, nz: nat)
    requires |zones| > 0 && init == zones[..|zones| - 1]
    ensures (exists q :: 0 <= q < |zones| && Covers(zones[q], i, j, k, nx, ny, nz)) <==>
              (|| (exists q :: 0 <= q < |init| && Covers(init[q], i, j, k, nx, ny, nz))
               || Covers(zones[|zones| - 1], i, j, k, nx, ny, nz))
  {
    if exists q :: 0 <= q < |zones| && Covers(zones[q], i, j, k, nx, ny, nz) {
      var q :| 0 <= q < |zones| && Covers(zones[q], i, j, k, nx, ny, nz);
      if q < |init| {
        assert init[q] == zones[q];
      }
    }
    if exists q :: 0 <= q < |init| && Covers(init[q], i, j, k, nx, ny, nz) {
      var q :| 0 <= q < |init| && Covers(init[q], i, j, k, nx, ny, nz);
      assert zones[q] == init[q];
    }
  }

  /** For zones with limits inside the matrix, a cell is True exactly when
      it lies in the half-open box `[lo, hi)` of some zone on all three
      axes. */
  lemma {:induction false} OccupancyHalfOpen(nx: nat, ny: nat, nz: nat, zones: seq<Zone>, i: nat, j: nat, k: nat)
    requires i < nx && j < ny && k < nz
    requires forall q :: 0 <= q < |zones| ==>
               && 0 <= zones[q].xLo && 0 <= zones[q].xHi <= nx
               && 0 <= zones[q].yLo && 0 <= zones[q].yHi <= ny
               && 0 <= zones[q].zLo && 0 <= zones[q].zHi <= nz
    ensures MakeOccupancy(nx, ny, nz, zones)[i][j][k] <==>
              exists q :: 0 <= q < |zones| &&
                zones[q].xLo <= i < zones[q].xHi &&
                zones[q].yLo <= j < zones[q].yHi &&
                zones[q].zLo <= k < zones[q].zHi
  {
    OccupancyIff(nx, ny, nz, zones, i, j, k);
  }

  /** A numpy index on an axis of length `n`: negative values count from
      the end; anything outside `[-n, n)` raises IndexError (None). */
  function WrapIndex(v: int, n: nat): (r: Option<nat>)
    ensures r.Some? <==> 0 <= v + n && v < n
    ensures r.Some? ==> r.value < n && (r.value == v || r.value == v + n)
    ensures r.Some? ==> r.value == v % n
  {
    if v + n < 0 || v >= n then None
    else if v < 0 then Some(v + n)
    else Some(v)
  }

  /** Whether numpy accepts each coordinate of `cell` as an index into a
      matrix of shape `(nx, ny, nz)`: each lies in `[-n, n)`. */
  predicate Indexable(cell: Cell, nx: nat, ny: nat, nz: nat)
  {
    && 0 <= cell.x + nx && cell.x < nx
    && 0 <= cell.y + ny && cell.y < ny
    && 0 <= cell.z + nz && cell.z < nz
  }

  /** `cell_blocked`: the matrix entry at the cell, or None for an index
      out of range. A negative coordinate counts from the end of its axis,
      which is the coordinate modulo the axis length. */
  function CellBlocked(m: Matrix, nx: nat, ny: nat, nz: nat, cell: Cell): (r: Option<bool>)
    requires HasShape(m, nx, ny, nz)
    ensures r.Some? <==> Indexable(cell, nx, ny, nz)
    ensures r.Some? ==> r.value == m[cell.x % nx][cell.y % ny][cell.z % nz]
    ensures 0 <= cell.x < nx && 0 <= cell.y < ny && 0 <= cell.z < nz ==>
              r == Some(m[cell.x][cell.y][cell.z])
  {
    match (WrapIndex(cell.x, nx), WrapIndex(cell.y, ny), WrapIndex(cell.z, nz))
    case (Some(i), Some(j), Some(k)) => Some(m[i][j][k])
    case _ => None
  }

  /** The lookup fails for a cell numpy cannot index; any other cell is
      blocked exactly when some blocked zone covers the cell its
      coordinates wrap to (the cell itself when none is negative). */
  lemma {:induction false} CellBlockedIffCovered(nx: nat, ny: nat, nz: nat, zones: seq<Zone>, cell: Cell)
    ensures !Indexable(cell, nx, ny, nz) ==> CellBlocked(MakeOccupancy(nx, ny, nz, zones), nx, ny, nz, cell) == None
    ensures Indexable(cell, nx, ny, nz) ==>
              CellBlocked(MakeOccupancy(nx, ny, nz, zones), nx, ny, nz, cell) ==
              Some(exists q :: 0 <= q < |zones| && Covers(zones[q], cell.x % nx, cell.y % ny, cell.z % nz, nx, ny, nz))
  {
    if Indexable(cell, nx, ny, nz) {
      OccupancyIff(nx, ny, nz, zones, cell.x % nx, cell.y % ny, cell.z % nz);
    }
  }
}
